=== FILE: README.md ===
# TeleCompass core, modelled in Dafny

TeleCompass ingests telehealth policy PDFs, one or more per US state. For each
PDF it:

- cuts the extracted text into overlapping chunks;
- embeds every chunk;
- asks a language model for structured policy facts;
- serves a coverage dashboard, a side-by-side state comparison with CSV export,
  and question answering over the stored chunks.

This project models the deterministic logic that sits between the model and
database calls, and proves properties of it. Each embedding, chat, PDF-parsing,
file-system or database call is a parameter of the model: an oracle function
or a flag that says whether the call threw. There is one module per source
file:

| module | file | what it holds |
|---|---|---|
| `PdfProcessor` | lib/pdf-processor.ts | the chunker, chunk embedding, the state-name regex, the abbreviation table and its initials fallback |
| `Provider` | lib/openai.ts | the embedding batch, cosine similarity, chat-completion defaults |
| `Rag` | lib/rag.ts | search ranking, answer assembly and confidence, tolerant fact extraction |
| `IngestRunner` | lib/ingest-runner.ts | the FIFO job queue with its single-runner flag, as a sequential state machine |
| `StatesRoute` | app/api/states/route.ts | per-state coverage: covered and missing categories, score, average confidence, level |
| `CompareRoute` | app/api/compare/route.ts | request validation and the comparison table |
| `UploadsRoute` | app/api/uploads/route.ts | the gate order, file-name sanitising, the state-name fallback, the job enqueued |
| `PolicyComparator` | components/features/PolicyComparator.tsx | selection toggling, icons, colours, labels, export rows, CSV text |
| `Dashboard` | components/features/Dashboard.tsx | headline totals, coverage distribution, top-5 ranking |

Shared helpers:

- `Wrappers` holds `Option` and `Result`.
- `Text` holds JavaScript string behaviour: the white-space class, `trim`,
  ASCII case mapping, `includes` and `join`.
- `Sequences` holds filter, distinct, flatten and slice helpers.
- `Sorting` holds a stable insertion sort. Its uniqueness lemma shows that any
  stable sort, which is what `Array.prototype.sort` is, gives the same result.
- `Numeric` holds rounding and small real-arithmetic facts.
- `JsObject` holds the property names of `Object.prototype`, which every
  plain-object lookup in the source can reach.

A JavaScript `NaN` similarity is `None` in an `Option<real>`.
`Math.sqrt` is a parameter `sqrt`. Where a proof needs it, the predicate
`Provider.IsSqrt` constrains it to be non-negative with `sqrt(x) * sqrt(x) == x`.

The model follows these behaviours of the code, which a reader might not
expect:

- `topK` reaches `slice(0, topK)` unchecked from the search request
  (app/api/search/route.ts:10, lib/rag.ts:83), so a negative `topK` drops
  that many of the least similar results instead of bounding them.
- `Rag.SearchError` has a single case. lib/rag.ts:86-89 re-raises every
  search failure, a vector-length mismatch included, as one generic
  "Search failed" error.
- `confidence || 0.5` (lib/rag.ts:248) turns a confidence of 0 into 0.5, as
  it does a missing one, and keeps numbers outside [0, 1].
- A fact's category is stored as the language model returns it. The states
  route simply does not count categories outside its eight
  (app/api/states/route.ts:60-62).
- The worker can stop with jobs still queued: when the `failed` status write
  itself throws, the loop exits with the flag set. See the first finding.
- Plain objects inherit from `Object.prototype`; the module `JsObject` lists
  its property names. A state name that normalises to `constructor` or
  `__proto__` gets the inherited member as its abbreviation
  (lib/pdf-processor.ts:136-137), so creating that state fails. A queried
  fact whose category is one of those names makes the compare route throw at
  app/api/compare/route.ts:56-59, which gives its 500 reply.

## Model

| member | source | states |
|---|---|---|
| PdfProcessor.ChunkCount | lib/pdf-processor.ts:41 | the loop runs once per window start 0, 800, 1600, … below the text length, and not at all for empty text |
| PdfProcessor.CreateChunks | lib/pdf-processor.ts:36-55 | one chunk per window start; empty text gives no chunks |
| PdfProcessor.CreateChunksLoop | lib/pdf-processor.ts:36-55 | the `for` loop with its running `chunkIndex` builds exactly the windowed chunk sequence |
| PdfProcessor.ChunksInWindowOrder | lib/pdf-processor.ts:37-51 | chunk k is built from the window starting at 800·k and carries `chunkIndex` k |
| PdfProcessor.WindowsCoverText | lib/pdf-processor.ts:41-42 | every character position of the text lies in at least one window |
| PdfProcessor.ConsecutiveWindowsOverlap | lib/pdf-processor.ts:41-42 | consecutive windows overlap by 200 characters, or by the rest of the text when less remains |
| PdfProcessor.ChunkContentWithinWindow | lib/pdf-processor.ts:42-48 | a chunk's content is at most 1000 characters and occurs in the text (it is a trimmed window) |
| PdfProcessor.PageEstimateMonotone | lib/pdf-processor.ts:45 | the page estimate `ceil(start/len·numPages)` is between 0 and `numPages` and grows with the start |
| PdfProcessor.ChunkPages | lib/pdf-processor.ts:45 | the first chunk is on page 0 and later chunks never have a smaller page, up to `numPages` |
| PdfProcessor.EmbedChunks | lib/pdf-processor.ts:57-65 | chunk i is kept unchanged and paired with embedding i; any failed embedding fails the whole batch |
| PdfProcessor.ProcessPdf | lib/pdf-processor.ts:19-34 | an unreadable buffer is an error; otherwise the chunks are those of the extracted text and page count |
| PdfProcessor.TailMatches | lib/pdf-processor.ts:129 | the `\s+Telehealth` tail of the regex matches exactly when a non-empty white-space run is followed by the word, in any case |
| PdfProcessor.LazyCapture | lib/pdf-processor.ts:129 | the lazy `(.+?)` takes the shortest capture on one line that lets the tail match, or reports that none exists |
| PdfProcessor.GreedyResultIsFirstMatch | lib/pdf-processor.ts:129 | the backtracking order gives the longest `\s+` after "CCHP" that still has a capture, with the shortest capture for it |
| PdfProcessor.SearchFrom | lib/pdf-processor.ts:129 | scanning from a position finds the leftmost match, with no match before it |
| PdfProcessor.FindStateMatch | lib/pdf-processor.ts:129 | a match is returned exactly when the name contains one, and it is the first match |
| PdfProcessor.FirstMatchUnique | lib/pdf-processor.ts:129 | the preferred first match is unique, so the extracted name is well defined |
| PdfProcessor.ExtractStateName | lib/pdf-processor.ts:127-131 | "Unknown" when nothing matches; otherwise the non-empty capture of the first match |
| PdfProcessor.TableOwnsNoPrototypeKey | lib/pdf-processor.ts:67-125 | no name in the table is an `Object.prototype` property name, so a lookup finds an own entry or an inherited member, never both |
| PdfProcessor.GetStateAbbreviation | lib/pdf-processor.ts:133-145 | the inherited member is returned exactly for names that normalise to an `Object.prototype` property name; every other result is a non-empty code |
| PdfProcessor.AbbreviationOfBlankName | lib/pdf-processor.ts:134-135 | an empty or blank name gives "UN" |
| PdfProcessor.AbbreviationOfKnownName | lib/pdf-processor.ts:133-137 | a trimmed, lower-cased name found in the table gives the table entry |
| PdfProcessor.AbbreviationOfUnknownName | lib/pdf-processor.ts:138-142 | any other non-blank name that is not a prototype name gives the upper-cased initials of its first words, at least one and at most three |
| PdfProcessor.NormalizeBlank | lib/pdf-processor.ts:134-135 | the normalised name is empty exactly when the name is blank |
| Provider.GenerateEmbeddings | lib/openai.ts:14-36 | one vector per text, in order, embedding i coming from call i; a single failed call fails the batch with no partial list |
| Provider.CosineSimilarity | lib/openai.ts:62-78 | vectors of different lengths raise the mismatch error, and only those |
| Provider.CosineSymmetric | lib/openai.ts:67-77 | similarity(a, b) equals similarity(b, a), errors and NaN included |
| Provider.CosineUndefinedIffZeroVector | lib/openai.ts:77 | the result is NaN (0/0) exactly when one of the vectors is all zeros |
| Provider.SelfSimilarityIsOne | lib/openai.ts:67-77 | a non-zero vector has similarity 1 with itself |
| Provider.NormSqZeroIffZero | lib/openai.ts:71-75 | the sum of squares is non-negative and is zero exactly for the zero vector |
| Provider.ChatRequestFor | lib/openai.ts:43-52 | the messages are sent unchanged, and temperature and `num_predict` default to 0.3 and 512 |
| Provider.GenerateChatCompletion | lib/openai.ts:38-60 | a failed call is an error; a reply without message content gives "" |
| Rag.Candidates | lib/rag.ts:64-81 | a length mismatch with any chunk fails the search; otherwise exactly the chunks with an embedding and a similarity of at least 0.7 are kept, NaN excluded |
| Rag.Rank | lib/rag.ts:82-83 | `min(topK, n)` of the n candidates for a non-negative `topK`, and all but the last `-topK` for a negative one (none when that is n or more), in non-increasing similarity order |
| Rag.RankKeepsBest | lib/rag.ts:82-83 | a candidate is left out only when each kept result is at least as similar, and, for a non-negative `topK`, `topK` results were kept |
| Rag.CandidatesInStoreOrder | lib/rag.ts:64-81 | the candidates are the kept chunks in store order, one result per kept chunk, each carrying that chunk's fields and its similarity |
| Rag.RankIsStablePrefix | lib/rag.ts:82-83 | the result is the stable sort cut where `slice(0, topK)` cuts it, a negative `topK` counting back from the end: equal similarities keep their retrieval order |
| Rag.HybridSearch | lib/rag.ts:34-90 | fails exactly when the query embedding, the chunk load or a similarity fails; otherwise as many results as `slice(0, topK)` leaves of the candidates (at most `topK` when it is not negative), each at least 0.7, best first |
| Rag.HistoryTail | lib/rag.ts:140-143 | the last ten history messages (or all of them), in their original order |
| Rag.ContextCitesEveryResult | lib/rag.ts:115-120 | the context contains the `[i] From <state> (Page <p>):` rendering and the content of every result |
| Rag.AnswerMessages | lib/rag.ts:133-155 | the system prompt, then the history tail, then one user message holding the context and the question |
| Rag.ConfidenceBounds | lib/rag.ts:158-159 | `min(mean·1.2, 1)` lies in [0.84, 1] when every result has similarity at least 0.7 |
| Rag.RagQuery | lib/rag.ts:92-175 | a failed search fails the query; no results give the fixed reply; otherwise the answer comes from the chat call, with confidence from the similarities and one citation per result in rank order |
| Rag.NoResultsSkipsGeneration | lib/rag.ts:101-112 | with no results the reply does not depend on the chat provider: confidence 0, no citations, three suggested queries |
| Rag.RagConfidenceRange | lib/rag.ts:101-159 | a successful reply has either no citations and confidence 0, or citations and confidence in [0.84, 1] |
| Rag.Excerpt | lib/rag.ts:219 | the first 12000 characters of the text, or the whole text when shorter |
| Rag.ExtractionPromptExcerpt | lib/rag.ts:189-219 | every chunk's content is part of the newline-joined text, and only its first 12000 characters are sent |
| Rag.JsonSpanIsGreedyMatch | lib/rag.ts:229 | a span is found exactly when a `{` precedes a `}`; it runs from the first `{` to the last `}` |
| Rag.FactConfidence | lib/rag.ts:248 | a missing or zero confidence becomes 0.5 and any other value is kept |
| Rag.StoreFrom | lib/rag.ts:239-253 | facts are stored in order until the first failing write, and nothing after it |
| Rag.ExtractPolicyFacts | lib/rag.ts:177-258 | a missing policy or a failed chat call fails; no JSON span, an unparsable one or one without facts stores nothing and does not fail |
| Rag.ExtractedFactsAreStoredInOrder | lib/rag.ts:239-253 | the stored facts are a prefix of the parsed ones, each tied to the policy and its state with a non-zero confidence; success means all were stored |
| IngestRunner.ResolveBuffer | lib/ingest-runner.ts:97-107 | the in-memory buffer wins; otherwise the file is read; with neither there is no input |
| IngestRunner.TryJob | lib/ingest-runner.ts:41-75 | the error names exactly the first step that failed: no buffer and no path, a failed file read, PDF processing, embedding, chunk write, fact extraction or completion write. Chunk rows are written, and fact extraction starts, exactly when the document embeds and the chunk write succeeds. The job succeeds exactly when every step does |
| IngestRunner.RowsFollowChunks | lib/ingest-runner.ts:54-62 | one row per chunk, in order, carrying the policy, the chunk index, the content and embedding i |
| IngestRunner.StepOutcome | lib/ingest-runner.ts:41-91 | a job is `completed` with its processing time exactly when every step succeeds; otherwise it is `failed`, unless that write throws. Chunk rows are appended exactly when they were written. Other policies are untouched |
| IngestRunner.CleanupIndependentOfOutcome | lib/ingest-runner.ts:83-91 | the file is removed when asked for and present, however the job ended; a failed removal changes nothing else |
| IngestRunner.Loop | lib/ingest-runner.ts:37-92 | jobs leave the queue from the front in FIFO order; the loop stops early only when a `catch` block throws |
| IngestRunner.ProcessQueue | lib/ingest-runner.ts:33-95 | a call while the flag is set changes nothing; a run that clears the flag has taken every queued job in order |
| IngestRunner.ProcessQueueDrains | lib/ingest-runner.ts:37-94 | when no `failed` write throws, an idle worker takes every job in order and is idle again afterwards |
| IngestRunner.QueuePolicyProcessing | lib/ingest-runner.ts:17-31 | the job joins the back of the queue; a busy worker only queues it |
| IngestRunner.StuckFlagStrandsLaterJobs | lib/ingest-runner.ts:76-94 | as written, a throwing `failed` write leaves the flag set and a later job is never taken |
| IngestRunner.CorrectedWorkerNeverStrands | lib/ingest-runner.ts:33-95 | with the flag cleared in a `finally`, the worker is idle after every call and always takes the head of the queue |
| StatesRoute.LevelName | app/api/states/route.ts:76-81 | each level has one of the four names, and "None" is the name of the absent level only |
| StatesRoute.CoveredIffNamed | app/api/states/route.ts:53-65 | a category is covered exactly when it is in the taxonomy and some fact names it after lower-casing; missing is the rest of the taxonomy |
| StatesRoute.CoveragePartitionsTaxonomy | app/api/states/route.ts:60-65 | covered and missing are disjoint, keep taxonomy order, and together are exactly the eight categories |
| StatesRoute.CoverageScoreRange | app/api/states/route.ts:67-71 | the score is in [0, 100]; it is 100 exactly when all eight are covered, 0 exactly when none is |
| StatesRoute.CoverageScoreSteps | app/api/states/route.ts:71 | `Math.round` gives 38, 50, 63 and 75 for three to six categories |
| StatesRoute.AvgConfidence | app/api/states/route.ts:57-74 | 0 with no facts; otherwise the mean (missing confidences as 0) rounded to within 0.005 |
| StatesRoute.AvgConfidenceInUnit | app/api/states/route.ts:72-74 | confidences in [0, 1] give an average in [0, 1] |
| StatesRoute.LevelNeedsCategories | app/api/states/route.ts:76-81 | High needs six categories and confidence 0.7; Medium four and 0.5; Low at least one |
| StatesRoute.AbsentIffZeroScore | app/api/states/route.ts:79-80 | the level is None exactly when the score is 0 |
| StatesRoute.Summarize | app/api/states/route.ts:49-95 | a state's summary: fact count, coverage lists, score, average and level as above, with the policy count at most the stored policies |
| StatesRoute.PoliciesCountCompletedOnly | app/api/states/route.ts:87-89 | only completed policies are counted, and the latest policy is the first completed one |
| StatesRoute.GetStates | app/api/states/route.ts:15-105 | a failed query gives the error; otherwise one summary per state, in query order |
| CompareRoute.Query | app/api/compare/route.ts:18-27 | the result is exactly the stored states whose name was requested: every one of them appears, and each row is such a state with its facts unchanged without a filter, or narrowed to exactly its facts in the requested categories with one |
| CompareRoute.GroupFactsLastWriteWins | app/api/compare/route.ts:35-45 | a (category, field) cell holds the last fact written to it, or nothing |
| CompareRoute.BuildLastStateWins | app/api/compare/route.ts:32-46 | a state name maps to the grouping of its last matching state row |
| CompareRoute.TableKeysFirstSeen | app/api/compare/route.ts:49-66 | categories and their fields appear once each, exactly those seen, in first-seen order |
| CompareRoute.ValueFor | app/api/compare/route.ts:68-73 | a missing or empty value becomes "Not specified" and a missing confidence 0; the page is passed through |
| CompareRoute.TableValueIsLastWrite | app/api/compare/route.ts:30-75 | every table cell shows the last fact the last matching state wrote for that category and field |
| CompareRoute.Compare | app/api/compare/route.ts:4-89 | no names gives "States are required" and more than three gives "Maximum 3 states allowed". The 500 error comes exactly from a failed query or from a queried fact whose category is an `Object.prototype` property name, on which `add` throws. Otherwise the reply holds the request's names and the table |
| CompareRoute.AcceptedRequestsYieldFullRows | app/api/compare/route.ts:9-75 | one to three names with a working store give a table exactly when no queried category is a prototype name. Every field row then has one value per requested name, in request order |
| UploadsRoute.Sanitize | app/api/uploads/route.ts:35 | the same length, with every character outside `[A-Za-z0-9_. -]` replaced by `_` |
| UploadsRoute.SanitizeIsSafeAndIdempotent | app/api/uploads/route.ts:35 | the result has only allowed characters; names of allowed characters are unchanged; sanitising twice is sanitising once |
| UploadsRoute.StoredFileName | app/api/uploads/route.ts:36 | the stored name is the UUID, a dash and the sanitised name |
| UploadsRoute.StoredNameStaysInDirectory | app/api/uploads/route.ts:35-37 | the stored name has no path separator and is neither "." nor "..", so it stays in the uploads directory |
| UploadsRoute.StateNameFallback | app/api/uploads/route.ts:44-45 | the trimmed extracted name, or "Unknown" when that is blank; never empty and never with outer white space |
| UploadsRoute.FindState | app/api/uploads/route.ts:47-49 | the first state whose name matches case-insensitively, or none when no name does |
| UploadsRoute.StateCreatedOnlyWhenMissing | app/api/uploads/route.ts:47-59 | a state, with the name's abbreviation, is created exactly when no existing name matches case-insensitively. The creation yields a state exactly when the abbreviation is a code and the store returns an id |
| UploadsRoute.Upload | app/api/uploads/route.ts:11-87 | the upload gate is checked before the ingest gate. Once both are open, an unreadable form gives the 500 error, while a missing file and a non-PDF type give their 400 errors, exactly in those cases. The file is stored exactly when the directory and file writes succeed as well. The upload succeeds, and queues a job, exactly when the state lookup, the state resolution and the policy creation succeed too. A created state is recorded exactly when the file is stored and the state resolves, and it is the one the resolution created, or none when the name matched. A created policy is recorded exactly on success |
| UploadsRoute.AcceptedUploadIsQueued | app/api/uploads/route.ts:12-82 | success needs both gates open and a PDF; the file is written under its stored name; the policy is `processing`; the job carries the buffer and path with no deletion; the policy is filed under the found or created state, and the reply names that state in its stored spelling |
| PolicyComparator.SelectableStatesOrdered | components/features/PolicyComparator.tsx:56-58 | exactly the states with policies, by fact count descending, in stable order |
| PolicyComparator.ToggleState | components/features/PolicyComparator.tsx:70-79 | a selected name is removed and the other names keep their order; a new one is added at the end only below three; the selection never grows beyond three |
| PolicyComparator.ToggleKeepsSelectionBounded | components/features/PolicyComparator.tsx:70-79 | toggling keeps at most three distinct names, and toggling a newly added name again undoes it |
| PolicyComparator.CompareRequestFor | components/features/PolicyComparator.tsx:81-92 | fewer than two states send nothing; otherwise the request names exactly the selection |
| PolicyComparator.SelectionRequestsAreAccepted | components/features/PolicyComparator.tsx:81-92 | a request the comparator sends always passes the route's validation. It fails only with the 500 error, exactly when the store fails or a queried category is a prototype name |
| PolicyComparator.ValueIconAsWrittenInvertsNegatives | components/features/PolicyComparator.tsx:108-120 | as written, "not allowed" gets the check icon and "not specified" never gets the alert icon |
| PolicyComparator.NotSpecifiedShownAsCrossAsWritten | components/features/PolicyComparator.tsx:113-116 | as written, the route's "Not specified" placeholder gets the cross icon |
| PolicyComparator.ValueIconHonoursNegatives | components/features/PolicyComparator.tsx:108-120 | corrected: "not allowed" gets the cross, "not specified" the alert, and other values keep their icon |
| PolicyComparator.ConfidenceColourMonotone | components/features/PolicyComparator.tsx:122-126 | green from 0.8, red below 0.6, and a higher confidence never gets a worse colour |
| PolicyComparator.FilteredStates | components/features/PolicyComparator.tsx:128-129 | a blank search term keeps every state |
| PolicyComparator.FilteredStatesMatch | components/features/PolicyComparator.tsx:128-133 | otherwise exactly the states whose lower-cased name contains the lower-cased term, in order |
| PolicyComparator.FormatLabelProperties | components/features/PolicyComparator.tsx:135-138 | no underscore is left, spaces stand exactly where underscores or spaces were, every other character is kept and upper-cased only where a word starts, no word starts with a lower-case letter, and formatting is idempotent |
| PolicyComparator.FindValueForState | components/features/PolicyComparator.tsx:140-141 | the first value that names the state, or none exactly when no value names it |
| PolicyComparator.RowForDefaults | components/features/PolicyComparator.tsx:149-157 | a missing value gives "Not available", confidence 0 and no page; a present one gives its value, page and rounded percentage |
| PolicyComparator.ExportRows | components/features/PolicyComparator.tsx:143-144 | no comparison, or fewer than two states, gives no rows |
| PolicyComparator.ExportRowsNesting | components/features/PolicyComparator.tsx:143-161 | one row per category × field × state, at the position that nesting order gives |
| PolicyComparator.RouteTableRowsAreComplete | components/features/PolicyComparator.tsx:149-154 | on a table from the compare route, every selected state has a value, so "Not available" never appears |
| PolicyComparator.RowCells | components/features/PolicyComparator.tsx:167-177 | the six cells in header order: category, field, state, value, the confidence as a decimal string, and the page as a decimal string or empty |
| PolicyComparator.CsvRows | components/features/PolicyComparator.tsx:166-177 | the header comes first, then one row of cells per export row |
| PolicyComparator.ParseEscapedCell | components/features/PolicyComparator.tsx:180-185 | a cell escaped as section 2 of RFC 4180 requires reads back as the same cell |
| PolicyComparator.ParseEncodedTable | components/features/PolicyComparator.tsx:178-189 | cells joined with "," and rows joined with a line feed read back as the same rows |
| PolicyComparator.ExportAsWrittenAgreesWithoutLineBreaks | components/features/PolicyComparator.tsx:163-189 | `ExportCsvAsWritten`, the export as written, equals the corrected export whenever no header or row cell holds CR or LF |
| PolicyComparator.ExportCsvRoundTrip | components/features/PolicyComparator.tsx:163-189 | corrected export: the CSV text reads back as the header and the export rows |
| PolicyComparator.LineBreakSplitsRecordAsWritten | components/features/PolicyComparator.tsx:180-185 | as written, a cell with a line feed is not quoted and reads back as two records |
| Dashboard.Stats | components/features/Dashboard.tsx:56-59 | the number of states, the policy and fact totals as the sums over the states, and the facts per state rounded to the nearest whole number, 0 with no states |
| Dashboard.TotalsSplit | components/features/Dashboard.tsx:57-58 | the policy and fact totals add up over any split of the list |
| Dashboard.AvgFactsWithinRange | components/features/Dashboard.tsx:58-59 | the rounded average lies between the smallest and largest fact counts |
| Dashboard.LoadDashboard | components/features/Dashboard.tsx:47-75 | a network failure and an unsuccessful reply give their two errors; otherwise the states and their totals |
| Dashboard.CoverageStyleLabels | components/features/Dashboard.tsx:77-88 | High, Medium and Low keep their label; anything else gets the grey None style |
| Dashboard.Distribution | components/features/Dashboard.tsx:226-231 | four counts, one per level name, each the number of states at that level |
| Dashboard.DistributionCoversAll | components/features/Dashboard.tsx:226-231 | the counts plus the states with an unknown level make up every state; they sum to the number of states exactly when every level is known |
| Dashboard.RouteStatesFillTheDistribution | components/features/Dashboard.tsx:226-231 | for states sent by the states route the four counts always sum to the number of states |
| Dashboard.TopStates | components/features/Dashboard.tsx:250-252 | at most five states, by score descending and then confidence descending |
| Dashboard.TopStatesKeepBest | components/features/Dashboard.tsx:250-252 | a state is left out only when five were shown and each of them ranks at least as high |
| Dashboard.TopStatesIsStablePrefix | components/features/Dashboard.tsx:250-252 | the list is the first five of the stable sort, so ties keep the route's name order |
| Sorting.SortIsStable | lib/rag.ts:82 | the sort is ordered, a permutation, and keeps each group of ties in input order |
| Sorting.StableSortUnique | lib/rag.ts:82 | two stable sorts of the same list agree, so any stable `Array.prototype.sort` gives the modelled result |

## Left out

- Provider internals: the Ollama embedding and chat calls, `pdf-parse`, and every Prisma query or write are oracle parameters. Their results and failures are inputs, and their behaviour is not modelled.
- Floating point: similarities, confidences and averages are reals. `Math.sqrt` is a parameter, and `toFixed(2)` is modelled only as a rounding within 0.005.
- Provider.CosineSimilarity: the bound of the result to [-1, 1] is not proved, because it needs the Cauchy–Schwarz inequality over an abstract `sqrt`.
- StatesRoute.AvgConfidence: states the rounding to within 0.005, not the exact two-decimal binary result of `parseFloat(x.toFixed(2))`.
- Text: case mapping covers ASCII letters only, where JavaScript maps all of Unicode. A character is one UTF-16 code unit.
- Concurrency: `void processQueue()` and the async interleaving of requests are modelled as one sequential state machine. The worker never runs two jobs at once in this model by construction.
- Clock and identifiers: `new Date()` and `randomUUID()` are parameters.
- Console logging is left out everywhere.
- UploadsRoute.ResolveState: the model assumes the database client rejects a state whose abbreviation is an inherited function or object rather than a string. That client's validation is not part of this model.
- CompareRoute.Compare: the request body is assumed to be JSON with an array of strings or nothing for `stateNames` and `categories`. A throwing `request.json()` or a `stateNames` of another type reaches the 500 reply in the source, and the model has no such input.
- CompareRoute.Compare: state names and fields that are `Object.prototype` property names are looked up as ordinary keys. In the source a requested name like `constructor` that is not stored reads the inherited member, whose properties hold no value, so the cell still shows "Not specified".
- CompareRoute.Compare: a prototype-named category can write onto `Object.prototype` before the route throws, at app/api/compare/route.ts:36-40. That change outlives the request, and the model does not carry it to later requests.
- Rag.HybridSearch: `topK` is an integer. A fractional or non-numeric `topK`, which `slice` converts to an integer first, is not modelled.
- PdfProcessor.PageEstimateMonotone: the page estimate `Math.ceil(i / text.length * numPages)` is computed on exact reals, where the source uses floating point, so a rounding that lands just above a whole number is not modelled.
- Database ordering is an oracle: `orderBy: name` on states, the order of each state's policies, and row order in the compare query. The model takes the rows as given, in order. The states query has no `orderBy` on policies, so which completed policy comes first, and so becomes `latestPolicy`, is up to the store. The `status: "completed"` filter is modelled, not taken from the store.
- Dashboard: `states.sort` sorts the React state array in place; only the displayed order is modelled.
- The XLSX export, JSX rendering, `fetch` plumbing, loading and error flags, and the download link are user interface, not logic.
- app/api/search/route.ts, app/api/qa/route.ts and app/api/ingest/route.ts are thin handlers and are not part of this model, nor are scripts/*, app/page.tsx and the other UI components. The ingest route's two-letter abbreviation, which differs from `getStateAbbreviation`, is therefore not modelled.
- The `pending` status that operator scripts set outside the worker is not part of this model.
- Rag.ExtractPolicyFacts: JSON parsing is a parameter. Only the span cut before parsing and the use of its `facts` list are modelled.

## Findings

| source | as written | input that shows it | evidently intended | confidence | as-written member | corrected member |
|---|---|---|---|---|---|---|
| lib/ingest-runner.ts:76-94 | when the `failed` status write in the `catch` block throws, the loop exits before `isProcessing = false`, so the flag stays set | a job whose processing fails while the database is down; a job queued later is never taken | the flag is cleared on every exit, for instance in a `finally` | not executed | IngestRunner.StuckFlagStrandsLaterJobs | IngestRunner.CorrectedWorkerNeverStrands |
| components/features/PolicyComparator.tsx:108-120 | the "allowed" test comes before "not allowed", and "no" matches "not specified" | "Not allowed" gets the check icon; "Not specified" gets the cross icon | negative phrases are checked first, so they get the cross and the alert | not executed | PolicyComparator.ValueIconAsWrittenInvertsNegatives | PolicyComparator.ValueIconHonoursNegatives |
| components/features/PolicyComparator.tsx:180-185 | a cell is quoted only when it holds `"` or `,`, so a line break inside a cell is written bare | a fact value "a\nb" is read back as two records | cells with CR or LF are quoted too, as section 2 of RFC 4180 requires | not executed | PolicyComparator.LineBreakSplitsRecordAsWritten | PolicyComparator.ExportCsvRoundTrip |

=== FILE: compare_route.dfy ===
/** The side-by-side comparison served by `POST /api/compare`
    (app/api/compare/route.ts): request validation, the grouping of facts by
    state, category and field, and the table built from it. The store is an
    oracle holding every state with its facts; the model evaluates the query's
    `where` clauses on it. */
module CompareRoute {
  import opened Wrappers
  import opened Sequences
  import JsObject

  datatype Fact = Fact(category: string, field: string, value: string, confidence: real,
                       pageNumber: Option<int>)

  /** A stored state and its facts, in store order. */
  datatype StateFacts = StateFacts(name: string, facts: seq<Fact>)

  /** The request body; either member may be absent. */
  datatype CompareRequest = CompareRequest(stateNames: Option<seq<string>>,
                                           categories: Option<seq<string>>)

  /** What the grouping keeps of a fact. */
  datatype Cell = Cell(value: string, confidence: real, pageNumber: Option<int>)

  datatype TableValue = TableValue(state: string, value: string, confidence: real,
                                   pageNumber: Option<int>)
  datatype TableField = TableField(field: string, values: seq<TableValue>)
  datatype TableCategory = TableCategory(category: string, fields: seq<TableField>)

  datatype CompareResponse = CompareResponse(states: seq<string>, comparison: seq<TableCategory>)

  datatype CompareError =
    | StatesRequired  // 400 "States are required"
    | TooManyStates   // 400 "Maximum 3 states allowed"
    | CompareFailed   // 500 "Failed to compare policies"

  const MaxStates := 3
  const NotSpecified := "Not specified"

  // ---------------------------------------------------------------------- query

  /** The query: the states named in the request, each with its facts narrowed
      to the requested categories when a category list is given (an empty list
      keeps no fact). */
  function Query(store: seq<StateFacts>, names: seq<string>, categories: Option<seq<string>>)
    : (r: seq<StateFacts>)
    ensures |r| <= |store|
    ensures forall i :: 0 <= i < |r| ==> r[i].name in names
    ensures categories.Some? ==>
              forall i, f :: 0 <= i < |r| && f in r[i].facts ==> f.category in categories.value
    ensures forall i :: 0 <= i < |r| ==>
              exists j :: 0 <= j < |store| && store[j].name in names && Narrowed(r[i], store[j], categories)
    ensures forall j :: 0 <= j < |store| && store[j].name in names ==>
              exists i :: 0 <= i < |r| && Narrowed(r[i], store[j], categories)
  {
    var named := Filter(store, (s: StateFacts) => s.name in names);
    assert forall i :: 0 <= i < |named| ==> named[i] in named;
    var r := seq(|named|, i requires 0 <= i < |named| =>
      match categories
      case None => named[i]
      case Some(cs) => named[i].(facts := Filter(named[i].facts, (f: Fact) => f.category in cs)));
    assert forall i :: 0 <= i < |named| ==> Narrowed(r[i], named[i], categories);
    assert forall j :: 0 <= j < |store| && store[j].name in names ==> store[j] in named;
    r
  }

  /** A returned row is a stored state with its facts narrowed to the
      requested categories, or left whole when no list is given. */
  ghost predicate Narrowed(row: StateFacts, st: StateFacts, categories: Option<seq<string>>) {
    && row.name == st.name
    && (categories.None? ==> row.facts == st.facts)
    && (categories.Some? ==> forall f :: f in row.facts <==> f in st.facts && f.category in categories.value)
  }

  // ------------------------------------------------------------------- grouping

  function CellOf(f: Fact): Cell {
    Cell(f.value, f.confidence, f.pageNumber)
  }

  predicate Writes(f: Fact, category: string, field: string) {
    f.category == category && f.field == field
  }

  /** The inner loop: one state's facts by category, then field. Each fact
      overwrites what an earlier fact stored under the same pair. */
  function GroupFacts(facts: seq<Fact>): map<string, map<string, Cell>> {
    if |facts| == 0 then map[]
    else
      var m := GroupFacts(facts[..|facts| - 1]);
      var f := facts[|facts| - 1];
      var row := if f.category in m then m[f.category] else map[];
      m[f.category := row[f.field := CellOf(f)]]
  }

  function Lookup(m: map<string, map<string, Cell>>, category: string, field: string): Option<Cell> {
    if category in m && field in m[category] then Some(m[category][field]) else None
  }

  /** Last write wins: the cell stored for a category and field is the one of
      the last fact naming both, and there is none when no fact does. */
  lemma {:induction false} GroupFactsLastWriteWins(facts: seq<Fact>, category: string, field: string)
    ensures var i := LastIndex(facts, (f: Fact) => Writes(f, category, field));
            Lookup(GroupFacts(facts), category, field) == if i < 0 then None else Some(CellOf(facts[i]))
  {
    if |facts| > 0 {
      var p := facts[..|facts| - 1];
      GroupFactsLastWriteWins(p, category, field);
      assert LastIndex(facts, (f: Fact) => Writes(f, category, field))
          == (if Writes(facts[|facts| - 1], category, field) then |facts| - 1
              else LastIndex(p, (f: Fact) => Writes(f, category, field)));
      var i := LastIndex(p, (f: Fact) => Writes(f, category, field));
      if i >= 0 {
        assert facts[i] == p[i];
      }
    }
  }

  /** The outer loop: each state's grouping under its name; a later state of
      the same name replaces an earlier one. */
  function Build(states: seq<StateFacts>): map<string, map<string, map<string, Cell>>> {
    if |states| == 0 then map[]
    else
      var s := states[|states| - 1];
      Build(states[..|states| - 1])[s.name := GroupFacts(s.facts)]
  }

  /** The cell shown for a state: the grouping of the last state of that name. */
  function CellFor(comparison: map<string, map<string, map<string, Cell>>>,
                   name: string, category: string, field: string): Option<Cell> {
    if name in comparison then Lookup(comparison[name], category, field) else None
  }

  lemma {:induction false} BuildLastStateWins(states: seq<StateFacts>, name: string)
    ensures var i := LastIndex(states, (s: StateFacts) => s.name == name);
            (name in Build(states) <==> i >= 0)
            && (i >= 0 ==> Build(states)[name] == GroupFacts(states[i].facts))
  {
    if |states| > 0 {
      var p := states[..|states| - 1];
      BuildLastStateWins(p, name);
      assert LastIndex(states, (s: StateFacts) => s.name == name)
          == (if states[|states| - 1].name == name then |states| - 1
              else LastIndex(p, (s: StateFacts) => s.name == name));
      var i := LastIndex(p, (s: StateFacts) => s.name == name);
      if i >= 0 {
        assert states[i] == p[i];
      }
    }
  }

  // ---------------------------------------------------------- categories, fields

  /** Every fact of the queried states, state by state. */
  function AllFacts(states: seq<StateFacts>): seq<Fact> {
    if |states| == 0 then [] else states[0].facts + AllFacts(states[1..])
  }

  function CategoriesOf(facts: seq<Fact>): seq<string> {
    seq(|facts|, i requires 0 <= i < |facts| => facts[i].category)
  }

  function FieldsIn(facts: seq<Fact>, category: string): seq<string> {
    var matching := Filter(facts, (f: Fact) => f.category == category);
    seq(|matching|, i requires 0 <= i < |matching| => matching[i].field)
  }

  /** The table's categories: each category of a queried fact once, in the
      order it was first met. */
  function TableCategories(states: seq<StateFacts>): seq<string> {
    Distinct(CategoriesOf(AllFacts(states)))
  }

  /** A category's fields: each field of a queried fact in that category once,
      in the order it was first met. */
  function TableFields(states: seq<StateFacts>, category: string): seq<string> {
    Distinct(FieldsIn(AllFacts(states), category))
  }

  /** Categories and fields appear exactly once each, in first-seen order, and
      they are exactly the ones some queried fact names. */
  lemma TableKeysFirstSeen(states: seq<StateFacts>, category: string)
    ensures var cs := CategoriesOf(AllFacts(states));
            && NoDuplicates(TableCategories(states))
            && (forall c :: c in TableCategories(states) <==> exists f :: f in AllFacts(states) && f.category == c)
            && (forall i, j :: 0 <= i < j < |TableCategories(states)| ==>
                  IndexOfFirst(cs, TableCategories(states)[i]) < IndexOfFirst(cs, TableCategories(states)[j]))
    ensures var fs := FieldsIn(AllFacts(states), category);
            && NoDuplicates(TableFields(states, category))
            && (forall x :: x in TableFields(states, category) <==>
                  exists f :: f in AllFacts(states) && f.category == category && f.field == x)
            && (forall i, j :: 0 <= i < j < |TableFields(states, category)| ==>
                  IndexOfFirst(fs, TableFields(states, category)[i]) < IndexOfFirst(fs, TableFields(states, category)[j]))
  {
    var facts := AllFacts(states);
    var cs := CategoriesOf(facts);
    DistinctFirstSeenOrder(cs);
    DistinctFirstSeenOrder(FieldsIn(facts, category));
    forall c ensures c in cs <==> exists f :: f in facts && f.category == c {
      if c in cs {
        var i :| 0 <= i < |cs| && cs[i] == c;
        assert facts[i] in facts;
      }
      if exists f :: f in facts && f.category == c {
        var f :| f in facts && f.category == c;
        var i :| 0 <= i < |facts| && facts[i] == f;
        assert cs[i] == c;
      }
    }
    var matching := Filter(facts, (f: Fact) => f.category == category);
    forall x ensures x in FieldsIn(facts, category) <==> exists f :: f in facts && f.category == category && f.field == x {
      if x in FieldsIn(facts, category) {
        var i :| 0 <= i < |matching| && matching[i].field == x;
        assert matching[i] in matching;
      }
      if exists f :: f in facts && f.category == category && f.field == x {
        var f :| f in facts && f.category == category && f.field == x;
        var i :| 0 <= i < |matching| && matching[i] == f;
        assert FieldsIn(facts, category)[i] == x;
      }
    }
  }

  // ---------------------------------------------------------------------- table

  /** One state's entry for a field: `|| "Not specified"` for a missing or
      empty value, `|| 0` for a missing confidence, the page as stored. */
  function ValueFor(name: string, cell: Option<Cell>): (r: TableValue)
    ensures r.state == name
    ensures r.value == NotSpecified <==> cell.None? || cell.value.value in {"", NotSpecified}
    ensures cell.Some? && cell.value.value != "" ==> r.value == cell.value.value
    ensures r.confidence == (if cell.Some? then cell.value.confidence else 0.0)
    ensures r.pageNumber == (if cell.Some? then cell.value.pageNumber else None)
  {
    match cell
    case None => TableValue(name, NotSpecified, 0.0, None)
    case Some(c) =>
      TableValue(name, if c.value != "" then c.value else NotSpecified, c.confidence, c.pageNumber)
  }

  function FieldRow(comparison: map<string, map<string, map<string, Cell>>>, names: seq<string>,
                    category: string, field: string): (r: TableField)
    ensures r.field == field && |r.values| == |names|
    ensures forall i :: 0 <= i < |names| ==>
              r.values[i] == ValueFor(names[i], CellFor(comparison, names[i], category, field))
  {
    TableField(field, seq(|names|, i requires 0 <= i < |names| =>
                            ValueFor(names[i], CellFor(comparison, names[i], category, field))))
  }

  /** The comparison table: categories, then fields, then one value per
      requested name in request order, names without a matching state
      included. */
  function Table(states: seq<StateFacts>, names: seq<string>): (r: seq<TableCategory>)
    ensures |r| == |TableCategories(states)|
    ensures forall k :: 0 <= k < |r| ==>
              var c := TableCategories(states)[k];
              && r[k].category == c
              && |r[k].fields| == |TableFields(states, c)|
              && forall j :: 0 <= j < |r[k].fields| ==>
                   r[k].fields[j] == FieldRow(Build(states), names, c, TableFields(states, c)[j])
  {
    var comparison := Build(states);
    var cats := TableCategories(states);
    seq(|cats|, k requires 0 <= k < |cats| =>
      var fields := TableFields(states, cats[k]);
      TableCategory(cats[k], seq(|fields|, j requires 0 <= j < |fields| =>
                                   FieldRow(comparison, names, cats[k], fields[j]))))
  }

  /** The value a table cell shows is the last fact written under that state
      name, category and field, by the last queried state of that name. */
  lemma TableValueIsLastWrite(states: seq<StateFacts>, names: seq<string>, k: nat, j: nat, i: nat)
    requires k < |Table(states, names)| && j < |Table(states, names)[k].fields| && i < |names|
    ensures var c := TableCategories(states)[k];
            var fl := TableFields(states, c)[j];
            var s := LastIndex(states, (s: StateFacts) => s.name == names[i]);
            var cell := if s < 0 then None
                        else var w := LastIndex(states[s].facts, (f: Fact) => Writes(f, c, fl));
                             if w < 0 then None else Some(CellOf(states[s].facts[w]));
            Table(states, names)[k].fields[j].values[i] == ValueFor(names[i], cell)
  {
    var c := TableCategories(states)[k];
    var fl := TableFields(states, c)[j];
    BuildLastStateWins(states, names[i]);
    var s := LastIndex(states, (s: StateFacts) => s.name == names[i]);
    if s >= 0 {
      GroupFactsLastWriteWins(states[s].facts, c, fl);
    }
  }

  // -------------------------------------------------------------------- request

  /** Some queried fact's category is a property name of `Object.prototype`.
      `allFields` is a plain object, so `allFields[fact.category]` then finds
      the inherited member: it is truthy, no Set is created, and the `add`
      call throws a TypeError. */
  predicate InheritedCategory(states: seq<StateFacts>) {
    exists c :: c in CategoriesOf(AllFacts(states)) && c in JsObject.PrototypeKeys
  }

  /** `POST /api/compare`: the two 400 checks in order, then the query and the
      table; a throwing store or a fact with a prototype-named category gives
      500. */
  function Compare(req: CompareRequest, store: Option<seq<StateFacts>>): (r: Result<CompareResponse, CompareError>)
    ensures req.stateNames.None? || |req.stateNames.value| == 0 <==> r == Failure(StatesRequired)
    ensures r == Failure(TooManyStates) <==> req.stateNames.Some? && |req.stateNames.value| > MaxStates
    ensures r == Failure(CompareFailed) <==>
              && req.stateNames.Some? && 1 <= |req.stateNames.value| <= MaxStates
              && (store.None? || InheritedCategory(Query(store.value, req.stateNames.value, req.categories)))
    ensures r.Success? ==> r.value.states == req.stateNames.value
    ensures r.Success? ==>
              r.value.comparison == Table(Query(store.value, req.stateNames.value, req.categories),
                                          req.stateNames.value)
  {
    match req.stateNames
    case None => Failure(StatesRequired)
    case Some(names) =>
      if |names| == 0 then Failure(StatesRequired)
      else if |names| > MaxStates then Failure(TooManyStates)
      else match store
        case None => Failure(CompareFailed)
        case Some(all) =>
          var states := Query(all, names, req.categories);
          if InheritedCategory(states) then Failure(CompareFailed)
          else Success(CompareResponse(names, Table(states, names)))
  }

  /** One to three names with a working store yield a table exactly when no
      queried fact has a prototype-named category, with one value per
      requested name, in request order, in every row. */
  lemma AcceptedRequestsYieldFullRows(req: CompareRequest, all: seq<StateFacts>, k: nat, j: nat)
    requires req.stateNames.Some? && 1 <= |req.stateNames.value| <= 3
    ensures Compare(req, Some(all)).Success? <==>
              !InheritedCategory(Query(all, req.stateNames.value, req.categories))
    ensures var r := Compare(req, Some(all));
            r.Success? && k < |r.value.comparison| && j < |r.value.comparison[k].fields| ==>
              var values := r.value.comparison[k].fields[j].values;
              && |values| == |req.stateNames.value|
              && forall i :: 0 <= i < |req.stateNames.value| ==> values[i].state == req.stateNames.value[i]
  {
    var names := req.stateNames.value;
    var states := Query(all, names, req.categories);
    if !InheritedCategory(states) {
      var t := Table(states, names);
      assert Compare(req, Some(all)) == Success(CompareResponse(names, t));
      if k < |t| && j < |t[k].fields| {
        var c := TableCategories(states)[k];
        var row := FieldRow(Build(states), names, c, TableFields(states, c)[j]);
        assert t[k].fields[j] == row;
        forall i | 0 <= i < |names| ensures row.values[i].state == names[i] {
          assert row.values[i] == ValueFor(names[i], CellFor(Build(states), names[i], c, TableFields(states, c)[j]));
        }
      }
    }
  }
}

=== FILE: dashboard.dfy ===
/** The aggregates of the coverage dashboard (components/features/Dashboard.tsx):
    the headline totals, the style of a coverage badge, the coverage
    distribution and the "Top Performing States" list. The client sees the
    states response as JSON, so a level arrives as its name. */
module Dashboard {
  import opened Wrappers
  import opened Numeric
  import opened Sequences
  import opened Sorting
  import StatesRoute

  /** The fields of one state of the response that the dashboard reads. */
  datatype StateCard = StateCard(id: string, name: string, policiesCount: nat, factsCount: nat,
                                 coverageScore: int, coverageLevel: string, avgConfidence: real)

  datatype DashboardStats = DashboardStats(totalStates: nat, totalPolicies: nat, totalFacts: nat,
                                           avgFactsPerState: int)

  datatype DashboardError =
    | LoadFailed    // "Failed to load dashboard data"
    | NetworkError  // "Network error occurred"

  /** A state of the response as the client reads it. */
  function CardOf(s: StatesRoute.StateSummary): (r: StateCard)
    ensures r.coverageLevel == StatesRoute.LevelName(s.coverageLevel)
    ensures r.id == s.id && r.name == s.name && r.coverageScore == s.coverageScore
  {
    StateCard(s.id, s.name, s.policiesCount, s.factsCount, s.coverageScore,
              StatesRoute.LevelName(s.coverageLevel), s.avgConfidence)
  }

  // --------------------------------------------------------------------- totals

  /** `reduce((sum, s) => sum + s.policiesCount, 0)`. */
  function TotalPolicies(states: seq<StateCard>): nat {
    if |states| == 0 then 0 else TotalPolicies(states[..|states| - 1]) + states[|states| - 1].policiesCount
  }

  /** `reduce((sum, s) => sum + s.factsCount, 0)`. */
  function TotalFacts(states: seq<StateCard>): nat {
    if |states| == 0 then 0 else TotalFacts(states[..|states| - 1]) + states[|states| - 1].factsCount
  }

  /** The headline figures: the number of states, the policy and fact totals,
      and the facts per state rounded to the nearest whole number. */
  function Stats(states: seq<StateCard>): (r: DashboardStats)
    ensures r.totalStates == |states|
    ensures r.totalPolicies == TotalPolicies(states) && r.totalFacts == TotalFacts(states)
    ensures r.totalStates == 0 ==> r.avgFactsPerState == 0
    ensures r.totalStates > 0 ==>
              var mean := (r.totalFacts as real) / (r.totalStates as real);
              (r.avgFactsPerState as real) - 0.5 <= mean < (r.avgFactsPerState as real) + 0.5
  {
    var n := |states|;
    var facts := TotalFacts(states);
    DashboardStats(n, TotalPolicies(states), facts,
                   if n > 0 then Round((facts as real) / (n as real)) else 0)
  }

  /** The totals add up over any split of the list, so they do not depend on
      the order the states arrive in beyond their multiset. */
  lemma {:induction false} TotalsSplit(a: seq<StateCard>, b: seq<StateCard>)
    ensures TotalFacts(a + b) == TotalFacts(a) + TotalFacts(b)
    ensures TotalPolicies(a + b) == TotalPolicies(a) + TotalPolicies(b)
  {
    if |b| > 0 {
      var b' := b[..|b| - 1];
      TotalsSplit(a, b');
      assert (a + b)[..|a + b| - 1] == a + b';
    } else {
      assert a + b == a;
    }
  }

  /** Bounds on every state's fact count bound the total. */
  lemma {:induction false} TotalFactsBounds(states: seq<StateCard>, lo: nat, hi: nat)
    requires forall i :: 0 <= i < |states| ==> lo <= states[i].factsCount <= hi
    ensures lo * |states| <= TotalFacts(states) <= hi * |states|
  {
    if |states| > 0 {
      var n := |states| - 1;
      var front := states[..n];
      assert forall i :: 0 <= i < |front| ==> front[i] == states[i];
      TotalFactsBounds(front, lo, hi);
      assert TotalFacts(states) == TotalFacts(front) + states[n].factsCount;
      assert lo <= states[n].factsCount <= hi;
      MulSucc(lo, n);
      MulSucc(hi, n);
    }
  }

  /** The facts-per-state figure lies between the smallest and the largest
      fact count of a state: it is a genuine average. */
  lemma AvgFactsWithinRange(states: seq<StateCard>, lo: nat, hi: nat)
    requires |states| > 0
    requires forall i :: 0 <= i < |states| ==> lo <= states[i].factsCount <= hi
    ensures lo <= Stats(states).avgFactsPerState <= hi
  {
    var n := |states| as real;
    TotalFactsBounds(states, lo, hi);
    var t := TotalFacts(states) as real;
    IntProduct(lo, |states|);
    IntProduct(hi, |states|);
    QuotientBetween(t, n, lo as real, hi as real);
  }

  /** `fetchDashboardData`: the states and their figures when the response
      reports success, "Failed to load dashboard data" when it does not, and
      "Network error occurred" when the request or the JSON parse throws
      (`None`). A response without success is `Some(None)`. */
  function LoadDashboard(response: Option<Option<seq<StateCard>>>)
    : (r: Result<(seq<StateCard>, DashboardStats), DashboardError>)
    ensures r == Failure(NetworkError) <==> response.None?
    ensures r == Failure(LoadFailed) <==> response == Some(None)
    ensures r.Success? ==> response == Some(Some(r.value.0)) && r.value.1.totalStates == |r.value.0|
  {
    match response
    case None => Failure(NetworkError)
    case Some(None) => Failure(LoadFailed)
    case Some(Some(states)) => Success((states, Stats(states)))
  }

  // ---------------------------------------------------------------------- badge

  datatype Style = Style(colour: string, labelText: string)

  /** `getCoverageStyle`. */
  function CoverageStyle(level: string): (r: Style)
    ensures r.labelText in ["High", "Medium", "Low", "None"]
  {
    match level
    case "High" => Style("bg-green-100 text-green-800", "High")
    case "Medium" => Style("bg-yellow-100 text-yellow-800", "Medium")
    case "Low" => Style("bg-orange-100 text-orange-800", "Low")
    case _ => Style("bg-gray-100 text-gray-800", "None")
  }

  /** A badge shows the level it is given when that is one of the three named
      levels, and "None" (in grey) for anything else; every level the states
      route sends is shown under its own name. */
  lemma CoverageStyleLabels(level: string)
    ensures level in ["High", "Medium", "Low"] ==> CoverageStyle(level).labelText == level
    ensures level !in ["High", "Medium", "Low"] ==>
              CoverageStyle(level) == Style("bg-gray-100 text-gray-800", "None")
    ensures forall l :: CoverageStyle(StatesRoute.LevelName(l)).labelText == StatesRoute.LevelName(l)
  {
  }

  // --------------------------------------------------------------- distribution

  const LevelNames: seq<string> := ["High", "Medium", "Low", "None"]

  /** `states.filter(s => s.coverageLevel === level).length`. */
  function CountAt(states: seq<StateCard>, level: string): (r: nat)
    ensures r <= |states|
  {
    |Filter(states, (s: StateCard) => s.coverageLevel == level)|
  }

  /** A count is the first state's contribution plus the count of the rest. */
  lemma CountAtCons(states: seq<StateCard>, level: string)
    requires |states| > 0
    ensures CountAt(states, level) == (if states[0].coverageLevel == level then 1 else 0) + CountAt(states[1..], level)
  {
  }

  /** The four counts of the distribution panel, High first. */
  function Distribution(states: seq<StateCard>): (r: seq<nat>)
    ensures |r| == 4
    ensures forall k :: 0 <= k < 4 ==> r[k] == CountAt(states, LevelNames[k])
  {
    [CountAt(states, "High"), CountAt(states, "Medium"), CountAt(states, "Low"), CountAt(states, "None")]
  }

  function CountSum(d: seq<nat>): nat
    requires |d| == 4
  {
    d[0] + d[1] + d[2] + d[3]
  }

  /** A state whose level is none of the four names. */
  predicate Unlisted(s: StateCard) {
    s.coverageLevel !in LevelNames
  }

  /** Every state is counted in one bucket or is unlisted. */
  lemma {:induction false} CountsAddUp(states: seq<StateCard>)
    ensures CountSum(Distribution(states)) + |Filter(states, Unlisted)| == |states|
  {
    if |states| > 0 {
      CountsAddUp(states[1..]);
      CountAtCons(states, "High");
      CountAtCons(states, "Medium");
      CountAtCons(states, "Low");
      CountAtCons(states, "None");
      assert Filter(states, Unlisted)
          == (if Unlisted(states[0]) then [states[0]] else []) + Filter(states[1..], Unlisted);
    }
  }

  /** The counts add up to the number of states exactly when every state
      carries one of the four level names; a state with any other level is in
      no bucket. */
  lemma DistributionCoversAll(states: seq<StateCard>)
    ensures CountSum(Distribution(states)) + |Filter(states, Unlisted)| == |states|
    ensures CountSum(Distribution(states)) == |states| <==>
              forall i :: 0 <= i < |states| ==> states[i].coverageLevel in LevelNames
  {
    CountsAddUp(states);
    var unlisted := Filter(states, Unlisted);
    if |unlisted| == 0 {
      forall i | 0 <= i < |states| ensures states[i].coverageLevel in LevelNames {
        assert states[i] !in unlisted;
      }
    } else {
      var x := unlisted[0];
      assert x in states && Unlisted(x);
      var i :| 0 <= i < |states| && states[i] == x;
      assert states[i].coverageLevel !in LevelNames;
    }
  }

  /** Cards read from the states route always land in exactly one bucket. */
  lemma RouteStatesFillTheDistribution(summaries: seq<StatesRoute.StateSummary>)
    ensures var cards := seq(|summaries|, i requires 0 <= i < |summaries| => CardOf(summaries[i]));
            CountSum(Distribution(cards)) == |summaries|
  {
    var cards := seq(|summaries|, i requires 0 <= i < |summaries| => CardOf(summaries[i]));
    assert forall i :: 0 <= i < |cards| ==> cards[i].coverageLevel in LevelNames;
    DistributionCoversAll(cards);
  }

  // ------------------------------------------------------------ top performing

  const TopCount: nat := 5

  /** The comparator `b.coverageScore - a.coverageScore || b.avgConfidence -
      a.avgConfidence`: `a` may come first when its score is higher, or equal
      with a confidence at least as high. */
  predicate RanksAbove(a: StateCard, b: StateCard) {
    a.coverageScore > b.coverageScore
    || (a.coverageScore == b.coverageScore && a.avgConfidence >= b.avgConfidence)
  }

  lemma RanksAboveIsTotalPreorder()
    ensures TotalPreorder(RanksAbove)
  {
  }

  /** `states.sort(...).slice(0, 5)`. */
  function TopStates(states: seq<StateCard>): (r: seq<StateCard>)
    ensures |r| == if |states| < TopCount then |states| else TopCount
    ensures multiset(r) <= multiset(states)
    ensures forall i, j :: 0 <= i < j < |r| ==>
              r[i].coverageScore > r[j].coverageScore
              || (r[i].coverageScore == r[j].coverageScore && r[i].avgConfidence >= r[j].avgConfidence)
  {
    SortedKeepsStates(states);
    var sorted := Sort(states, RanksAbove);
    var r := Take(sorted, TopCount);
    assert forall i, j :: 0 <= i < j < |r| ==> RanksAbove(r[i], r[j]) by {
      forall i, j | 0 <= i < j < |r| ensures RanksAbove(r[i], r[j]) {
        assert r[i] == sorted[i] && r[j] == sorted[j];
      }
    }
    r
  }

  lemma SortedKeepsStates(states: seq<StateCard>)
    ensures Sorted(Sort(states, RanksAbove), RanksAbove)
    ensures multiset(Sort(states, RanksAbove)) == multiset(states)
    ensures |Sort(states, RanksAbove)| == |states|
  {
    RanksAboveIsTotalPreorder();
    SortIsStable(states, RanksAbove);
    assert |multiset(Sort(states, RanksAbove))| == |multiset(states)|;
  }

  /** No better state is left out: a state missing from the list is outranked
      by every listed one, and then the list holds five. */
  lemma TopStatesKeepBest(states: seq<StateCard>)
    ensures var r := TopStates(states);
            forall c :: multiset(r)[c] < multiset(states)[c] ==>
              |r| == TopCount && forall i :: 0 <= i < |r| ==> RanksAbove(r[i], c)
  {
    var sorted := Sort(states, RanksAbove);
    SortedKeepsStates(states);
    var r := TopStates(states);
    assert r == Take(sorted, TopCount);
    forall c | multiset(r)[c] < multiset(states)[c]
      ensures |r| == TopCount && forall i :: 0 <= i < |r| ==> RanksAbove(r[i], c)
    {
      TakeMissesOnlyTail(sorted, TopCount, c);
      var j :| TopCount <= j < |sorted| && sorted[j] == c;
      forall i | 0 <= i < |r| ensures RanksAbove(r[i], c) {
        assert r[i] == sorted[i];
      }
    }
  }

  /** States equal in score and confidence keep the order of the response, so
      the list is the first five of the one stable arrangement: any
      arrangement sorted by the comparator that keeps tied states in response
      order begins with it. */
  lemma TopStatesIsStablePrefix(states: seq<StateCard>, ranked: seq<StateCard>)
    requires Sorted(ranked, RanksAbove)
    requires forall y :: TiedWith(ranked, y, RanksAbove) == TiedWith(states, y, RanksAbove)
    ensures TopStates(states) == Take(ranked, TopCount)
  {
    RanksAboveIsTotalPreorder();
    SortIsStable(states, RanksAbove);
    StableSortUnique(Sort(states, RanksAbove), ranked, RanksAbove);
  }
}

=== FILE: ingest_runner.dfy ===
/** The background ingestion worker (lib/ingest-runner.ts) as a sequential
    state machine: a FIFO queue of jobs, the single-runner flag, the policies'
    statuses, the chunk rows written and the temporary files deleted. What the
    outside world answers while the `n`-th job taken from the queue runs (file
    reads, text extraction, embeddings, store writes, the clock) is `env(n)`. */
module IngestRunner {
  import opened Wrappers
  import Provider
  import PdfProcessor

  datatype Job = Job(policyId: string, buffer: Option<PdfProcessor.Bytes>, filePath: Option<string>,
                     deleteFileAfter: bool)

  datatype PolicyStatus = Processing | Completed | Failed

  datatype PolicyState = PolicyState(status: PolicyStatus, processedAt: Option<int>)

  datatype ChunkRow = ChunkRow(policyId: string, content: string, pageNumber: int, chunkIndex: nat,
                               embedding: Provider.Vector)

  /** The outside world during one job. Each `...Ok` is `false` when that call
      throws; `factsOk` is whether fact extraction (`Rag.ExtractPolicyFacts`)
      ended without failing. */
  datatype JobEnv = JobEnv(
    readFile: string -> Option<PdfProcessor.Bytes>,
    parse: PdfProcessor.Bytes -> Option<PdfProcessor.PdfText>,
    embed: (nat, string) -> Option<Provider.Vector>,
    chunkWriteOk: bool, factsOk: bool, completeWriteOk: bool, failWriteOk: bool, unlinkOk: bool,
    now: int)

  datatype IngestError =
    | NoInput               // "No buffer or file path provided for ingestion job"
    | ReadFailed            // the file-system error of reading the job's file
    | PdfFailed
    | EmbeddingFailed
    | ChunkWriteFailed
    | FactsFailed
    | CompletionWriteFailed

  datatype Worker = Worker(
    queue: seq<Job>,
    isProcessing: bool,
    policies: map<string, PolicyState>,
    chunkRows: seq<ChunkRow>,
    deletedFiles: seq<string>,
    taken: seq<Job>)       // every job taken from the queue, in order

  // ------------------------------------------------------------------ one job

  /** `job.filePath` is a non-empty string (an empty one is falsy). */
  predicate HasPath(job: Job) {
    job.filePath.Some? && job.filePath.value != ""
  }

  /** `resolveBuffer`: the buffer carried by the job, else the file's
      contents, else an error. */
  function ResolveBuffer(job: Job, readFile: string -> Option<PdfProcessor.Bytes>)
    : (r: Option<PdfProcessor.Bytes>)
    ensures job.buffer.Some? ==> r == job.buffer
    ensures job.buffer.None? && HasPath(job) ==> r == readFile(job.filePath.value)
    ensures job.buffer.None? && !HasPath(job) ==> r.None?
  {
    if job.buffer.Some? then job.buffer
    else if HasPath(job) then readFile(job.filePath.value)
    else None
  }

  /** The rows `createMany` writes: one per embedded chunk, in order. */
  function Rows(policyId: string, embedded: seq<PdfProcessor.EmbeddedChunk>): (r: seq<ChunkRow>)
    ensures |r| == |embedded|
  {
    seq(|embedded|, i requires 0 <= i < |embedded| =>
      ChunkRow(policyId, embedded[i].chunk.content, embedded[i].chunk.pageNumber,
               embedded[i].chunk.chunkIndex, embedded[i].embedding))
  }

  /** How the `try` block of one job went: the rows it wrote, whether it
      started fact extraction, and the step that threw, if any. */
  datatype Attempt = Attempt(rowsWritten: Option<seq<ChunkRow>>, factsStarted: bool, error: Option<IngestError>)

  /** The document reaches the chunk write: its input resolves, the PDF
      processes and every chunk embeds. */
  predicate Embeds(job: Job, env: JobEnv) {
    var buffer := ResolveBuffer(job, env.readFile);
    && buffer.Some?
    && PdfProcessor.ProcessPdf(buffer.value, env.parse).Success?
    && PdfProcessor.EmbedChunks(PdfProcessor.ProcessPdf(buffer.value, env.parse).value.chunks, env.embed).Success?
  }

  /** The `try` block: each step runs only when every earlier one succeeded,
      and the error names the first step that threw. */
  function TryJob(job: Job, env: JobEnv): (r: Attempt)
    ensures r.factsStarted <==> r.rowsWritten.Some?
    ensures r.rowsWritten.Some? <==> Embeds(job, env) && env.chunkWriteOk
    ensures r.error.None? <==> Embeds(job, env) && env.chunkWriteOk && env.factsOk && env.completeWriteOk
    ensures r.error == Some(NoInput) <==> job.buffer.None? && !HasPath(job)
    ensures r.error == Some(ReadFailed) <==>
              job.buffer.None? && HasPath(job) && env.readFile(job.filePath.value).None?
    ensures r.error == Some(PdfFailed) <==>
              var buffer := ResolveBuffer(job, env.readFile);
              buffer.Some? && PdfProcessor.ProcessPdf(buffer.value, env.parse).Failure?
    ensures r.error == Some(EmbeddingFailed) <==>
              var buffer := ResolveBuffer(job, env.readFile);
              && buffer.Some? && PdfProcessor.ProcessPdf(buffer.value, env.parse).Success?
              && PdfProcessor.EmbedChunks(PdfProcessor.ProcessPdf(buffer.value, env.parse).value.chunks, env.embed).Failure?
    ensures r.error == Some(ChunkWriteFailed) <==> Embeds(job, env) && !env.chunkWriteOk
    ensures r.error == Some(FactsFailed) <==> Embeds(job, env) && env.chunkWriteOk && !env.factsOk
    ensures r.error == Some(CompletionWriteFailed) <==>
              Embeds(job, env) && env.chunkWriteOk && env.factsOk && !env.completeWriteOk
  {
    match ResolveBuffer(job, env.readFile)
    case None => Attempt(None, false, Some(if HasPath(job) then ReadFailed else NoInput))
    case Some(buffer) =>
      match PdfProcessor.ProcessPdf(buffer, env.parse)
      case Failure(_) => Attempt(None, false, Some(PdfFailed))
      case Success(pdf) =>
        match PdfProcessor.EmbedChunks(pdf.chunks, env.embed)
        case Failure(_) => Attempt(None, false, Some(EmbeddingFailed))
        case Success(embedded) =>
          var rows := Rows(job.policyId, embedded);
          if !env.chunkWriteOk then Attempt(None, false, Some(ChunkWriteFailed))
          else if !env.factsOk then Attempt(Some(rows), true, Some(FactsFailed))
          else if !env.completeWriteOk then Attempt(Some(rows), true, Some(CompletionWriteFailed))
          else Attempt(Some(rows), true, None)
  }

  /** The rows of a job are its document's chunks in window order, each with
      the embedding of its content and the job's policy. */
  lemma RowsFollowChunks(job: Job, env: JobEnv)
    requires TryJob(job, env).rowsWritten.Some?
    ensures var buffer := ResolveBuffer(job, env.readFile).value;
            var pdf := env.parse(buffer).value;
            var chunks := PdfProcessor.CreateChunks(pdf.text, pdf.numPages);
            var rows := TryJob(job, env).rowsWritten.value;
            && |rows| == |chunks|
            && forall i :: 0 <= i < |rows| ==>
                 && rows[i].policyId == job.policyId
                 && rows[i].chunkIndex == i
                 && rows[i].content == chunks[i].content
                 && rows[i].embedding == env.embed(i, chunks[i].content).value
  {
    var buffer := ResolveBuffer(job, env.readFile).value;
    var pdf := env.parse(buffer).value;
    var chunks := PdfProcessor.CreateChunks(pdf.text, pdf.numPages);
    forall i | 0 <= i < |chunks| ensures chunks[i].chunkIndex == i {
      PdfProcessor.ChunksInWindowOrder(pdf.text, pdf.numPages, i);
    }
  }

  /** The status write after the `try` block: `completed` with the time on
      success, `failed` otherwise; `None` when the `failed` write throws too. */
  function StatusAfter(job: Job, env: JobEnv, policies: map<string, PolicyState>)
    : (r: Option<map<string, PolicyState>>)
  {
    if TryJob(job, env).error.None? then
      Some(policies[job.policyId := PolicyState(Completed, Some(env.now))])
    else if env.failWriteOk then
      var previous := if job.policyId in policies then policies[job.policyId].processedAt else None;
      Some(policies[job.policyId := PolicyState(Failed, previous)])
    else None
  }

  /** The `finally` block: the temporary file is removed when asked for and
      present; a failed removal is only logged. */
  function Cleanup(job: Job, env: JobEnv, deleted: seq<string>): seq<string> {
    if job.deleteFileAfter && HasPath(job) && env.unlinkOk then deleted + [job.filePath.value] else deleted
  }

  /** One iteration of the loop on the job at the head of the queue. The
      result's `bool` is `true` when the `catch` block itself threw, which
      ends the loop. */
  function Step(w: Worker, env: nat -> JobEnv): (r: (Worker, bool))
    requires |w.queue| > 0
    ensures r.0.queue == w.queue[1..] && r.0.taken == w.taken + [w.queue[0]]
    ensures r.0.isProcessing == w.isProcessing
  {
    var job := w.queue[0];
    var e := env(|w.taken|);
    var attempt := TryJob(job, e);
    var rows := if attempt.rowsWritten.Some? then w.chunkRows + attempt.rowsWritten.value else w.chunkRows;
    var deleted := Cleanup(job, e, w.deletedFiles);
    var status := StatusAfter(job, e, w.policies);
    var next := Worker(w.queue[1..], w.isProcessing, if status.Some? then status.value else w.policies,
                       rows, deleted, w.taken + [job]);
    (next, status.None?)
  }

  /** A job is marked `completed`, with its processing time, exactly when every
      step succeeded: its chunk rows were written and fact extraction ran.
      Otherwise it is marked `failed`, unless that write throws as well. */
  lemma StepOutcome(w: Worker, env: nat -> JobEnv)
    requires |w.queue| > 0
    ensures var job := w.queue[0];
            var e := env(|w.taken|);
            var (next, threw) := Step(w, env);
            && (Embeds(job, e) && e.chunkWriteOk && e.factsOk && e.completeWriteOk <==>
                  !threw && next.policies[job.policyId] == PolicyState(Completed, Some(e.now)))
            && (TryJob(job, e).rowsWritten.Some? ==>
                  next.chunkRows == w.chunkRows + TryJob(job, e).rowsWritten.value)
            && (!(Embeds(job, e) && e.chunkWriteOk) ==> next.chunkRows == w.chunkRows)
            && (TryJob(job, e).error.Some? && e.failWriteOk ==>
                  !threw && next.policies[job.policyId].status == Failed)
            && (threw <==> TryJob(job, e).error.Some? && !e.failWriteOk)
            && (threw ==> next.policies == w.policies)
            && (forall id :: id != job.policyId && id in w.policies ==>
                  id in next.policies && next.policies[id] == w.policies[id])
  {
  }

  /** A failing removal of the temporary file changes nothing but the list of
      removed files, and the file is removed (when asked for) however the job
      ended. */
  lemma CleanupIndependentOfOutcome(w: Worker, env: nat -> JobEnv, failingUnlink: nat -> JobEnv)
    requires |w.queue| > 0
    requires failingUnlink(|w.taken|) == env(|w.taken|).(unlinkOk := false)
    ensures var (a, threwA) := Step(w, env);
            var (b, threwB) := Step(w, failingUnlink);
            && threwA == threwB && a.policies == b.policies && a.chunkRows == b.chunkRows
            && b.deletedFiles == w.deletedFiles
    ensures var job := w.queue[0];
            Step(w, env).0.deletedFiles
            == if job.deleteFileAfter && HasPath(job) && env(|w.taken|).unlinkOk
               then w.deletedFiles + [job.filePath.value] else w.deletedFiles
  {
  }

  // -------------------------------------------------------------- the queue

  /** The `while` loop: jobs leave the queue from the front until it is empty
      or a `catch` block throws. The result's `bool` says which. */
  function Loop(w: Worker, env: nat -> JobEnv): (r: (Worker, bool))
    ensures r.0.taken + r.0.queue == w.taken + w.queue
    ensures |w.taken| <= |r.0.taken|
    ensures !r.1 ==> r.0.queue == []
    ensures r.0.isProcessing == w.isProcessing
    decreases |w.queue|
  {
    if |w.queue| == 0 then (w, false)
    else
      var (next, threw) := Step(w, env);
      if threw then (next, true)
      else
        var r := Loop(next, env);
        r
  }

  /** `processQueue` as written: a second call while the flag is set returns at
      once; the flag is cleared only when the loop runs out of jobs. */
  function ProcessQueue(w: Worker, env: nat -> JobEnv): (r: Worker)
    ensures w.isProcessing ==> r == w
    ensures !w.isProcessing ==> r.taken + r.queue == w.taken + w.queue && |w.taken| <= |r.taken|
    ensures !w.isProcessing && !r.isProcessing ==> r.queue == [] && r.taken == w.taken + w.queue
  {
    if w.isProcessing then w
    else
      var (done, threw) := Loop(w.(isProcessing := true), env);
      if threw then done else done.(isProcessing := false)
  }

  /** When no `failed` status write throws, the loop runs out of jobs. */
  lemma {:induction false} LoopDrainsWhenFailWritesHold(w: Worker, env: nat -> JobEnv)
    requires forall n :: env(n).failWriteOk
    ensures !Loop(w, env).1
    decreases |w.queue|
  {
    if |w.queue| > 0 {
      var (next, threw) := Step(w, env);
      assert env(|w.taken|).failWriteOk;
      assert !threw;
      LoopDrainsWhenFailWritesHold(next, env);
    }
  }

  /** When no `failed` status write throws, an idle worker takes every queued
      job in order and is idle again afterwards. */
  lemma ProcessQueueDrains(w: Worker, env: nat -> JobEnv)
    requires !w.isProcessing && forall n :: env(n).failWriteOk
    ensures var r := ProcessQueue(w, env);
            !r.isProcessing && r.queue == [] && r.taken == w.taken + w.queue
  {
    LoopDrainsWhenFailWritesHold(w.(isProcessing := true), env);
  }

  /** `queuePolicyProcessing`: the job goes to the back of the queue, then the
      queue is processed. */
  function QueuePolicyProcessing(w: Worker, policyId: string, buffer: Option<PdfProcessor.Bytes>,
                                 filePath: Option<string>, deleteFileAfter: bool, env: nat -> JobEnv)
    : (r: Worker)
    ensures var job := Job(policyId, buffer, filePath, deleteFileAfter);
            !w.isProcessing && !r.isProcessing ==> r.taken == w.taken + w.queue + [job] && r.queue == []
    ensures w.isProcessing ==> r == w.(queue := w.queue + [Job(policyId, buffer, filePath, deleteFileAfter)])
  {
    var queued := w.(queue := w.queue + [Job(policyId, buffer, filePath, deleteFileAfter)]);
    var r := ProcessQueue(queued, env);
    assert !w.isProcessing && !r.isProcessing ==> queued.queue[..|r.taken| - |queued.taken|] == queued.queue;
    r
  }

  // ---------------------------------------------------------------- finding

  /** An environment in which every call throws, the `failed` status write
      included. */
  function BrokenStore(n: nat): JobEnv {
    JobEnv(_ => None, _ => None, (_, _) => None, false, false, false, false, false, 0)
  }

  const IdleWorker: Worker := Worker([], false, map[], [], [], [])

  /** As written: once a `failed` status write throws, the flag stays set and a
      job queued afterwards is never taken. */
  lemma StuckFlagStrandsLaterJobs()
    ensures var first := QueuePolicyProcessing(IdleWorker, "p1", None, None, false, BrokenStore);
            var second := QueuePolicyProcessing(first, "p2", Some([]), None, false, BrokenStore);
            && first.isProcessing
            && second.queue == [Job("p2", Some([]), None, false)]
            && |second.taken| == 1
  {
    var w := IdleWorker.(queue := [Job("p1", None, None, false)], isProcessing := true);
    assert TryJob(w.queue[0], BrokenStore(0)).error.Some?;
    assert Step(w, BrokenStore).1;
  }

  /** `processQueue` with the flag cleared in a `finally` around the loop:
      jobs left behind by a throwing `catch` block stay queued for the next
      call. */
  function ProcessQueueCorrected(w: Worker, env: nat -> JobEnv): (r: Worker)
    ensures w.isProcessing ==> r == w
    ensures !w.isProcessing ==> !r.isProcessing
    ensures !w.isProcessing ==> r.taken + r.queue == w.taken + w.queue && |w.taken| <= |r.taken|
  {
    if w.isProcessing then w
    else Loop(w.(isProcessing := true), env).0.(isProcessing := false)
  }

  function QueuePolicyProcessingCorrected(w: Worker, policyId: string, buffer: Option<PdfProcessor.Bytes>,
                                          filePath: Option<string>, deleteFileAfter: bool, env: nat -> JobEnv)
    : (r: Worker)
  {
    ProcessQueueCorrected(w.(queue := w.queue + [Job(policyId, buffer, filePath, deleteFileAfter)]), env)
  }

  /** Corrected: an idle worker is idle again after every call, and every
      call takes at least the job at the head of the queue, so queued jobs
      are never stranded. */
  lemma CorrectedWorkerNeverStrands(w: Worker, policyId: string, buffer: Option<PdfProcessor.Bytes>,
                                    filePath: Option<string>, deleteFileAfter: bool, env: nat -> JobEnv)
    requires !w.isProcessing
    ensures var r := QueuePolicyProcessingCorrected(w, policyId, buffer, filePath, deleteFileAfter, env);
            && !r.isProcessing
            && |r.taken| > |w.taken|
            && r.taken[|w.taken|] == (w.queue + [Job(policyId, buffer, filePath, deleteFileAfter)])[0]
  {
    var q := w.(queue := w.queue + [Job(policyId, buffer, filePath, deleteFileAfter)], isProcessing := true);
    var (next, threw) := Step(q, env);
    if !threw {
      var r := Loop(next, env).0;
      assert r.taken[..|next.taken|] == (r.taken + r.queue)[..|next.taken|];
    }
    assert Loop(q, env).0.taken[..|q.taken| + 1] == next.taken;
  }
}

=== FILE: js_object.dfy ===
/** Property lookup on a JavaScript plain object (an object literal or `{}`):
    a key the object does not own is looked up on `Object.prototype`, so a
    handful of names find an inherited member instead of `undefined`. */
module JsObject {

  /** The own property names of `Object.prototype`, the `__proto__` accessor
      included. Every one of them reads as a truthy value: a function, or for
      `__proto__` the prototype object itself. None of them is a Set or holds
      a string, so `x[key] || fallback` returns the member and `x[key].add(…)`
      throws a TypeError. */
  const PrototypeKeys: set<string> := {
    "constructor", "__proto__", "__defineGetter__", "__defineSetter__",
    "__lookupGetter__", "__lookupSetter__", "hasOwnProperty", "isPrototypeOf",
    "propertyIsEnumerable", "toString", "toLocaleString", "valueOf"
  }
}

=== FILE: numeric.dfy ===
/** JavaScript number operations on exact reals: products, `Math.ceil`,
    `Math.floor` and `Math.round`. Floating-point rounding is not modelled. */
module Numeric {

  /** `x * y`. Products of variables are written through this function so that
      the facts the model needs about them are stated once, in the lemmas
      below. */
  function Product(x: real, y: real): real {
    x * y
  }

  /** An integer product read as a real. */
  lemma IntProduct(a: int, b: int)
    ensures (a * b) as real == Product(a as real, b as real)
  {
  }

  /** One more copy of `a`. */
  lemma MulSucc(a: int, n: int)
    ensures a * (n + 1) == a * n + a
  {
  }

  /** Two factors of the same sign, a square among them, give a non-negative
      product that is zero only for zero factors. */
  lemma ProductSign(x: real, y: real)
    requires (x == 0.0 && y == 0.0) || (x > 0.0 && y > 0.0) || (x < 0.0 && y < 0.0)
    ensures Product(x, y) >= 0.0
    ensures Product(x, y) == 0.0 <==> x == 0.0
  {
  }

  lemma ProductZero(x: real, y: real)
    requires x >= 0.0 && y >= 0.0
    ensures Product(x, y) >= 0.0
    ensures Product(x, y) == 0.0 <==> x == 0.0 || y == 0.0
  {
  }

  lemma ProductCommutes(x: real, y: real)
    ensures Product(x, y) == Product(y, x)
  {
  }

  /** Scaling a fraction `x` in [0, 1] by `n >= 0` stays within [0, n], and is
      monotone in the fraction. */
  lemma ProductOfFraction(x: real, y: real, n: real)
    requires 0.0 <= x <= y <= 1.0 && n >= 0.0
    ensures 0.0 <= Product(x, n) <= Product(y, n) <= n
  {
  }

  /** A quotient of non-negative numbers with a larger divisor is a fraction;
      quotients with the same divisor are ordered like their dividends. */
  lemma Fraction(a: real, b: real, d: real)
    requires 0.0 <= a <= b <= d && d > 0.0
    ensures 0.0 <= a / d <= b / d <= 1.0
  {
  }

  /** A dividend between `lo * n` and `hi * n` gives a quotient by `n` between
      `lo` and `hi`. */
  lemma QuotientBetween(t: real, n: real, lo: real, hi: real)
    requires n > 0.0 && Product(lo, n) <= t <= Product(hi, n)
    ensures lo <= t / n <= hi
  {
    var q := t / n;
    assert t == Product(q, n);
    assert Product(lo, n) - Product(q, n) == Product(lo - q, n);
    assert Product(q, n) - Product(hi, n) == Product(q - hi, n);
  }

  /** `Math.floor`. */
  function Floor(x: real): int {
    x.Floor
  }

  /** `Math.ceil`: the least integer not below `x`. */
  function Ceil(x: real): (r: int)
    ensures r as real >= x
    ensures (r - 1) as real < x
  {
    -((-x).Floor)
  }

  lemma CeilMonotone(x: real, y: real)
    requires x <= y
    ensures Ceil(x) <= Ceil(y)
  {
  }

  /** `Math.round` for the values the program rounds: halves go up. */
  function Round(x: real): (r: int)
    ensures (r as real) - 0.5 <= x < (r as real) + 0.5
  {
    (x + 0.5).Floor
  }

  /** The integer `Math.round` returns is the nearest one, the upper one on a
      tie: any other integer is strictly farther, or as far and lower. */
  lemma RoundIsNearest(x: real, k: int)
    ensures k != Round(x) ==>
              Abs(k as real - x) > Abs(Round(x) as real - x)
              || (Abs(k as real - x) == Abs(Round(x) as real - x) && k < Round(x))
  {
  }

  /** `Math.min` on two integers. */
  function Min(a: int, b: int): (r: int)
    ensures r <= a && r <= b && (r == a || r == b)
  {
    if a <= b then a else b
  }

  function Abs(x: real): (r: real)
    ensures r >= 0.0 && (r == x || r == -x)
  {
    if x < 0.0 then -x else x
  }
}

=== FILE: pdf_processor.dfy ===
/** PDF ingestion helpers (lib/pdf-processor.ts): size-based chunking with
    overlap, the page estimate, embedding of chunks, and the two helpers that
    turn a report's file name into a state name and abbreviation. Text
    extraction (`pdf-parse`) is an oracle. */
module PdfProcessor {
  import opened Wrappers
  import opened Text
  import opened Numeric
  import Provider
  import JsObject

  // ------------------------------------------------------------------ chunking

  const ChunkSize: nat := 1000
  const ChunkOverlap: nat := 200
  /** Distance between the starts of consecutive windows. */
  const Stride: nat := ChunkSize - ChunkOverlap

  datatype Chunk = Chunk(content: string, pageNumber: int, chunkIndex: nat)

  /** Number of windows: starts 0, 800, 1600, ... that lie below the length,
      that is `ceil(len / 800)`. */
  function ChunkCount(len: nat): (r: nat)
    ensures r == 0 <==> len == 0
    ensures forall k: nat :: k < r <==> WindowStart(k) < len
  {
    (len + Stride - 1) / Stride
  }

  function WindowStart(k: nat): nat {
    k * Stride
  }

  /** End of window `k`: `slice` stops at the end of the text. */
  function WindowEnd(len: nat, k: nat): nat {
    if WindowStart(k) + ChunkSize <= len then WindowStart(k) + ChunkSize else len
  }

  /** `text.slice(i, i + CHUNK_SIZE)` for the `k`-th start `i`. */
  function Window(text: string, k: nat): string
    requires WindowStart(k) <= |text|
  {
    text[WindowStart(k)..WindowEnd(|text|, k)]
  }

  /** `Math.ceil((i / text.length) * numPages)`. */
  function PageEstimate(start: nat, len: nat, numPages: nat): int
    requires len > 0
  {
    Ceil(Product(start as real / len as real, numPages as real))
  }

  /** The `k`-th chunk: the trimmed `k`-th window, its page estimate, index `k`. */
  function ChunkAt(text: string, numPages: nat, k: nat): Chunk
    requires WindowStart(k) < |text|
  {
    Chunk(Trim(Window(text, k)), PageEstimate(WindowStart(k), |text|, numPages), k)
  }

  /** `createChunks`: one chunk per window, in window order. */
  function CreateChunks(text: string, numPages: nat): (r: seq<Chunk>)
    ensures |r| == ChunkCount(|text|)
    ensures |text| == 0 ==> r == []
  {
    seq(ChunkCount(|text|), k requires 0 <= k < ChunkCount(|text|) => ChunkAt(text, numPages, k))
  }

  /** The loop of `createChunks`: `i` steps through the window starts while it
      is below the text length. */
  method CreateChunksLoop(text: string, numPages: nat) returns (chunks: seq<Chunk>)
    ensures chunks == CreateChunks(text, numPages)
  {
    chunks := [];
    var i: nat := 0;
    var k: nat := 0;
    while i < |text|
      invariant i == WindowStart(k) && k <= ChunkCount(|text|)
      invariant |chunks| == k
      invariant forall j :: 0 <= j < k ==> chunks[j] == ChunkAt(text, numPages, j)
      decreases |text| - i
    {
      chunks := chunks + [ChunkAt(text, numPages, k)];
      i := i + Stride;
      k := k + 1;
    }
  }

  /** Chunk `k` is built from the `k`-th window, and its index is `k`. */
  lemma ChunksInWindowOrder(text: string, numPages: nat, k: nat)
    requires k < |CreateChunks(text, numPages)|
    ensures WindowStart(k) < |text|
    ensures CreateChunks(text, numPages)[k] == ChunkAt(text, numPages, k)
    ensures CreateChunks(text, numPages)[k].chunkIndex == k
  {
  }

  /** Every character of a non-empty text lies in some window. */
  lemma WindowsCoverText(len: nat, p: nat)
    requires p < len
    ensures exists k: nat :: k < ChunkCount(len) && WindowStart(k) <= p < WindowEnd(len, k)
  {
    var k: nat := p / Stride;
    assert WindowStart(k) <= p < WindowStart(k) + Stride;
    assert k < ChunkCount(len);
  }

  /** Consecutive windows share 200 characters, or the rest of the text when it
      ends sooner; they always share at least one. */
  lemma ConsecutiveWindowsOverlap(len: nat, k: nat)
    requires k + 1 < ChunkCount(len)
    ensures WindowStart(k) < WindowStart(k + 1) < WindowEnd(len, k)
    ensures WindowEnd(len, k) - WindowStart(k + 1)
            == if len - WindowStart(k + 1) < ChunkOverlap then len - WindowStart(k + 1) else ChunkOverlap
  {
  }

  /** A chunk's content is a piece of the text no longer than a window. */
  lemma ChunkContentWithinWindow(text: string, numPages: nat, k: nat)
    requires k < ChunkCount(|text|)
    ensures |CreateChunks(text, numPages)[k].content| <= ChunkSize
    ensures Contains(text, CreateChunks(text, numPages)[k].content)
  {
    var w := Window(text, k);
    var c := CreateChunks(text, numPages)[k].content;
    assert c == ChunkAt(text, numPages, k).content == Trim(w);
    TrimIsInfix(w);
    assert OccursAt(text, w, WindowStart(k));
    ContainsAt(text, w, WindowStart(k));
    ContainsTransitive(text, w, c);
  }

  /** The first window is estimated to start on page 0. */
  lemma FirstPageIsZero(len: nat, numPages: nat)
    requires len > 0
    ensures PageEstimate(WindowStart(0), len, numPages) == 0
  {
    assert (0 as real) / (len as real) == 0.0;
    ProductOfFraction(0.0, 0.0, numPages as real);
    assert Ceil(0.0) == 0;
  }

  /** A later window never gets an earlier page, and no page lies outside
      `0 .. numPages`. */
  lemma PageEstimateMonotone(a: nat, b: nat, len: nat, numPages: nat)
    requires a <= b < len
    ensures 0 <= PageEstimate(a, len, numPages) <= PageEstimate(b, len, numPages) <= numPages
  {
    var n := numPages as real;
    var x, y := a as real / len as real, b as real / len as real;
    Fraction(a as real, b as real, len as real);
    ProductOfFraction(x, y, n);
    CeilMonotone(0.0, Product(x, n));
    CeilMonotone(Product(x, n), Product(y, n));
    CeilMonotone(Product(y, n), n);
    assert Ceil(0.0) == 0;
    assert Ceil(n) == numPages;
  }

  /** The chunks' pages start at 0 and never decrease or pass the page count. */
  lemma ChunkPages(text: string, numPages: nat, k: nat, m: nat)
    requires k <= m < ChunkCount(|text|)
    ensures CreateChunks(text, numPages)[0].pageNumber == 0
    ensures 0 <= CreateChunks(text, numPages)[k].pageNumber
              <= CreateChunks(text, numPages)[m].pageNumber <= numPages
  {
    FirstPageIsZero(|text|, numPages);
    PageEstimateMonotone(WindowStart(k), WindowStart(m), |text|, numPages);
  }

  // ---------------------------------------------------------------- embedding

  datatype EmbeddedChunk = EmbeddedChunk(chunk: Chunk, embedding: Provider.Vector)

  /** `embedChunks`: one embedding per chunk content, zipped back in order. */
  function EmbedChunks(chunks: seq<Chunk>, embed: (nat, string) -> Option<Provider.Vector>)
    : (r: Result<seq<EmbeddedChunk>, Provider.ProviderError>)
    ensures r.Success? <==> forall i :: 0 <= i < |chunks| ==> embed(i, chunks[i].content).Some?
    ensures r.Success? ==> |r.value| == |chunks|
    ensures r.Success? ==> forall i :: 0 <= i < |chunks| ==>
              r.value[i] == EmbeddedChunk(chunks[i], embed(i, chunks[i].content).value)
  {
    var texts := seq(|chunks|, i requires 0 <= i < |chunks| => chunks[i].content);
    assert forall i :: 0 <= i < |chunks| ==> texts[i] == chunks[i].content;
    match Provider.GenerateEmbeddings(texts, embed)
    case Failure(e) => Failure(e)
    case Success(embeddings) =>
      Success(seq(|chunks|, i requires 0 <= i < |chunks| => EmbeddedChunk(chunks[i], embeddings[i])))
  }

  // ------------------------------------------------------------ PDF processing

  type Bytes = seq<bv8>

  /** What `pdf-parse` extracts: the text and the page count. */
  datatype PdfText = PdfText(text: string, numPages: nat)

  datatype ProcessedPdf = ProcessedPdf(text: string, numPages: nat, chunks: seq<Chunk>)

  datatype PdfError = PdfUnreadable  // "Failed to process PDF file"

  /** `processPDF`: extraction (an oracle that may fail) followed by chunking;
      any extraction failure becomes one generic error. */
  function ProcessPdf(buffer: Bytes, parse: Bytes -> Option<PdfText>): (r: Result<ProcessedPdf, PdfError>)
    ensures parse(buffer).None? <==> r == Failure(PdfUnreadable)
    ensures r.Success? ==> && r.value.text == parse(buffer).value.text
                           && r.value.numPages == parse(buffer).value.numPages
                           && r.value.chunks == CreateChunks(r.value.text, r.value.numPages)
  {
    match parse(buffer)
    case None => Failure(PdfUnreadable)
    case Some(pdf) => Success(ProcessedPdf(pdf.text, pdf.numPages, CreateChunks(pdf.text, pdf.numPages)))
  }

  // --------------------------------------------------------------- state name

  /** `s` holds the lower-case ASCII word `word` at `i`, ignoring ASCII case: the
      `i` flag of a regular expression without the `u` flag folds no other
      character onto an ASCII letter. */
  predicate WordAt(s: string, i: int, word: string) {
    0 <= i && i + |word| <= |s| && forall t :: 0 <= t < |word| ==> ToLowerChar(s[i + t]) == word[t]
  }

  predicate AllWhitespaceIn(s: string, from: int, to: int)
    requires 0 <= from <= to <= |s|
  {
    forall i {:trigger IsWhitespace(s[i])} :: from <= i < to ==> IsWhitespace(s[i])
  }

  /** `\s+Telehealth` matches at `q` using exactly `w` white-space characters. */
  predicate TailWith(s: string, q: int, w: int) {
    0 <= q && 1 <= w && q + w <= |s| && AllWhitespaceIn(s, q, q + w) && WordAt(s, q + w, "telehealth")
  }

  /** `\s+Telehealth` matches at `q`. */
  ghost predicate TailAt(s: string, q: int) {
    exists w :: TailWith(s, q, w)
  }

  /** The greedy `\s+` cannot give back characters: the tail matches only with
      the whole white-space run, so checking that run decides it. */
  lemma TailAtRun(s: string, q: nat)
    requires q <= |s|
    ensures TailAt(s, q) <==> 1 <= WsRun(s, q) && WordAt(s, q + WsRun(s, q), "telehealth")
  {
    var run := WsRun(s, q);
    if TailAt(s, q) {
      var w :| TailWith(s, q, w);
      TailUsesWholeRun(s, q, w);
    }
    if 1 <= run && WordAt(s, q + run, "telehealth") {
      assert TailWith(s, q, run);
    }
  }

  /** A match of the tail takes exactly the white-space run. */
  lemma TailUsesWholeRun(s: string, q: nat, w: int)
    requires q <= |s| && TailWith(s, q, w)
    ensures w == WsRun(s, q)
  {
    WordStartsWithLetter(s, q + w);
  }

  lemma WordStartsWithLetter(s: string, i: int)
    requires WordAt(s, i, "telehealth")
    ensures i < |s| && !IsWhitespace(s[i])
  {
    assert ToLowerChar(s[i + 0]) == "telehealth"[0];
  }

  /** The tail test the search performs. */
  function TailMatches(s: string, q: nat): (r: bool)
    requires q <= |s|
    ensures r <==> TailAt(s, q)
  {
    TailAtRun(s, q);
    var run := WsRun(s, q);
    1 <= run && WordAt(s, q + run, "telehealth")
  }

  /** A capture of `L` characters from `c`: no line terminator (what `.`
      refuses), followed by the tail. */
  ghost predicate CaptureOk(s: string, c: int, L: int) {
    0 <= c && 1 <= L && c + L <= |s|
    && (forall i {:trigger IsLineTerminator(s[i])} :: c <= i < c + L ==> !IsLineTerminator(s[i]))
    && TailAt(s, c + L)
  }

  /** `/CCHP\s+(.+?)\s+Telehealth/i` matches at `p` with `j` characters for the
      first `\s+` and `L` for the capture. */
  ghost predicate Matches(s: string, p: int, j: int, L: int) {
    0 <= p && 1 <= j && p + 4 + j <= |s|
    && WordAt(s, p, "cchp") && AllWhitespaceIn(s, p + 4, p + 4 + j) && CaptureOk(s, p + 4 + j, L)
  }

  /** No match starts at `p`. */
  ghost predicate NoMatchAt(s: string, p: int) {
    forall j, L :: !Matches(s, p, j, L)
  }

  /** No match starts in `from .. to - 1`. */
  ghost predicate NoMatchBetween(s: string, from: int, to: int) {
    forall q :: from <= q < to ==> NoMatchAt(s, q)
  }

  /** No match starts at `from` or later. */
  ghost predicate NoMatchFrom(s: string, from: int) {
    forall q :: from <= q ==> NoMatchAt(s, q)
  }

  datatype RegexMatch = RegexMatch(start: nat, spaces: nat, captureLen: nat)

  /** The match a backtracking engine reports: the leftmost start; at that
      start the longest first `\s+` that allows a match; with it the shortest
      capture. */
  ghost predicate FirstMatch(s: string, m: RegexMatch) {
    && Matches(s, m.start, m.spaces, m.captureLen)
    && NoMatchBetween(s, 0, m.start)
    && (forall j, L :: m.spaces < j ==> !Matches(s, m.start, j, L))
    && (forall L :: L < m.captureLen ==> !Matches(s, m.start, m.spaces, L))
  }

  /** The lazy `(.+?)` from capture start `c`, trying lengths `L` and up. */
  function LazyCapture(s: string, c: nat, L: nat): (r: Option<nat>)
    requires 1 <= L && c + L - 1 <= |s|
    requires forall i {:trigger IsLineTerminator(s[i])} :: c <= i < c + L - 1 ==> !IsLineTerminator(s[i])
    ensures r.Some? ==> L <= r.value && CaptureOk(s, c, r.value)
    ensures r.Some? ==> forall L' :: L <= L' < r.value ==> !CaptureOk(s, c, L')
    ensures r.None? ==> forall L' :: L <= L' ==> !CaptureOk(s, c, L')
    decreases |s| - (c + L)
  {
    if c + L > |s| then None
    else if IsLineTerminator(s[c + L - 1]) then None
    else if TailMatches(s, c + L) then Some(L)
    else LazyCapture(s, c, L + 1)
  }

  /** The lazy capture from `c`: the shortest capture there, if any. */
  function CaptureFrom(s: string, c: nat): (r: Option<nat>)
    requires c <= |s|
    ensures r.Some? ==> ShortestCapture(s, c, r.value)
    ensures r.None? ==> NoCaptureAt(s, c)
  {
    LazyCapture(s, c, 1)
  }

  ghost predicate NoCaptureAt(s: string, c: int) {
    forall L :: !CaptureOk(s, c, L)
  }

  /** `L` is the shortest capture starting at `c`. */
  ghost predicate ShortestCapture(s: string, c: int, L: int) {
    CaptureOk(s, c, L) && forall L' :: L' < L ==> !CaptureOk(s, c, L')
  }

  /** No capture, of any length, follows `j` characters of white space after
      the `cchp` at `p`, for any `j` in `lo + 1 .. hi`. */
  ghost predicate NoCaptureBetween(s: string, p: int, lo: int, hi: int) {
    forall j :: lo < j <= hi ==> NoCaptureAfter(s, p, j)
  }

  ghost predicate NoCaptureAfter(s: string, p: int, j: int) {
    NoCaptureAt(s, p + 4 + j)
  }

  /** The greedy first `\s+` at `p`, giving back one character at a time from
      `j` down to 1; for each width the lazy capture is tried. */
  function GreedySpaces(s: string, p: nat, j: nat): (r: Option<(nat, nat)>)
    requires p + 4 + j <= |s|
    ensures r.Some? ==> 1 <= r.value.0 <= j
    decreases j
  {
    if j == 0 then None
    else
      var c := CaptureFrom(s, p + 4 + j);
      if c.Some? then Some((j, c.value))
      else GreedySpaces(s, p, j - 1)
  }

  /** The capture the greedy search reports is the shortest one after the
      width it settles on. */
  lemma {:induction false} GreedyFindsShortest(s: string, p: nat, j: nat)
    requires p + 4 + j <= |s|
    ensures var r := GreedySpaces(s, p, j);
            r.Some? ==> ShortestCapture(s, p + 4 + r.value.0, r.value.1)
  {
    if j > 0 {
      var c := CaptureFrom(s, p + 4 + j);
      if c.Some? {
        assert GreedySpaces(s, p, j) == Some((j, c.value));
      } else {
        GreedyFindsShortest(s, p, j - 1);
        assert GreedySpaces(s, p, j) == GreedySpaces(s, p, j - 1);
      }
    }
  }

  /** Every width the greedy search gives back has no capture after it; when
      it settles on none, no width up to `j` has one. */
  lemma {:induction false} GreedySkipsOnlyMisses(s: string, p: nat, j: nat)
    requires p + 4 + j <= |s|
    ensures var r := GreedySpaces(s, p, j);
            && (r.Some? ==> NoCaptureBetween(s, p, r.value.0, j))
            && (r.None? ==> NoCaptureBetween(s, p, 0, j))
  {
    if j > 0 {
      var c := CaptureFrom(s, p + 4 + j);
      if c.Some? {
        assert GreedySpaces(s, p, j) == Some((j, c.value));
      } else {
        var r := GreedySpaces(s, p, j - 1);
        assert GreedySpaces(s, p, j) == r;
        GreedySkipsOnlyMisses(s, p, j - 1);
        NoCaptureBetweenExtend(s, p, if r.Some? then r.value.0 else 0, j);
      }
    }
  }

  lemma NoCaptureBetweenExtend(s: string, p: nat, lo: nat, j: nat)
    requires 0 < j && NoCaptureBetween(s, p, lo, j - 1) && NoCaptureAt(s, p + 4 + j)
    ensures NoCaptureBetween(s, p, lo, j)
  {
    assert NoCaptureAfter(s, p, j);
  }

  /** The engine's attempt at start `p`. */
  function MatchAt(s: string, p: nat): (r: Option<(nat, nat)>)
    requires p <= |s|
    ensures PreferredAt(s, p, r)
  {
    if !WordAt(s, p, "cchp") then None
    else
      var run := WsRun(s, p + 4);
      var r := GreedySpaces(s, p, run);
      GreedySpacesOutcome(s, p, run);
      GreedyResultIsFirstMatch(s, p, run, r);
      r
  }

  /** What the greedy search from width `j` guarantees about its result `r`:
      the width it settles on has its shortest capture, and every wider width
      up to `j` (every width, when it settles on none) has no capture. */
  ghost predicate GreedyOutcome(s: string, p: nat, j: nat, r: Option<(nat, nat)>) {
    && (r.Some? ==> 1 <= r.value.0 <= j && ShortestCapture(s, p + 4 + r.value.0, r.value.1)
                    && NoCaptureBetween(s, p, r.value.0, j))
    && (r.None? ==> NoCaptureBetween(s, p, 0, j))
  }

  lemma GreedySpacesOutcome(s: string, p: nat, j: nat)
    requires p + 4 + j <= |s|
    ensures GreedyOutcome(s, p, j, GreedySpaces(s, p, j))
  {
    GreedyFindsShortest(s, p, j);
    GreedySkipsOnlyMisses(s, p, j);
  }

  /** The match the engine prefers at `p`, as `MatchAt` reports it: with a
      result, the widest first `\s+` that allows a capture and with it the
      shortest capture; without one, no match at `p`. */
  ghost predicate PreferredAt(s: string, p: nat, r: Option<(nat, nat)>) {
    && (r.Some? ==> Matches(s, p, r.value.0, r.value.1))
    && (r.Some? ==> forall L :: L < r.value.1 ==> !Matches(s, p, r.value.0, L))
    && (r.Some? ==> forall j, L :: r.value.0 < j ==> !Matches(s, p, j, L))
    && (r.None? ==> NoMatchAt(s, p))
  }

  /** After a `cchp` and its white-space run, a result with the properties
      the greedy search guarantees is the match the engine prefers at `p`:
      the widest first `\s+` that allows a capture, with the shortest
      capture; and no result means no match at `p`. */
  lemma GreedyResultIsFirstMatch(s: string, p: nat, run: nat, r: Option<(nat, nat)>)
    requires p + 4 <= |s| && WordAt(s, p, "cchp") && run == WsRun(s, p + 4)
    requires GreedyOutcome(s, p, run, r)
    ensures PreferredAt(s, p, r)
  {
    GreedySpacesBeyondRun(s, p, run);
    if r.Some? {
      ShortestCaptureMatches(s, p, run, r.value.0, r.value.1);
    }
    NoCaptureNoMatch(s, p, if r.Some? then r.value.0 else 0, run);
  }

  /** A shortest capture after `j <= run` white-space characters is the
      match with those `j` characters and the shortest capture. */
  lemma ShortestCaptureMatches(s: string, p: nat, run: nat, j: nat, L: nat)
    requires p + 4 + run <= |s| && WordAt(s, p, "cchp") && AllWhitespaceIn(s, p + 4, p + 4 + run)
    requires 1 <= j <= run && ShortestCapture(s, p + 4 + j, L)
    ensures Matches(s, p, j, L)
    ensures forall L' :: L' < L ==> !Matches(s, p, j, L')
  {
  }

  /** Widths with no capture after them give no match. */
  lemma NoCaptureNoMatch(s: string, p: nat, lo: nat, run: nat)
    requires NoCaptureBetween(s, p, lo, run)
    ensures forall j, L :: lo < j <= run ==> !Matches(s, p, j, L)
  {
    forall j, L | lo < j <= run ensures !Matches(s, p, j, L) {
      assert NoCaptureAfter(s, p, j);
    }
  }

  lemma GreedySpacesBeyondRun(s: string, p: nat, run: nat)
    requires p + 4 <= |s| && run == WsRun(s, p + 4)
    ensures AllWhitespaceIn(s, p + 4, p + 4 + run)
    ensures forall j, L :: run < j ==> !Matches(s, p, j, L)
  {
    forall j, L | run < j
      ensures !Matches(s, p, j, L)
    {
    }
  }

  /** The engine's scan over start positions from `p`. */
  function SearchFrom(s: string, p: nat): (r: Option<RegexMatch>)
    requires p <= |s|
    ensures r.Some? ==> p <= r.value.start && Matches(s, r.value.start, r.value.spaces, r.value.captureLen)
    ensures r.Some? ==> NoMatchBetween(s, p, r.value.start)
    ensures r.Some? ==> forall j, L :: r.value.spaces < j ==> !Matches(s, r.value.start, j, L)
    ensures r.Some? ==> forall L :: L < r.value.captureLen ==> !Matches(s, r.value.start, r.value.spaces, L)
    ensures r.None? ==> NoMatchFrom(s, p)
    decreases |s| - p
  {
    match MatchAt(s, p)
    case Some((j, L)) => Some(RegexMatch(p, j, L))
    case None =>
      if p == |s| then None
      else
        var r := SearchFrom(s, p + 1);
        ExtendNoMatch(s, p, r);
        r
  }

  /** A miss at `p` extends the scan's guarantees from `p + 1` back to `p`. */
  lemma ExtendNoMatch(s: string, p: nat, r: Option<RegexMatch>)
    requires NoMatchAt(s, p)
    requires r.Some? ==> p + 1 <= r.value.start && NoMatchBetween(s, p + 1, r.value.start)
    requires r.None? ==> NoMatchFrom(s, p + 1)
    ensures r.Some? ==> NoMatchBetween(s, p, r.value.start)
    ensures r.None? ==> NoMatchFrom(s, p)
  {
  }

  /** `fileName.match(/CCHP\s+(.+?)\s+Telehealth/i)`: the engine's match, or
      `None` when there is none. */
  function FindStateMatch(s: string): (r: Option<RegexMatch>)
    ensures r.Some? ==> FirstMatch(s, r.value)
    ensures r.None? <==> NoMatchFrom(s, 0)
  {
    var r := SearchFrom(s, 0);
    assert r.Some? ==> !NoMatchAt(s, r.value.start);
    r
  }

  function Capture(s: string, m: RegexMatch): string
    requires Matches(s, m.start, m.spaces, m.captureLen)
  {
    s[m.start + 4 + m.spaces..m.start + 4 + m.spaces + m.captureLen]
  }

  /** `extractStateName`: the capture of the engine's match, `"Unknown"` when
      the name does not match. */
  function ExtractStateName(fileName: string): (r: string)
    ensures NoMatchFrom(fileName, 0) ==> r == "Unknown"
    ensures !NoMatchFrom(fileName, 0) ==>
              exists m :: FirstMatch(fileName, m) && r == Capture(fileName, m) && |r| >= 1
  {
    match FindStateMatch(fileName)
    case None => "Unknown"
    case Some(m) => Capture(fileName, m)
  }

  /** The reported match is determined by the name: two matches that both meet
      the engine's preferences are the same. */
  lemma FirstMatchUnique(s: string, m1: RegexMatch, m2: RegexMatch)
    requires FirstMatch(s, m1) && FirstMatch(s, m2)
    ensures m1 == m2
  {
    assert m1.start < m2.start ==> NoMatchAt(s, m1.start);
    assert m2.start < m1.start ==> NoMatchAt(s, m2.start);
  }

  // ------------------------------------------------------- state abbreviation

  /** `STATE_ABBREVIATIONS`, keyed by lower-case name. It is written as six
      literals joined, in the source's order; their keys are disjoint, so the
      union is the source's single object. */
  const StateAbbreviations: map<StateKey, StateCode> :=
    StatesAlabamaToFlorida + StatesGeorgiaToMaine + StatesMarylandToNewHampshire
    + StatesNewJerseyToRhodeIsland + StatesSouthCarolinaToWisconsin + StatesWyomingToUnknown

  /** Every key of the table is a non-empty name and every entry a two-letter
      code; the types record both, so no lookup has to inspect the literals. */
  type StateKey = s: string | |s| > 0 witness "unknown"
  type StateCode = s: string | |s| == 2 witness "UN"

  const StatesAlabamaToFlorida: map<StateKey, StateCode> := map[
    "alabama" := "AL", "alaska" := "AK", "arizona" := "AZ", "arkansas" := "AR",
    "california" := "CA", "colorado" := "CO", "connecticut" := "CT", "delaware" := "DE",
    "district of columbia" := "DC", "florida" := "FL"
  ]

  const StatesGeorgiaToMaine: map<StateKey, StateCode> := map[
    "georgia" := "GA", "hawaii" := "HI", "idaho" := "ID", "illinois" := "IL",
    "indiana" := "IN", "iowa" := "IA", "kansas" := "KS", "kentucky" := "KY",
    "louisiana" := "LA", "maine" := "ME"
  ]

  const StatesMarylandToNewHampshire: map<StateKey, StateCode> := map[
    "maryland" := "MD", "massachusetts" := "MA", "michigan" := "MI", "minnesota" := "MN",
    "mississippi" := "MS", "missouri" := "MO", "montana" := "MT", "nebraska" := "NE",
    "nevada" := "NV", "new hampshire" := "NH"
  ]

  const StatesNewJerseyToRhodeIsland: map<StateKey, StateCode> := map[
    "new jersey" := "NJ", "new mexico" := "NM", "new york" := "NY", "north carolina" := "NC",
    "north dakota" := "ND", "ohio" := "OH", "oklahoma" := "OK", "oregon" := "OR",
    "pennsylvania" := "PA", "rhode island" := "RI"
  ]

  const StatesSouthCarolinaToWisconsin: map<StateKey, StateCode> := map[
    "south carolina" := "SC", "south dakota" := "SD", "tennessee" := "TN", "texas" := "TX",
    "utah" := "UT", "vermont" := "VT", "virginia" := "VA", "washington" := "WA",
    "west virginia" := "WV", "wisconsin" := "WI"
  ]

  const StatesWyomingToUnknown: map<StateKey, StateCode> := map[
    "wyoming" := "WY", "puerto rico" := "PR", "virgin islands" := "VI", "guam" := "GU",
    "american samoa" := "AS", "northern mariana islands" := "MP", "unknown" := "UN"
  ]

  /** Index of the first white-space character at or after `i`, or `|s|`. */
  function NextWhitespace(s: string, i: nat): (r: nat)
    requires i <= |s|
    ensures i <= r <= |s|
    ensures forall t :: i <= t < r ==> !IsWhitespace(s[t])
    ensures r < |s| ==> IsWhitespace(s[r])
    decreases |s| - i
  {
    if i == |s| || IsWhitespace(s[i]) then i else NextWhitespace(s, i + 1)
  }

  /** `s.split(/\s+/)`: the pieces between maximal white-space runs, with an
      empty piece before a leading run and after a trailing one. */
  function SplitWs(s: string): (r: seq<string>)
    ensures |r| >= 1
    ensures forall k :: 0 <= k < |r| ==> forall t :: 0 <= t < |r[k]| ==> !IsWhitespace(r[k][t])
    decreases |s|
  {
    var i := NextWhitespace(s, 0);
    if i == |s| then [s]
    else
      var next := i + WsRun(s, i);
      [s[..i]] + SplitWs(s[next..])
  }

  /** The upper-cased first character of each piece (`part[0]?.toUpperCase() ?? ""`),
      joined. */
  function Initials(parts: seq<string>): (r: string)
    ensures |r| <= |parts|
  {
    if |parts| == 0 then ""
    else (if |parts[0]| == 0 then "" else [ToUpperChar(parts[0][0])]) + Initials(parts[1..])
  }

  /** The key `getStateAbbreviation` looks up. */
  function Normalize(stateName: string): string {
    ToLower(Trim(stateName))
  }

  /** No name of the table is a property name of `Object.prototype`, so a
      lookup finds an own entry or, failing that, the prototype, never both.
      Checked one literal at a time. */
  lemma TableOwnsNoPrototypeKey(k: string)
    ensures k in JsObject.PrototypeKeys ==> k !in StateAbbreviations
  {
    NoPrototypeKeyInAlabamaToFlorida();
    NoPrototypeKeyInGeorgiaToMaine();
    NoPrototypeKeyInMarylandToNewHampshire();
    NoPrototypeKeyInNewJerseyToRhodeIsland();
    NoPrototypeKeyInSouthCarolinaToWisconsin();
    NoPrototypeKeyInWyomingToUnknown();
  }

  lemma NoPrototypeKeyInAlabamaToFlorida()
    ensures JsObject.PrototypeKeys !! StatesAlabamaToFlorida.Keys
  {
  }

  lemma NoPrototypeKeyInGeorgiaToMaine()
    ensures JsObject.PrototypeKeys !! StatesGeorgiaToMaine.Keys
  {
  }

  lemma NoPrototypeKeyInMarylandToNewHampshire()
    ensures JsObject.PrototypeKeys !! StatesMarylandToNewHampshire.Keys
  {
  }

  lemma NoPrototypeKeyInNewJerseyToRhodeIsland()
    ensures JsObject.PrototypeKeys !! StatesNewJerseyToRhodeIsland.Keys
  {
  }

  lemma NoPrototypeKeyInSouthCarolinaToWisconsin()
    ensures JsObject.PrototypeKeys !! StatesSouthCarolinaToWisconsin.Keys
  {
  }

  lemma NoPrototypeKeyInWyomingToUnknown()
    ensures JsObject.PrototypeKeys !! StatesWyomingToUnknown.Keys
  {
  }

  /** What `getStateAbbreviation` returns: a code string, or, for a key the
      table does not own but `Object.prototype` does, the inherited member
      (`STATE_ABBREVIATIONS[normalized]` is then truthy and `||` returns it). */
  datatype Abbreviation = Code(code: string) | InheritedMember(key: string)

  /** `getStateAbbreviation`: `"UN"` for a blank name, the table entry for a
      known name, the inherited member for a prototype name, else the
      initials of its words, at most three; a code is never empty. */
  function GetStateAbbreviation(stateName: string): (r: Abbreviation)
    ensures r.InheritedMember? <==> Normalize(stateName) in JsObject.PrototypeKeys
    ensures r.InheritedMember? ==> r.key == Normalize(stateName)
    ensures r.Code? ==> |r.code| > 0
  {
    var normalized := Normalize(stateName);
    TableOwnsNoPrototypeKey(normalized);
    if normalized == "" then Code("UN")
    else if normalized in StateAbbreviations && StateAbbreviations[normalized] != "" then
      Code(StateAbbreviations[normalized])
    else if normalized in JsObject.PrototypeKeys then InheritedMember(normalized)
    else Code(InitialsAbbreviation(normalized))
  }

  /** The abbreviation of a name outside the table: the initials of its first
      three words, or `"UN"` when there are none. */
  function InitialsAbbreviation(normalized: string): (r: string)
    ensures |r| > 0
  {
    var initials := Initials(SplitWs(normalized));
    var fallback := initials[..Min(3, |initials|)];
    if fallback == "" then "UN" else fallback
  }

  /** The normalized name is empty exactly for a blank name. */
  lemma NormalizeBlank(stateName: string)
    ensures Normalize(stateName) == "" <==> AllWhitespace(stateName)
  {
    TrimIsInfix(stateName);
  }

  /** A blank name is abbreviated `"UN"`. */
  lemma AbbreviationOfBlankName(stateName: string)
    requires AllWhitespace(stateName)
    ensures GetStateAbbreviation(stateName) == Code("UN")
  {
    NormalizeBlank(stateName);
  }

  /** A known name, whatever its case and surrounding white space, gets its
      table entry. */
  lemma AbbreviationOfKnownName(stateName: string)
    requires Normalize(stateName) in StateAbbreviations
    ensures GetStateAbbreviation(stateName) == Code(StateAbbreviations[Normalize(stateName)])
  {
  }

  /** Any other non-blank name that is not a prototype name gets the
      upper-cased first letters of its first three words. */
  lemma AbbreviationOfUnknownName(stateName: string)
    requires !AllWhitespace(stateName) && Normalize(stateName) !in StateAbbreviations
    requires Normalize(stateName) !in JsObject.PrototypeKeys
    ensures GetStateAbbreviation(stateName).Code?
    ensures var words := SplitWs(Normalize(stateName));
            var r := GetStateAbbreviation(stateName).code;
            && 1 <= |r| == Min(3, |words|)
            && forall k :: 0 <= k < |r| ==> |words[k]| > 0 && r[k] == ToUpperChar(words[k][0])
  {
    NormalizedHasNoOuterSpace(stateName);
    InitialsOfTrimmedName(Normalize(stateName));
  }

  /** The key of a non-blank name is non-empty and has no white space at
      either end. */
  lemma NormalizedHasNoOuterSpace(stateName: string)
    requires !AllWhitespace(stateName)
    ensures var n := Normalize(stateName);
            |n| > 0 && !IsWhitespace(n[0]) && !IsWhitespace(n[|n| - 1])
  {
    var normalized := Normalize(stateName);
    NormalizeBlank(stateName);
    TrimIsInfix(stateName);
    var t := Trim(stateName);
    assert normalized[0] == ToLowerChar(t[0]);
    assert normalized[|normalized| - 1] == ToLowerChar(t[|t| - 1]);
  }

  /** A name with no white space at either end is abbreviated by the
      upper-cased first letters of its first three words. */
  lemma InitialsOfTrimmedName(normalized: string)
    requires |normalized| > 0 && !IsWhitespace(normalized[0]) && !IsWhitespace(normalized[|normalized| - 1])
    ensures var words := SplitWs(normalized);
            var r := InitialsAbbreviation(normalized);
            && 1 <= |r| == Min(3, |words|)
            && forall k :: 0 <= k < |r| ==> |words[k]| > 0 && r[k] == ToUpperChar(words[k][0])
  {
    SplitTrimmedHasNoEmptyWord(normalized);
    InitialsOfWords(SplitWs(normalized));
  }

  /** Splitting a non-empty string with no white space at either end yields no
      empty word. */
  lemma {:induction false} SplitTrimmedHasNoEmptyWord(s: string)
    requires |s| > 0 && !IsWhitespace(s[0]) && !IsWhitespace(s[|s| - 1])
    ensures forall k :: 0 <= k < |SplitWs(s)| ==> |SplitWs(s)[k]| > 0
    decreases |s|
  {
    var i := NextWhitespace(s, 0);
    if i < |s| {
      var next := i + WsRun(s, i);
      assert next < |s|;
      var rest := s[next..];
      assert rest[0] == s[next] && rest[|rest| - 1] == s[|s| - 1];
      SplitTrimmedHasNoEmptyWord(rest);
      assert SplitWs(s) == [s[..i]] + SplitWs(rest);
    }
  }

  /** With no empty word, there is one initial per word. */
  lemma {:induction false} InitialsOfWords(words: seq<string>)
    requires forall k :: 0 <= k < |words| ==> |words[k]| > 0
    ensures |Initials(words)| == |words|
    ensures forall k :: 0 <= k < |words| ==> Initials(words)[k] == ToUpperChar(words[k][0])
  {
    if |words| > 0 {
      InitialsOfWords(words[1..]);
      assert forall k :: 1 <= k < |words| ==> words[1..][k - 1] == words[k];
    }
  }

}

=== FILE: policy_comparator.dfy ===
/** The pure helpers of the comparison screen
    (components/features/PolicyComparator.tsx): the state list, the bounded
    selection, value icons and colours, label formatting, the rows of the
    export and the CSV file built from them. Rendering, fetching and the
    spreadsheet export are not modelled. */
module PolicyComparator {
  import opened Wrappers
  import opened Text
  import opened Numeric
  import opened Sequences
  import Sorting
  import StatesRoute
  import CompareRoute

  const MaxSelected := 3

  // ------------------------------------------------------------------ state list

  /** `a` may be listed before `b`: the comparator `b.factsCount - a.factsCount`. */
  predicate MoreFacts(a: StatesRoute.StateSummary, b: StatesRoute.StateSummary) {
    a.factsCount >= b.factsCount
  }

  lemma MoreFactsIsTotalPreorder()
    ensures Sorting.TotalPreorder(MoreFacts)
  {
  }

  predicate HasPolicies(s: StatesRoute.StateSummary) {
    s.policiesCount > 0
  }

  /** The list `fetchStates` keeps: states with at least one policy, most facts
      first, ties in the order the API sent them. */
  function SelectableStates(states: seq<StatesRoute.StateSummary>): seq<StatesRoute.StateSummary> {
    Sorting.Sort(Filter(states, HasPolicies), MoreFacts)
  }

  lemma SelectableStatesOrdered(states: seq<StatesRoute.StateSummary>)
    ensures var r := SelectableStates(states);
            && Sorting.Sorted(r, MoreFacts)
            && multiset(r) == multiset(Filter(states, HasPolicies))
            && (forall s :: s in r <==> s in states && s.policiesCount > 0)
            && forall y :: Sorting.TiedWith(r, y, MoreFacts) == Sorting.TiedWith(Filter(states, HasPolicies), y, MoreFacts)
  {
    MoreFactsIsTotalPreorder();
    Sorting.SortIsStable(Filter(states, HasPolicies), MoreFacts);
    var f := Filter(states, HasPolicies);
    forall s ensures s in SelectableStates(states) <==> s in f {
      assert s in SelectableStates(states) <==> s in multiset(SelectableStates(states));
    }
  }

  // ------------------------------------------------------------------ selection

  /** `toggleState`: a selected name is removed (every occurrence), an
      unselected one is added at the end while fewer than three are selected. */
  function ToggleState(selected: seq<string>, name: string): (r: seq<string>)
    ensures name in selected ==> name !in r && forall x :: x != name ==> (x in r <==> x in selected)
    ensures name in selected ==> IsSubsequence(r, selected)
    ensures name !in selected && |selected| < MaxSelected ==> r == selected + [name]
    ensures name !in selected && |selected| >= MaxSelected ==> r == selected
    ensures |selected| <= MaxSelected ==> |r| <= MaxSelected
  {
    if name in selected then
      FilterIsSubsequence(selected, s => s != name);
      Filter(selected, s => s != name)
    else if |selected| < MaxSelected then selected + [name]
    else selected
  }

  /** Every selection reachable by toggling holds at most three distinct names,
      and toggling a name on and off again restores the selection. */
  lemma ToggleKeepsSelectionBounded(selected: seq<string>, name: string)
    requires |selected| <= MaxSelected && NoDuplicates(selected)
    ensures |ToggleState(selected, name)| <= MaxSelected
    ensures NoDuplicates(ToggleState(selected, name))
    ensures name !in selected && |selected| < MaxSelected ==>
              ToggleState(ToggleState(selected, name), name) == selected
  {
    if name in selected {
      FilterNoDuplicates(selected, s => s != name);
    } else if |selected| < MaxSelected {
      var added := selected + [name];
      FilterAppend(selected, name, s => s != name);
      FilterKeepsAll(selected, s => s != name);
      assert ToggleState(added, name) == Filter(added, s => s != name);
    }
  }

  /** `handleCompare`: the request sent, or nothing with fewer than two names. */
  function CompareRequestFor(selected: seq<string>): (r: Option<CompareRoute.CompareRequest>)
    ensures r.None? <==> |selected| < 2
    ensures r.Some? ==> r.value.stateNames == Some(selected) && r.value.categories.None?
  {
    if |selected| < 2 then None
    else Some(CompareRoute.CompareRequest(Some(selected), None))
  }

  /** A request sent from a bounded selection always passes the route's
      validation; only the 500 path (a failing store, or a prototype-named
      category among the selected states' facts) can make it fail. */
  lemma SelectionRequestsAreAccepted(selected: seq<string>, store: Option<seq<CompareRoute.StateFacts>>)
    requires |selected| <= MaxSelected && CompareRequestFor(selected).Some?
    ensures var r := CompareRoute.Compare(CompareRequestFor(selected).value, store);
            && (r.Success? || r == Failure(CompareRoute.CompareFailed))
            && (r.Success? <==> store.Some? && !CompareRoute.InheritedCategory(CompareRoute.Query(store.value, selected, None)))
  {
  }

  // ---------------------------------------------------------------- value icons

  datatype Icon = CheckIcon | CrossIcon | AlertIcon | NoIcon

  /** `getValueIcon` as written: the positive words are checked first. */
  function ValueIconAsWritten(value: string): Icon {
    var v := ToLower(value);
    if Contains(v, "allowed") || Contains(v, "yes") || Contains(v, "permitted") then CheckIcon
    else if Contains(v, "not allowed") || Contains(v, "no") || Contains(v, "prohibited") then CrossIcon
    else if Contains(v, "not specified") || Contains(v, "unclear") then AlertIcon
    else NoIcon
  }

  lemma PhraseHoldsWord(v: string, phrase: string, word: string, at: nat)
    requires Contains(v, phrase) && OccursAt(phrase, word, at)
    ensures Contains(v, word)
  {
    ContainsAt(phrase, word, at);
    ContainsTransitive(v, phrase, word);
  }

  /** As written, every value mentioning "not allowed" gets the check icon and
      no value mentioning "not specified" gets the alert icon: the first holds
      "allowed", the second "no". */
  lemma ValueIconAsWrittenInvertsNegatives(value: string)
    ensures Contains(ToLower(value), "not allowed") ==> ValueIconAsWritten(value) == CheckIcon
    ensures Contains(ToLower(value), "not specified") ==> ValueIconAsWritten(value) != AlertIcon
  {
    var v := ToLower(value);
    if Contains(v, "not allowed") {
      PhraseHoldsWord(v, "not allowed", "allowed", 4);
    }
    if Contains(v, "not specified") {
      PhraseHoldsWord(v, "not specified", "no", 0);
    }
  }

  /** A needle whose first character appears nowhere it could start does not
      occur. */
  lemma AbsentByFirstChar(hay: string, needle: string)
    requires |needle| > 0
    requires forall i :: 0 <= i <= |hay| - |needle| ==> hay[i] != needle[0]
    ensures !Contains(hay, needle)
  {
    forall i | 0 <= i <= |hay| ensures !OccursAt(hay, needle, i) {
      if i + |needle| <= |hay| {
        assert hay[i..i + |needle|][0] == hay[i];
      }
    }
  }

  /** The table's own default, "Not specified", is shown with the cross. */
  lemma NotSpecifiedShownAsCrossAsWritten()
    ensures ValueIconAsWritten(CompareRoute.NotSpecified) == CrossIcon
  {
    var d := ToLower(CompareRoute.NotSpecified);
    assert d[0] == 'n' && d[1] == 'o' && d[2] == 't' && d[3] == ' ' && d[4] == 's';
    assert d[5] == 'p' && d[6] == 'e';
    assert d[..2] == "no";
    assert OccursAt(d, "no", 0);
    ContainsAt(d, "no", 0);
    AbsentByFirstChar(d, "allowed");
    AbsentByFirstChar(d, "yes");
    AbsentByFirstChar(d, "permitted");
  }

  /** `getValueIcon` with the negative phrases checked before the words they
      contain. */
  function ValueIcon(value: string): Icon {
    var v := ToLower(value);
    if Contains(v, "not allowed") || Contains(v, "prohibited") then CrossIcon
    else if Contains(v, "not specified") || Contains(v, "unclear") then AlertIcon
    else if Contains(v, "allowed") || Contains(v, "yes") || Contains(v, "permitted") then CheckIcon
    else if Contains(v, "no") then CrossIcon
    else NoIcon
  }

  /** The corrected icon shows the cross for "not allowed" and the alert for
      "not specified", and agrees with the written one on every value that
      mentions none of the four negative phrases. */
  lemma ValueIconHonoursNegatives(value: string)
    ensures var v := ToLower(value);
            && (Contains(v, "not allowed") ==> ValueIcon(value) == CrossIcon)
            && (Contains(v, "not specified") && !Contains(v, "not allowed") && !Contains(v, "prohibited")
                ==> ValueIcon(value) == AlertIcon)
            && (ValueIcon(value) == CheckIcon ==>
                  !Contains(v, "not allowed") && (Contains(v, "allowed") || Contains(v, "yes") || Contains(v, "permitted")))
            && (!Contains(v, "not allowed") && !Contains(v, "prohibited")
                && !Contains(v, "not specified") && !Contains(v, "unclear")
                ==> ValueIcon(value) == ValueIconAsWritten(value))
  {
  }

  // ---------------------------------------------------------------- confidence

  datatype Colour = Green | Yellow | Red

  /** `getConfidenceColor`. */
  function ConfidenceColour(confidence: real): Colour {
    if confidence >= 0.8 then Green
    else if confidence >= 0.6 then Yellow
    else Red
  }

  function ColourRank(c: Colour): nat {
    match c
    case Red => 0
    case Yellow => 1
    case Green => 2
  }

  /** A higher confidence never gets a worse colour, and the bands are exactly
      [0.8, ∞), [0.6, 0.8) and below 0.6. */
  lemma ConfidenceColourMonotone(a: real, b: real)
    requires a <= b
    ensures ColourRank(ConfidenceColour(a)) <= ColourRank(ConfidenceColour(b))
    ensures ConfidenceColour(a) == Green <==> a >= 0.8
    ensures ConfidenceColour(a) == Red <==> a < 0.6
  {
  }

  // ------------------------------------------------------------------ searching

  /** `filteredStates`: a blank search shows every state; otherwise the states
      whose lower-cased name contains the lower-cased search text (untrimmed). */
  function FilteredStates(states: seq<StatesRoute.StateSummary>, searchTerm: string)
    : (r: seq<StatesRoute.StateSummary>)
    ensures AllWhitespace(searchTerm) ==> r == states
  {
    TrimIsInfix(searchTerm);
    if Trim(searchTerm) == "" then states
    else Filter(states, (s: StatesRoute.StateSummary) => Contains(ToLower(s.name), ToLower(searchTerm)))
  }

  /** A non-blank search keeps exactly the states whose name contains it, in
      their listed order. */
  lemma FilteredStatesMatch(states: seq<StatesRoute.StateSummary>, searchTerm: string)
    requires !AllWhitespace(searchTerm)
    ensures forall s :: s in FilteredStates(states, searchTerm) <==>
                          s in states && Contains(ToLower(s.name), ToLower(searchTerm))
    ensures IsSubsequence(FilteredStates(states, searchTerm), states)
  {
    TrimIsInfix(searchTerm);
    FilterIsSubsequence(states, (s: StatesRoute.StateSummary) => Contains(ToLower(s.name), ToLower(searchTerm)));
  }

  // ------------------------------------------------------------------- labels

  function UnderscoresToSpaces(s: string): (r: string)
    ensures |r| == |s|
    ensures forall i :: 0 <= i < |s| ==> r[i] == if s[i] == '_' then ' ' else s[i]
  {
    seq(|s|, i requires 0 <= i < |s| => if s[i] == '_' then ' ' else s[i])
  }

  /** `\b\w` holds at `i`: a word character not preceded by one. */
  predicate WordStart(t: string, i: nat)
    requires i < |t|
  {
    IsWordChar(t[i]) && (i == 0 || !IsWordChar(t[i - 1]))
  }

  function CapitaliseWords(t: string): (r: string)
    ensures |r| == |t|
    ensures forall i :: 0 <= i < |t| ==> r[i] == if WordStart(t, i) then ToUpperChar(t[i]) else t[i]
  {
    seq(|t|, i requires 0 <= i < |t| => if WordStart(t, i) then ToUpperChar(t[i]) else t[i])
  }

  /** `formatLabel`: underscores become spaces, then each word's first
      character is upper-cased. */
  function FormatLabel(s: string): (r: string)
    ensures |r| == |s|
  {
    CapitaliseWords(UnderscoresToSpaces(s))
  }

  /** A formatted label has no underscore, keeps every other character up to
      letter case, starts every word with a capital, and formatting it again
      changes nothing. */
  lemma FormatLabelProperties(s: string)
    ensures var r := FormatLabel(s);
            && (forall i :: 0 <= i < |r| ==> r[i] != '_')
            && (forall i :: 0 <= i < |r| ==> (r[i] == ' ' <==> s[i] == '_' || s[i] == ' '))
            && (forall i :: 0 <= i < |r| && WordStart(r, i) ==> !IsAsciiLower(r[i]))
            && (forall i :: 0 <= i < |s| && s[i] != '_' ==>
                  r[i] == if WordStart(r, i) then ToUpperChar(s[i]) else s[i])
            && FormatLabel(r) == r
  {
    var t := UnderscoresToSpaces(s);
    var r := CapitaliseWords(t);
    assert forall i :: 0 <= i < |t| ==> (IsWordChar(r[i]) <==> IsWordChar(t[i]));
    assert forall i :: 0 <= i < |r| ==> (WordStart(r, i) <==> WordStart(t, i));
    assert UnderscoresToSpaces(r) == r;
    assert CapitaliseWords(r) == r;
  }

  // --------------------------------------------------------------- export rows

  datatype ExportRow = ExportRow(category: string, field: string, state: string, value: string,
                                 confidence: int, page: Option<int>)

  const NotAvailable := "Not available"

  /** `findValueForState`: the first value for the state. */
  function FindValueForState(values: seq<CompareRoute.TableValue>, name: string)
    : (r: Option<CompareRoute.TableValue>)
    ensures r.None? <==> forall i :: 0 <= i < |values| ==> values[i].state != name
    ensures r.Some? ==> r.value.state == name && r.value in values
    ensures r.Some? ==> exists i :: 0 <= i < |values| && values[i] == r.value
                                    && forall j :: 0 <= j < i ==> values[j].state != name
  {
    if |values| == 0 then None
    else if values[0].state == name then Some(values[0])
    else
      assert forall i :: 1 <= i < |values| ==> values[i] == values[1..][i - 1];
      FindValueForState(values[1..], name)
  }

  /** One export row: the formatted labels, the state, and the state's value,
      or `"Not available"`, confidence 0 and no page when it has none. */
  function RowFor(category: string, field: CompareRoute.TableField, name: string): (r: ExportRow)
    ensures r.category == FormatLabel(category) && r.field == FormatLabel(field.field) && r.state == name
  {
    match FindValueForState(field.values, name)
    case None => ExportRow(FormatLabel(category), FormatLabel(field.field), name, NotAvailable, 0, None)
    case Some(v) =>
      ExportRow(FormatLabel(category), FormatLabel(field.field), name, v.value,
                Round(v.confidence * 100.0), v.pageNumber)
  }

  /** What an export row carries: the value, rounded percentage and page of the
      state's first entry, or the defaults when it has none. */
  lemma RowForDefaults(category: string, field: CompareRoute.TableField, name: string)
    ensures var r := RowFor(category, field, name);
            match FindValueForState(field.values, name)
            case None => r.value == NotAvailable && r.confidence == 0 && r.page.None?
            case Some(v) => r.value == v.value && r.page == v.pageNumber
                            && (r.confidence as real) - 0.5 <= v.confidence * 100.0 < (r.confidence as real) + 0.5
  {
  }

  function FieldRows(category: string, field: CompareRoute.TableField, selected: seq<string>)
    : (r: seq<ExportRow>)
    ensures |r| == |selected|
    ensures forall i :: 0 <= i < |selected| ==> r[i] == RowFor(category, field, selected[i])
  {
    seq(|selected|, i requires 0 <= i < |selected| => RowFor(category, field, selected[i]))
  }

  function FieldBlocks(c: CompareRoute.TableCategory, selected: seq<string>): seq<seq<ExportRow>> {
    seq(|c.fields|, j requires 0 <= j < |c.fields| => FieldRows(c.category, c.fields[j], selected))
  }

  function CategoryRows(c: CompareRoute.TableCategory, selected: seq<string>): seq<ExportRow> {
    Flatten(FieldBlocks(c, selected))
  }

  function CategoryBlocks(comparison: seq<CompareRoute.TableCategory>, selected: seq<string>)
    : seq<seq<ExportRow>>
  {
    seq(|comparison|, k requires 0 <= k < |comparison| => CategoryRows(comparison[k], selected))
  }

  /** `exportRows`: nothing without a comparison or with fewer than two states
      selected; otherwise category by category, field by field, one row per
      selected state. */
  function ExportRows(comparison: seq<CompareRoute.TableCategory>, selected: seq<string>)
    : (r: seq<ExportRow>)
    ensures |comparison| == 0 || |selected| < 2 ==> r == []
  {
    if |comparison| == 0 || |selected| < 2 then []
    else Flatten(CategoryBlocks(comparison, selected))
  }

  /** The number of fields of the first `k` categories. */
  function FieldsBefore(comparison: seq<CompareRoute.TableCategory>, k: nat): nat
    requires k <= |comparison|
  {
    if k == 0 then 0 else FieldsBefore(comparison, k - 1) + |comparison[k - 1].fields|
  }

  lemma {:induction false} BlocksBefore(comparison: seq<CompareRoute.TableCategory>, selected: seq<string>, k: nat)
    requires k <= |comparison|
    ensures TotalLength(CategoryBlocks(comparison, selected)[..k]) == FieldsBefore(comparison, k) * |selected|
  {
    var blocks := CategoryBlocks(comparison, selected);
    if k > 0 {
      BlocksBefore(comparison, selected, k - 1);
      TotalLengthSnoc(blocks[..k - 1], blocks[k - 1]);
      assert blocks[..k] == blocks[..k - 1] + [blocks[k - 1]];
      UniformLength(FieldBlocks(comparison[k - 1], selected), |selected|);
      assert (FieldsBefore(comparison, k - 1) + |comparison[k - 1].fields|) * |selected|
          == FieldsBefore(comparison, k - 1) * |selected| + |comparison[k - 1].fields| * |selected|;
    }
  }

  lemma {:induction false} TotalLengthSnoc<T>(blocks: seq<seq<T>>, b: seq<T>)
    ensures TotalLength(blocks + [b]) == TotalLength(blocks) + |b|
  {
    if |blocks| > 0 {
      TotalLengthSnoc(blocks[1..], b);
      assert (blocks + [b])[1..] == blocks[1..] + [b];
    }
  }

  /** The position of row `i` of block `b` in blocks of `w` rows each. */
  function RowNumber(b: nat, w: nat, i: nat): nat {
    b * w + i
  }

  /** The rows come in nesting order: the row for field `j` of category `k`
      and selected state `i` is number `(fields before it) * |selected| + i`,
      and there are exactly `(all fields) * |selected|` rows. */
  lemma ExportRowsNesting(comparison: seq<CompareRoute.TableCategory>, selected: seq<string>,
                          k: nat, j: nat, i: nat)
    requires |comparison| > 0 && |selected| >= 2
    requires k < |comparison| && j < |comparison[k].fields| && i < |selected|
    ensures |ExportRows(comparison, selected)| == FieldsBefore(comparison, |comparison|) * |selected|
    ensures var n := RowNumber(FieldsBefore(comparison, k) + j, |selected|, i);
            n < |ExportRows(comparison, selected)|
            && ExportRows(comparison, selected)[n]
               == RowFor(comparison[k].category, comparison[k].fields[j], selected[i])
  {
    var blocks := CategoryBlocks(comparison, selected);
    var w := |selected|;
    var fb := FieldBlocks(comparison[k], selected);
    var before := FieldsBefore(comparison, k);
    BlocksBefore(comparison, selected, k);
    BlocksBefore(comparison, selected, |comparison|);
    assert blocks[..|comparison|] == blocks;
    FlattenLength(blocks);
    FlattenUniform(fb, w, j, i);
    var x := RowNumber(j, w, i);
    assert Flatten(fb)[x] == RowFor(comparison[k].category, comparison[k].fields[j], selected[i]) by {
      assert fb[j] == FieldRows(comparison[k].category, comparison[k].fields[j], selected);
    }
    assert blocks[k] == Flatten(fb);
    FlattenAt(blocks, k, x);
    RowNumberSplit(before, j, w, i);
    assert RowNumber(before + j, w, i) == TotalLength(blocks[..k]) + x;
    assert ExportRows(comparison, selected) == Flatten(blocks);
  }

  lemma RowNumberSplit(b: nat, j: nat, w: nat, i: nat)
    ensures RowNumber(b + j, w, i) == b * w + RowNumber(j, w, i)
  {
    assert (b + j) * w == b * w + j * w;
  }

  /** Exported from a table the route built for the same selection, no row is
      ever "Not available": each field holds a value for every selected state. */
  lemma RouteTableRowsAreComplete(states: seq<CompareRoute.StateFacts>, selected: seq<string>,
                                  k: nat, j: nat, i: nat)
    requires var t := CompareRoute.Table(states, selected);
             k < |t| && j < |t[k].fields| && i < |selected|
    ensures var t := CompareRoute.Table(states, selected);
            FindValueForState(t[k].fields[j].values, selected[i]).Some?
  {
    var t := CompareRoute.Table(states, selected);
    assert t[k].fields[j].values[i].state == selected[i];
  }

  // ------------------------------------------------------------------------ CSV

  const CsvHeader: seq<string> := ["Category", "Field", "State", "Value", "Confidence (%)", "Page"]

  /** The cells of one export row, as strings. */
  function RowCells(row: ExportRow): (r: seq<string>)
    ensures |r| == |CsvHeader|
    ensures r[0] == row.category && r[1] == row.field && r[2] == row.state && r[3] == row.value
    ensures r[4] == IntToString(row.confidence)
    ensures row.page.Some? ==> r[5] == IntToString(row.page.value)
    ensures row.page.None? ==> r[5] == ""
  {
    [row.category, row.field, row.state, row.value, IntToString(row.confidence),
     match row.page case Some(p) => IntToString(p) case None => ""]
  }

  /** `cell.replace(/"/g, '""')`. */
  function DoubleQuotes(cell: string): string {
    if |cell| == 0 then ""
    else (if cell[0] == '"' then "\"\"" else [cell[0]]) + DoubleQuotes(cell[1..])
  }

  function Quote(cell: string): string {
    "\"" + DoubleQuotes(cell) + "\""
  }

  /** The two cell escapings: the one written, which quotes a cell holding a
      quote or a comma, and the one section 2 of RFC 4180 asks for, which
      quotes a cell holding a line break as well. */
  datatype Escaping = AsWritten | Rfc4180

  predicate NeedsQuotes(e: Escaping, cell: string) {
    match e
    case AsWritten => '"' in cell || ',' in cell
    case Rfc4180 => '"' in cell || ',' in cell || '\n' in cell || '\r' in cell
  }

  function EscapeCell(e: Escaping, cell: string): string {
    if NeedsQuotes(e, cell) then Quote(cell) else cell
  }

  function EncodeRow(cells: seq<string>, e: Escaping): string {
    Join(seq(|cells|, i requires 0 <= i < |cells| => EscapeCell(e, cells[i])), ",")
  }

  function EncodeTable(rows: seq<seq<string>>, e: Escaping): string {
    Join(seq(|rows|, i requires 0 <= i < |rows| => EncodeRow(rows[i], e)), "\n")
  }

  /** The header followed by each export row's cells. */
  function CsvRows(rows: seq<ExportRow>): (r: seq<seq<string>>)
    ensures |r| == |rows| + 1 && r[0] == CsvHeader
    ensures forall i :: 0 <= i < |rows| ==> r[i + 1] == RowCells(rows[i])
  {
    var body := seq(|rows|, i requires 0 <= i < |rows| => RowCells(rows[i]));
    assert forall i :: 0 <= i < |rows| ==> ([CsvHeader] + body)[i + 1] == body[i];
    [CsvHeader] + body
  }

  /** `handleExportCSV` as written: nothing for no rows, else the CSV text. */
  function ExportCsvAsWritten(rows: seq<ExportRow>): (r: Option<string>)
    ensures r.None? <==> |rows| == 0
  {
    if |rows| == 0 then None else Some(EncodeTable(CsvRows(rows), AsWritten))
  }

  /** `handleExportCSV` with line breaks quoted. */
  function ExportCsv(rows: seq<ExportRow>): (r: Option<string>)
    ensures r.None? <==> |rows| == 0
  {
    if |rows| == 0 then None else Some(EncodeTable(CsvRows(rows), Rfc4180))
  }

  /** The two escapings differ only on line breaks: a table none of whose
      cells holds CR or LF is encoded alike by both. */
  lemma EncodingsAgreeWithoutLineBreaks(rows: seq<seq<string>>)
    requires forall i, j :: 0 <= i < |rows| && 0 <= j < |rows[i]| ==> '\n' !in rows[i][j] && '\r' !in rows[i][j]
    ensures EncodeTable(rows, AsWritten) == EncodeTable(rows, Rfc4180)
  {
    forall i | 0 <= i < |rows| ensures EncodeRow(rows[i], AsWritten) == EncodeRow(rows[i], Rfc4180) {
      var cells := rows[i];
      assert seq(|cells|, j requires 0 <= j < |cells| => EscapeCell(AsWritten, cells[j]))
          == seq(|cells|, j requires 0 <= j < |cells| => EscapeCell(Rfc4180, cells[j]));
    }
    assert seq(|rows|, i requires 0 <= i < |rows| => EncodeRow(rows[i], AsWritten))
        == seq(|rows|, i requires 0 <= i < |rows| => EncodeRow(rows[i], Rfc4180));
  }

  /** The export as written already matches the corrected one whenever no
      header or row cell holds a line break; the two part only on cells
      the written escaping leaves bare although they hold CR or LF. */
  lemma ExportAsWrittenAgreesWithoutLineBreaks(rows: seq<ExportRow>)
    requires forall i, j :: 0 <= i < |CsvRows(rows)| && 0 <= j < |CsvRows(rows)[i]| ==>
               '\n' !in CsvRows(rows)[i][j] && '\r' !in CsvRows(rows)[i][j]
    ensures ExportCsvAsWritten(rows) == ExportCsv(rows)
  {
    EncodingsAgreeWithoutLineBreaks(CsvRows(rows));
  }

  // ------------------------------------------------------------- reading CSV

  /** A reader for the format of section 2 of RFC 4180, with a line feed ending
      each record: it is the partner the writer is checked against. */
  function ParseUnquoted(s: string): (r: (string, string))
    ensures |r.1| <= |s|
    ensures r.1 == [] || r.1[0] == ',' || r.1[0] == '\n'
  {
    if |s| == 0 || s[0] == ',' || s[0] == '\n' then ([], s)
    else var (f, rest) := ParseUnquoted(s[1..]); ([s[0]] + f, rest)
  }

  /** The rest of a quoted field after its opening quote; `""` stands for one
      quote. `None` when the closing quote is missing. */
  function ParseQuoted(s: string): (r: Option<(string, string)>)
    ensures r.Some? ==> |r.value.1| < |s|
  {
    if |s| == 0 then None
    else if s[0] == '"' then
      if |s| > 1 && s[1] == '"' then
        match ParseQuoted(s[2..])
        case None => None
        case Some((f, rest)) => Some(("\"" + f, rest))
      else Some(([], s[1..]))
    else
      match ParseQuoted(s[1..])
      case None => None
      case Some((f, rest)) => Some(([s[0]] + f, rest))
  }

  function ParseField(s: string): (r: Option<(string, string)>)
    ensures r.Some? ==> |r.value.1| <= |s|
  {
    if |s| > 0 && s[0] == '"' then ParseQuoted(s[1..]) else Some(ParseUnquoted(s))
  }

  /** One record: fields separated by commas, up to a line feed or the end. */
  function ParseRecord(s: string): (r: Option<(seq<string>, string)>)
    ensures r.Some? ==> |r.value.1| <= |s|
    decreases |s|
  {
    match ParseField(s)
    case None => None
    case Some((f, rest)) =>
      if |rest| > 0 && rest[0] == ',' then
        match ParseRecord(rest[1..])
        case None => None
        case Some((fs, rest')) => Some(([f] + fs, rest'))
      else Some(([f], rest))
  }

  /** The records of a CSV text; `None` when it is malformed. */
  function ParseCsv(s: string): Option<seq<seq<string>>>
    decreases |s|
  {
    match ParseRecord(s)
    case None => None
    case Some((rec, rest)) =>
      if |rest| == 0 then Some([rec])
      else if rest[0] == '\n' then
        match ParseCsv(rest[1..])
        case None => None
        case Some(recs) => Some([rec] + recs)
      else None
  }

  // ---------------------------------------------------------- round trip

  predicate EndsField(rest: string) {
    rest == [] || rest[0] == ',' || rest[0] == '\n'
  }

  lemma {:induction false} ParseUnquotedPlain(cell: string, rest: string)
    requires ',' !in cell && '\n' !in cell && EndsField(rest)
    ensures ParseUnquoted(cell + rest) == (cell, rest)
  {
    if |cell| > 0 {
      assert (cell + rest)[1..] == cell[1..] + rest;
      ParseUnquotedPlain(cell[1..], rest);
      assert [cell[0]] + cell[1..] == cell;
    } else {
      assert cell + rest == rest;
    }
  }

  lemma {:induction false} ParseQuotedDoubled(cell: string, rest: string)
    requires rest == [] || rest[0] != '"'
    ensures ParseQuoted(DoubleQuotes(cell) + "\"" + rest) == Some((cell, rest))
  {
    var s := DoubleQuotes(cell) + "\"" + rest;
    if |cell| == 0 {
      assert s == "\"" + rest;
      assert s[1..] == rest;
    } else {
      ParseQuotedDoubled(cell[1..], rest);
      var tail := DoubleQuotes(cell[1..]) + "\"" + rest;
      if cell[0] == '"' {
        assert s == "\"\"" + tail;
        assert s[2..] == tail;
        assert "\"" + cell[1..] == cell;
      } else {
        assert s == [cell[0]] + tail;
        assert s[1..] == tail;
        assert [cell[0]] + cell[1..] == cell;
      }
    }
  }

  /** Reading back an escaped cell gives the cell and stops at the delimiter. */
  lemma ParseEscapedCell(cell: string, rest: string)
    requires EndsField(rest)
    ensures ParseField(EscapeCell(Rfc4180, cell) + rest) == Some((cell, rest))
  {
    if NeedsQuotes(Rfc4180, cell) {
      var s := Quote(cell) + rest;
      assert s == "\"" + (DoubleQuotes(cell) + "\"" + rest);
      assert s[1..] == DoubleQuotes(cell) + "\"" + rest;
      ParseQuotedDoubled(cell, rest);
    } else {
      ParseUnquotedPlain(cell, rest);
      if |cell| > 0 {
        assert (cell + rest)[0] == cell[0];
      }
    }
  }

  lemma {:induction false} ParseEncodedRow(cells: seq<string>, rest: string)
    requires |cells| > 0 && (rest == [] || rest[0] == '\n')
    ensures ParseRecord(EncodeRow(cells, Rfc4180) + rest) == Some((cells, rest))
  {
    var parts := seq(|cells|, i requires 0 <= i < |cells| => EscapeCell(Rfc4180, cells[i]));
    if |cells| == 1 {
      assert EncodeRow(cells, Rfc4180) == EscapeCell(Rfc4180, cells[0]);
      ParseEscapedCell(cells[0], rest);
      assert cells == [cells[0]];
    } else {
      assert parts[1..] == seq(|cells| - 1, i requires 0 <= i < |cells| - 1 => EscapeCell(Rfc4180, cells[1..][i]));
      var tail := EncodeRow(cells[1..], Rfc4180) + rest;
      assert EncodeRow(cells, Rfc4180) + rest == EscapeCell(Rfc4180, cells[0]) + ("," + tail);
      ParseEscapedCell(cells[0], "," + tail);
      assert ("," + tail)[1..] == tail;
      ParseEncodedRow(cells[1..], rest);
      assert [cells[0]] + cells[1..] == cells;
    }
  }

  lemma {:induction false} ParseEncodedTable(rows: seq<seq<string>>)
    requires |rows| > 0 && forall i :: 0 <= i < |rows| ==> |rows[i]| > 0
    ensures ParseCsv(EncodeTable(rows, Rfc4180)) == Some(rows)
  {
    if |rows| == 1 {
      assert EncodeTable(rows, Rfc4180) == EncodeRow(rows[0], Rfc4180) + [];
      ParseEncodedRow(rows[0], []);
      assert rows == [rows[0]];
    } else {
      var tail := EncodeTable(rows[1..], Rfc4180);
      EncodeTableCons(rows);
      ParseEncodedRow(rows[0], "\n" + tail);
      assert ("\n" + tail)[1..] == tail;
      ParseEncodedTable(rows[1..]);
      assert [rows[0]] + rows[1..] == rows;
    }
  }

  /** A table of two or more rows is its first row, a line feed, and the rest. */
  lemma EncodeTableCons(rows: seq<seq<string>>)
    requires |rows| > 1
    ensures EncodeTable(rows, Rfc4180) == EncodeRow(rows[0], Rfc4180) + ("\n" + EncodeTable(rows[1..], Rfc4180))
  {
    var lines := seq(|rows|, i requires 0 <= i < |rows| => EncodeRow(rows[i], Rfc4180));
    assert lines[1..] == seq(|rows| - 1, i requires 0 <= i < |rows| - 1 => EncodeRow(rows[1..][i], Rfc4180));
  }

  /** The exported file reads back, under RFC 4180, as the header followed by
      exactly the cells of each export row, whatever the cells hold. */
  lemma ExportCsvRoundTrip(rows: seq<ExportRow>)
    requires |rows| > 0
    ensures ExportCsv(rows).Some?
    ensures ParseCsv(ExportCsv(rows).value) == Some(CsvRows(rows))
  {
    ParseEncodedTable(CsvRows(rows));
  }

  /** As written, a cell holding a line feed but no quote or comma is written
      bare, and a reader sees two records where one was written. */
  lemma LineBreakSplitsRecordAsWritten()
    ensures EncodeTable([["a\nb"]], AsWritten) == "a\nb"
    ensures ParseCsv("a\nb") == Some([["a"], ["b"]])
  {
    var e: string := [];
    assert EncodeRow(["a\nb"], AsWritten) == "a\nb";
    ParseUnquotedPlain("b", e);
    assert "b" + e == "b";
    assert ParseRecord("b") == Some((["b"], e));
    assert ParseCsv("b") == Some([["b"]]);
    ParseUnquotedPlain("a", "\nb");
    assert "a" + "\nb" == "a\nb";
    assert ParseRecord("a\nb") == Some((["a"], "\nb"));
    assert "\nb"[1..] == "b";
    assert ParseCsv("\nb"[1..]) == Some([["b"]]);
    assert [["a"]] + [["b"]] == [["a"], ["b"]];
  }
}

=== FILE: provider.dfy ===
/** The model-provider client (lib/openai.ts). The embedding and chat endpoints
    are oracles passed in by the caller; `Math.sqrt` is an abstract parameter. */
module Provider {
  import opened Wrappers
  import opened Numeric

  type Vector = seq<real>

  datatype ProviderError =
    | EmbeddingUnavailable   // "Failed to generate embedding. ..."
    | GenerationUnavailable  // "Failed to generate response. ..."

  // ---------------------------------------------------------------- embeddings

  /** `generateEmbeddings`: one provider call per text, in order. Call number `i`
      embeds `texts[i]`; the oracle answers `None` when that call throws. */
  function GenerateEmbeddings(texts: seq<string>, embed: (nat, string) -> Option<Vector>)
    : (r: Result<seq<Vector>, ProviderError>)
    ensures r.Success? <==> forall i :: 0 <= i < |texts| ==> embed(i, texts[i]).Some?
    ensures r.Success? ==> |r.value| == |texts|
    ensures r.Success? ==> forall i :: 0 <= i < |texts| ==> r.value[i] == embed(i, texts[i]).value
    ensures r.Failure? ==> r.error == EmbeddingUnavailable
  {
    EmbedFrom(texts, embed, 0)
  }

  /** The loop of `generateEmbeddings` from text `i` on. A failing call ends the
      loop: later texts are never sent and nothing collected so far is returned. */
  function EmbedFrom(texts: seq<string>, embed: (nat, string) -> Option<Vector>, i: nat)
    : (r: Result<seq<Vector>, ProviderError>)
    requires i <= |texts|
    ensures r.Success? <==> forall j :: i <= j < |texts| ==> embed(j, texts[j]).Some?
    ensures r.Success? ==> |r.value| == |texts| - i
    ensures r.Success? ==> forall j :: i <= j < |texts| ==> r.value[j - i] == embed(j, texts[j]).value
    ensures r.Failure? ==> r.error == EmbeddingUnavailable
    decreases |texts| - i
  {
    if i == |texts| then Success([])
    else match embed(i, texts[i])
      case None => Failure(EmbeddingUnavailable)
      case Some(v) =>
        match EmbedFrom(texts, embed, i + 1)
        case Failure(e) => Failure(e)
        case Success(vs) => Success([v] + vs)
  }

  // ------------------------------------------------------------ cosine similarity

  datatype VectorError = LengthMismatch  // "Vectors must have the same length"

  /** The accumulated `a[i] * b[i]` of the loop. */
  function Dot(a: Vector, b: Vector): real
    requires |a| == |b|
  {
    if |a| == 0 then 0.0 else Product(a[0], b[0]) + Dot(a[1..], b[1..])
  }

  /** The accumulated `a[i] * a[i]`: the squared Euclidean norm. */
  function NormSq(a: Vector): real {
    Dot(a, a)
  }

  predicate IsZero(a: Vector) {
    forall i :: 0 <= i < |a| ==> a[i] == 0.0
  }

  /** What the model assumes of the square-root parameter (`Math.sqrt` on the
      non-negative numbers). */
  ghost predicate IsSqrt(sqrt: real -> real) {
    forall x :: x >= 0.0 ==> sqrt(x) >= 0.0 && Product(sqrt(x), sqrt(x)) == x
  }

  /** `cosineSimilarity`: dot product over the product of the norms. `None` is
      JavaScript's `NaN`, the value of `0 / 0`; with a genuine square root the
      denominator is zero only when a vector is all zeros (see
      `CosineUndefinedIffZeroVector`), so the dot product is zero too and `NaN`
      is what JavaScript computes. */
  function CosineSimilarity(a: Vector, b: Vector, sqrt: real -> real)
    : (r: Result<Option<real>, VectorError>)
    ensures r.Failure? <==> |a| != |b|
  {
    if |a| != |b| then Failure(LengthMismatch)
    else
      var denominator := Product(sqrt(NormSq(a)), sqrt(NormSq(b)));
      if denominator == 0.0 then Success(None)
      else Success(Some(Dot(a, b) / denominator))
  }

  lemma {:induction false} DotCommutes(a: Vector, b: Vector)
    requires |a| == |b|
    ensures Dot(a, b) == Dot(b, a)
  {
    if |a| > 0 {
      DotCommutes(a[1..], b[1..]);
    }
  }

  /** Similarity does not depend on argument order, error case included. */
  lemma CosineSymmetric(a: Vector, b: Vector, sqrt: real -> real)
    ensures CosineSimilarity(a, b, sqrt) == CosineSimilarity(b, a, sqrt)
  {
    if |a| == |b| {
      DotCommutes(a, b);
      ProductCommutes(sqrt(NormSq(a)), sqrt(NormSq(b)));
    }
  }

  /** A squared norm is never negative, and it is zero exactly for the zero
      vector. */
  lemma {:induction false} NormSqZeroIffZero(a: Vector)
    ensures NormSq(a) >= 0.0
    ensures NormSq(a) == 0.0 <==> IsZero(a)
  {
    if |a| > 0 {
      NormSqZeroIffZero(a[1..]);
      ProductSign(a[0], a[0]);
      if IsZero(a) {
        assert IsZero(a[1..]) by {
          forall i | 0 <= i < |a[1..]| ensures a[1..][i] == 0.0 {
            assert a[1..][i] == a[i + 1];
          }
        }
      }
      if NormSq(a) == 0.0 {
        forall i | 0 <= i < |a| ensures a[i] == 0.0 {
          if i > 0 {
            assert a[i] == a[1..][i - 1];
          }
        }
      }
    }
  }

  lemma SqrtZeroOnlyAtZero(sqrt: real -> real, x: real)
    requires IsSqrt(sqrt) && x >= 0.0
    ensures sqrt(x) >= 0.0
    ensures sqrt(x) == 0.0 <==> x == 0.0
  {
    ProductSign(sqrt(x), sqrt(x));
  }

  /** Equal-length vectors have an undefined (NaN) similarity exactly when one
      of them is all zeros. */
  lemma CosineUndefinedIffZeroVector(a: Vector, b: Vector, sqrt: real -> real)
    requires IsSqrt(sqrt) && |a| == |b|
    ensures CosineSimilarity(a, b, sqrt) == Success(None) <==> IsZero(a) || IsZero(b)
  {
    NormSqZeroIffZero(a);
    NormSqZeroIffZero(b);
    SqrtZeroOnlyAtZero(sqrt, NormSq(a));
    SqrtZeroOnlyAtZero(sqrt, NormSq(b));
    ProductZero(sqrt(NormSq(a)), sqrt(NormSq(b)));
  }

  /** A non-zero vector is perfectly similar to itself. */
  lemma SelfSimilarityIsOne(v: Vector, sqrt: real -> real)
    requires IsSqrt(sqrt) && !IsZero(v)
    ensures CosineSimilarity(v, v, sqrt) == Success(Some(1.0))
  {
    NormSqZeroIffZero(v);
    var n := NormSq(v);
    assert Product(sqrt(n), sqrt(n)) == n;
    assert n / n == 1.0;
  }

  // ------------------------------------------------------------------------ chat

  datatype Role = SystemRole | UserRole | AssistantRole

  datatype ChatMessage = ChatMessage(role: Role, content: string)

  /** The optional `{ temperature, numPredict }` argument; a missing argument is
      `ChatOptions(None, None)`. */
  datatype ChatOptions = ChatOptions(temperature: Option<real>, numPredict: Option<int>)

  /** What is sent to the chat endpoint. */
  datatype ChatRequest = ChatRequest(messages: seq<ChatMessage>, temperature: real, numPredict: int)

  /** The endpoint's reply: `response.message?.content`. */
  datatype ChatResponse = ChatResponse(message: Option<Option<string>>)

  const DefaultTemperature: real := 0.3
  const DefaultNumPredict: int := 512

  /** The request `generateChatCompletion` sends. Defaults apply only to absent
      options (`??`): an explicit temperature of 0 is kept. */
  function ChatRequestFor(messages: seq<ChatMessage>, options: ChatOptions): (r: ChatRequest)
    ensures r.messages == messages
    ensures options.temperature.Some? ==> r.temperature == options.temperature.value
    ensures options.temperature.None? ==> r.temperature == 0.3
    ensures options.numPredict.Some? ==> r.numPredict == options.numPredict.value
    ensures options.numPredict.None? ==> r.numPredict == 512
  {
    ChatRequest(messages, options.temperature.GetOr(DefaultTemperature),
                options.numPredict.GetOr(DefaultNumPredict))
  }

  /** `generateChatCompletion`: the reply's text, or `""` when the reply carries
      no message content; any failure of the call becomes one generic error. */
  function GenerateChatCompletion(messages: seq<ChatMessage>, options: ChatOptions,
                                  chat: ChatRequest -> Option<ChatResponse>)
    : (r: Result<string, ProviderError>)
    ensures chat(ChatRequestFor(messages, options)).None? <==> r == Failure(GenerationUnavailable)
    ensures r.Success? ==> match chat(ChatRequestFor(messages, options)).value.message
                           case Some(Some(text)) => r.value == text
                           case _ => r.value == ""
  {
    match chat(ChatRequestFor(messages, options))
    case None => Failure(GenerationUnavailable)
    case Some(response) =>
      Success(match response.message
              case Some(Some(text)) => text
              case _ => "")
  }
}

=== FILE: rag.dfy ===
/** Retrieval and answer assembly (lib/rag.ts): the ranking inside
    `hybridSearch`, the response `ragQuery` builds around one chat call, and
    the tolerant parsing and storing of `extractPolicyFacts`. The embedding
    and chat endpoints, the store's reads and writes and `JSON.parse` are
    oracles: their answers are parameters. */
module Rag {
  import opened Wrappers
  import opened Text
  import opened Numeric
  import opened Sorting
  import opened Sequences
  import Provider

  // ------------------------------------------------------------ hybrid search

  const SimilarityThreshold: real := 0.7
  const TopKResults: nat := 5

  /** A stored chunk joined with its policy and state, as the store returns it.
      `embedding` is `None` when the column is empty. */
  datatype StoredChunk = StoredChunk(
    id: string, content: string, pageNumber: int, embedding: Option<Provider.Vector>,
    policyId: string, stateName: string, policyTitle: string)

  datatype SearchResult = SearchResult(
    chunkId: string, content: string, pageNumber: int, similarity: real,
    policyId: string, stateName: string, policyTitle: string)

  datatype SearchError = SearchFailed  // "Search failed"

  function ResultFor(c: StoredChunk, similarity: real): SearchResult {
    SearchResult(c.id, c.content, c.pageNumber, similarity, c.policyId, c.stateName, c.policyTitle)
  }

  /** The chunk has an embedding that `cosineSimilarity` refuses to compare
      with the query's. */
  predicate Mismatched(query: Provider.Vector, c: StoredChunk) {
    c.embedding.Some? && |c.embedding.value| != |query|
  }

  /** The similarity with which the filter keeps the chunk; `None` when it has
      no embedding, its similarity is `NaN`, or it is below the threshold. */
  function Kept(query: Provider.Vector, c: StoredChunk, sqrt: real -> real): Option<real> {
    if c.embedding.None? then None
    else match Provider.CosineSimilarity(query, c.embedding.value, sqrt)
      case Success(Some(s)) => if s >= SimilarityThreshold then Some(s) else None
      case _ => None
  }

  /** The `map` and `filter` steps: one result per kept chunk, in store order.
      A single mismatched embedding makes `cosineSimilarity` throw. */
  function Candidates(query: Provider.Vector, chunks: seq<StoredChunk>, sqrt: real -> real)
    : (r: Result<seq<SearchResult>, SearchError>)
    ensures r.Failure? <==> exists i :: 0 <= i < |chunks| && Mismatched(query, chunks[i])
    ensures r.Success? ==> forall x :: x in r.value ==> x.similarity >= SimilarityThreshold
    ensures r.Success? ==> forall i :: 0 <= i < |chunks| && Kept(query, chunks[i], sqrt).Some? ==>
              ResultFor(chunks[i], Kept(query, chunks[i], sqrt).value) in r.value
    ensures r.Success? ==> forall x :: x in r.value ==>
              exists i :: 0 <= i < |chunks| && Kept(query, chunks[i], sqrt).Some?
                          && x == ResultFor(chunks[i], Kept(query, chunks[i], sqrt).value)
    decreases |chunks|
  {
    if |chunks| == 0 then Success([])
    else if Mismatched(query, chunks[0]) then Failure(SearchFailed)
    else match Candidates(query, chunks[1..], sqrt)
      case Failure(e) =>
        assert forall i :: 1 <= i < |chunks| ==> chunks[1..][i - 1] == chunks[i];
        Failure(e)
      case Success(rest) =>
        assert forall i :: 1 <= i < |chunks| ==> chunks[1..][i - 1] == chunks[i];
        var k := Kept(query, chunks[0], sqrt);
        Success((if k.Some? then [ResultFor(chunks[0], k.value)] else []) + rest)
  }

  /** Order and multiplicity of the candidates: filtering the chunks in store
      order and mapping each kept one to its result gives exactly the
      candidates, one per kept chunk. */
  lemma {:induction false} CandidatesInStoreOrder(query: Provider.Vector, chunks: seq<StoredChunk>, sqrt: real -> real)
    requires Candidates(query, chunks, sqrt).Success?
    ensures var r := Candidates(query, chunks, sqrt).value;
            var kept := Filter(chunks, c => Kept(query, c, sqrt).Some?);
            && |r| == |kept|
            && forall k :: 0 <= k < |kept| ==>
                 Kept(query, kept[k], sqrt).Some? && r[k] == ResultFor(kept[k], Kept(query, kept[k], sqrt).value)
    decreases |chunks|
  {
    if |chunks| > 0 {
      CandidatesInStoreOrder(query, chunks[1..], sqrt);
    }
  }

  /** The comparator `(a, b) => b.similarity - a.similarity`: `x` may precede
      `y` when its similarity is not lower. */
  function BySimilarity(x: SearchResult, y: SearchResult): bool {
    x.similarity >= y.similarity
  }

  lemma BySimilarityIsTotalPreorder()
    ensures TotalPreorder(BySimilarity)
  {
  }

  /** The `sort` and `slice(0, topK)` steps: the best `topK` candidates, most
      similar first. `topK` comes unchecked from the request, and a negative
      one drops the `-topK` least similar candidates instead. */
  function Rank(cands: seq<SearchResult>, topK: int): (r: seq<SearchResult>)
    ensures |r| == SliceEnd(|cands|, topK)
    ensures forall x :: x in r ==> x in cands
    ensures forall i, j :: 0 <= i < j < |r| ==> r[i].similarity >= r[j].similarity
  {
    SortKeepsCandidates(cands);
    Take(Sort(cands, BySimilarity), SliceEnd(|cands|, topK))
  }

  lemma SortKeepsCandidates(cands: seq<SearchResult>)
    ensures Sorted(Sort(cands, BySimilarity), BySimilarity)
    ensures multiset(Sort(cands, BySimilarity)) == multiset(cands)
    ensures forall x :: x in Sort(cands, BySimilarity) ==> x in cands
  {
    BySimilarityIsTotalPreorder();
    SortIsStable(cands, BySimilarity);
    forall x | x in Sort(cands, BySimilarity) ensures x in cands {
      assert x in multiset(Sort(cands, BySimilarity));
    }
  }

  /** Nothing better is left out: a candidate that did not make it into the
      ranking is outranked by every ranked one, and the ranking is full. */
  lemma RankKeepsBest(cands: seq<SearchResult>, topK: int)
    ensures var r := Rank(cands, topK);
            && multiset(r) <= multiset(cands)
            && forall c :: multiset(r)[c] < multiset(cands)[c] ==>
                 && (0 <= topK ==> |r| == topK)
                 && forall i :: 0 <= i < |r| ==> r[i].similarity >= c.similarity
  {
    var ranked := Sort(cands, BySimilarity);
    SortKeepsCandidates(cands);
    var k := SliceEnd(|cands|, topK);
    var r := Take(ranked, k);
    forall c | multiset(r)[c] < multiset(cands)[c]
      ensures (0 <= topK ==> |r| == topK) && forall i :: 0 <= i < |r| ==> r[i].similarity >= c.similarity
    {
      TakeMissesOnlyTail(ranked, k, c);
      var j :| k <= j < |ranked| && ranked[j] == c;
      forall i | 0 <= i < |r| ensures r[i].similarity >= c.similarity {
        assert r[i] == ranked[i];
      }
    }
  }

  /** The ranking is the first `topK` of the one stable arrangement of the
      candidates: any arrangement sorted by similarity that keeps tied
      candidates in store order begins with it. */
  lemma RankIsStablePrefix(cands: seq<SearchResult>, topK: int, ranked: seq<SearchResult>)
    requires Sorted(ranked, BySimilarity)
    requires forall y :: TiedWith(ranked, y, BySimilarity) == TiedWith(cands, y, BySimilarity)
    ensures Rank(cands, topK) == Take(ranked, SliceEnd(|cands|, topK))
  {
    BySimilarityIsTotalPreorder();
    SortIsStable(cands, BySimilarity);
    StableSortUnique(Sort(cands, BySimilarity), ranked, BySimilarity);
  }

  /** `hybridSearch`, given what the embedding endpoint answered for the query
      (`None` when it threw) and the chunks the store returned (`None` when the
      read threw). Every failure becomes the one "Search failed" error. */
  function HybridSearch(queryEmbedding: Option<Provider.Vector>, fetched: Option<seq<StoredChunk>>,
                        topK: int, sqrt: real -> real)
    : (r: Result<seq<SearchResult>, SearchError>)
    ensures r.Failure? <==>
              || queryEmbedding.None? || fetched.None?
              || exists i :: 0 <= i < |fetched.value| && Mismatched(queryEmbedding.value, fetched.value[i])
    ensures r.Success? && 0 <= topK ==> |r.value| <= topK
    ensures r.Success? ==> forall i :: 0 <= i < |r.value| ==> r.value[i].similarity >= SimilarityThreshold
    ensures r.Success? ==> forall i, j :: 0 <= i < j < |r.value| ==> r.value[i].similarity >= r.value[j].similarity
    ensures r.Success? ==> r.value == Rank(Candidates(queryEmbedding.value, fetched.value, sqrt).value, topK)
  {
    if queryEmbedding.None? || fetched.None? then Failure(SearchFailed)
    else match Candidates(queryEmbedding.value, fetched.value, sqrt)
      case Failure(e) => Failure(e)
      case Success(cands) =>
        var r := Rank(cands, topK);
        assert forall i :: 0 <= i < |r| ==> r[i] in cands;
        Success(r)
  }

  // ---------------------------------------------------------------- rag query

  datatype HistoryRole = HistoryUser | HistoryAssistant

  datatype HistoryMessage = HistoryMessage(role: HistoryRole, content: string)

  datatype Citation = Citation(content: string, pageNumber: int, stateName: string, policyTitle: string)

  datatype RagResponse = RagResponse(
    answer: string, confidence: real, citations: seq<Citation>, suggestedQueries: Option<seq<string>>)

  datatype RagError = AnswerFailed  // "Failed to generate answer"

  const HistoryLimit: nat := 10
  const ConfidenceScale: real := 1.2

  const NoResultsAnswer: string :=
    "I couldn't find relevant information to answer your question. Try rephrasing or asking about specific telehealth modalities, billing codes, or state requirements."

  const FallbackQueries: seq<string> := [
    "What are the live video requirements?",
    "Does this state allow store-and-forward?",
    "What are the consent requirements?"
  ]

  /** The answer for a search that found nothing. */
  const NoResultsResponse: RagResponse := RagResponse(NoResultsAnswer, 0.0, [], Some(FallbackQueries))

  const AnswerSystemPrompt: string :=
    "You are a telehealth policy expert assistant. Answer questions based ONLY on the provided context from state telehealth policy documents.\n\n"
    + "Rules:\n1. Only use information from the provided context\n2. Always cite sources using [number] notation\n"
    + "3. If the context doesn't contain enough information, say so clearly\n4. Be concise and specific\n"
    + "5. For regulatory questions, quote exact requirements when possible\n6. If confidence is low, suggest alternative queries"

  /** `history.slice(-10)`: the last ten messages, or all of a shorter history. */
  function HistoryTail(history: seq<HistoryMessage>): (r: seq<HistoryMessage>)
    ensures |r| == Min(HistoryLimit, |history|)
    ensures history == history[..|history| - |r|] + r
  {
    if |history| <= HistoryLimit then history else history[|history| - HistoryLimit..]
  }

  /** Source `i` (counting from 0) as the context shows it: numbered from 1. */
  function RenderResult(i: nat, r: SearchResult): string {
    SourceHeading(i, r) + r.content
  }

  /** The line introducing source `i`: its number, state and page. */
  function SourceHeading(i: nat, r: SearchResult): string {
    "[" + NatToString(i + 1) + "] From " + r.stateName + " (Page " + IntToString(r.pageNumber) + "):\n"
  }

  function RenderedResults(results: seq<SearchResult>): (r: seq<string>)
    ensures |r| == |results|
    ensures forall i :: 0 <= i < |results| ==> r[i] == RenderResult(i, results[i])
  {
    seq(|results|, i requires 0 <= i < |results| => RenderResult(i, results[i]))
  }

  /** The sources, rendered and separated by a blank line. */
  function Context(results: seq<SearchResult>): string {
    Join(RenderedResults(results), "\n\n")
  }

  /** Every result appears in the context, with its number and its content. */
  lemma ContextCitesEveryResult(results: seq<SearchResult>, i: nat)
    requires i < |results|
    ensures Contains(Context(results), RenderResult(i, results[i]))
    ensures Contains(Context(results), results[i].content)
  {
    var rendered := RenderedResults(results);
    JoinContainsParts(rendered, "\n\n", i);
    var part := RenderResult(i, results[i]);
    ContainsSuffix(SourceHeading(i, results[i]), results[i].content);
    ContainsTransitive(Context(results), part, results[i].content);
  }

  const ContextHeading: string := "Context from policy documents:\n"
  const QuestionHeading: string := "\n\nQuestion: "
  const CitationInstruction: string :=
    "\n\nProvide a clear, cited answer. Use [1], [2], etc. to reference the context sources."

  /** The question message: the context, the question, and the instruction to
      cite sources by number. */
  function UserPrompt(context: string, query: string): string {
    ContextHeading + context + QuestionHeading + query + CitationInstruction
  }

  function ToChatMessage(m: HistoryMessage): Provider.ChatMessage {
    Provider.ChatMessage(if m.role == HistoryUser then Provider.UserRole else Provider.AssistantRole, m.content)
  }

  /** The history as chat messages, one for one and in order. */
  function ChatHistory(history: seq<HistoryMessage>): (r: seq<Provider.ChatMessage>)
    ensures |r| == |history|
    ensures forall i :: 0 <= i < |history| ==> r[i] == ToChatMessage(history[i])
  {
    seq(|history|, i requires 0 <= i < |history| => ToChatMessage(history[i]))
  }

  /** The conversation sent for an answer: the instructions, the history tail
      and the question with its context. */
  function AnswerMessages(query: string, results: seq<SearchResult>, history: seq<HistoryMessage>)
    : (r: seq<Provider.ChatMessage>)
    ensures |r| == Min(HistoryLimit, |history|) + 2
    ensures r[0] == Provider.ChatMessage(Provider.SystemRole, AnswerSystemPrompt)
    ensures r[|r| - 1] == Provider.ChatMessage(Provider.UserRole, UserPrompt(Context(results), query))
    ensures r[1..|r| - 1] == ChatHistory(HistoryTail(history))
  {
    var middle := ChatHistory(HistoryTail(history));
    var r := [Provider.ChatMessage(Provider.SystemRole, AnswerSystemPrompt)] + middle
             + [Provider.ChatMessage(Provider.UserRole, UserPrompt(Context(results), query))];
    assert r[1..|r| - 1] == middle;
    r
  }

  const AnswerOptions: Provider.ChatOptions := Provider.ChatOptions(Some(0.3), Some(512))

  function SumSimilarity(results: seq<SearchResult>): real {
    if |results| == 0 then 0.0 else results[0].similarity + SumSimilarity(results[1..])
  }

  /** `Math.min(mean * 1.2, 1.0)` over the results' similarities. */
  function Confidence(results: seq<SearchResult>): (r: real)
    requires |results| > 0
    ensures r <= 1.0
  {
    var scaled := SumSimilarity(results) / (|results| as real) * ConfidenceScale;
    if scaled <= 1.0 then scaled else 1.0
  }

  lemma {:induction false} SumAtLeast(results: seq<SearchResult>, bound: real)
    requires forall i :: 0 <= i < |results| ==> results[i].similarity >= bound
    ensures SumSimilarity(results) >= bound * (|results| as real)
  {
    if |results| > 0 {
      SumAtLeast(results[1..], bound);
      assert bound * (|results| as real) == bound + bound * ((|results| - 1) as real);
    }
  }

  lemma MeanAtLeast(sum: real, n: real, bound: real)
    requires n > 0.0 && sum >= bound * n
    ensures sum / n >= bound
  {
  }

  /** Results that all pass the threshold give a confidence between 0.84 and 1. */
  lemma ConfidenceBounds(results: seq<SearchResult>)
    requires |results| > 0
    requires forall i :: 0 <= i < |results| ==> results[i].similarity >= SimilarityThreshold
    ensures 0.84 <= Confidence(results) <= 1.0
  {
    SumAtLeast(results, SimilarityThreshold);
    MeanAtLeast(SumSimilarity(results), |results| as real, SimilarityThreshold);
  }

  function CitationOf(r: SearchResult): Citation {
    Citation(r.content, r.pageNumber, r.stateName, r.policyTitle)
  }

  /** `ragQuery`: the default-size search, then either the fixed no-results
      answer or one chat call over the context. Any failure becomes the one
      "Failed to generate answer" error. */
  function RagQuery(query: string, history: seq<HistoryMessage>,
                    queryEmbedding: Option<Provider.Vector>, fetched: Option<seq<StoredChunk>>,
                    sqrt: real -> real, chat: Provider.ChatRequest -> Option<Provider.ChatResponse>)
    : (r: Result<RagResponse, RagError>)
    ensures var search := HybridSearch(queryEmbedding, fetched, TopKResults, sqrt);
            && (search.Failure? ==> r == Failure(AnswerFailed))
            && (search == Success([]) ==> r == Success(NoResultsResponse))
    ensures var search := HybridSearch(queryEmbedding, fetched, TopKResults, sqrt);
            search.Success? && |search.value| > 0 ==>
              var request := Provider.ChatRequestFor(AnswerMessages(query, search.value, history), AnswerOptions);
              && (r.Success? <==> chat(request).Some?)
              && (r.Success? ==> && r.value.answer == Provider.GenerateChatCompletion(
                                      AnswerMessages(query, search.value, history), AnswerOptions, chat).value
                                 && r.value.confidence == Confidence(search.value)
                                 && r.value.suggestedQueries.None?
                                 && |r.value.citations| == |search.value|
                                 && forall i :: 0 <= i < |search.value| ==>
                                      r.value.citations[i] == CitationOf(search.value[i]))
  {
    match HybridSearch(queryEmbedding, fetched, TopKResults, sqrt)
    case Failure(_) => Failure(AnswerFailed)
    case Success(results) =>
      if |results| == 0 then Success(NoResultsResponse)
      else Answered(query, results, history, chat)
  }

  /** The answer over a non-empty set of results: one chat call, the mean
      similarity as confidence, and one citation per result. */
  function Answered(query: string, results: seq<SearchResult>, history: seq<HistoryMessage>,
                    chat: Provider.ChatRequest -> Option<Provider.ChatResponse>)
    : (r: Result<RagResponse, RagError>)
    requires |results| > 0
    ensures var messages := AnswerMessages(query, results, history);
            && (r.Success? <==> chat(Provider.ChatRequestFor(messages, AnswerOptions)).Some?)
            && (r.Success? ==> && r.value.answer == Provider.GenerateChatCompletion(messages, AnswerOptions, chat).value
                               && r.value.confidence == Confidence(results)
                               && r.value.suggestedQueries.None?
                               && |r.value.citations| == |results|
                               && forall i :: 0 <= i < |results| ==> r.value.citations[i] == CitationOf(results[i]))
  {
    match Provider.GenerateChatCompletion(AnswerMessages(query, results, history), AnswerOptions, chat)
    case Failure(_) => Failure(AnswerFailed)
    case Success(answer) =>
      Success(RagResponse(answer, Confidence(results),
                          seq(|results|, i requires 0 <= i < |results| => CitationOf(results[i])), None))
  }

  /** With no results the chat endpoint is never consulted: the answer does not
      depend on it, carries confidence 0, no citations and three suggestions. */
  lemma NoResultsSkipsGeneration(query: string, history: seq<HistoryMessage>,
                                 queryEmbedding: Option<Provider.Vector>, fetched: Option<seq<StoredChunk>>,
                                 sqrt: real -> real,
                                 chat1: Provider.ChatRequest -> Option<Provider.ChatResponse>,
                                 chat2: Provider.ChatRequest -> Option<Provider.ChatResponse>)
    requires HybridSearch(queryEmbedding, fetched, TopKResults, sqrt) == Success([])
    ensures RagQuery(query, history, queryEmbedding, fetched, sqrt, chat1)
            == RagQuery(query, history, queryEmbedding, fetched, sqrt, chat2)
    ensures var r := RagQuery(query, history, queryEmbedding, fetched, sqrt, chat1);
            && r.Success? && r.value.confidence == 0.0 && r.value.citations == []
            && r.value.suggestedQueries.Some? && |r.value.suggestedQueries.value| == 3
  {
  }

  /** An answered query reports a confidence of 0 without sources and between
      0.84 and 1 with them. */
  lemma RagConfidenceRange(query: string, history: seq<HistoryMessage>,
                           queryEmbedding: Option<Provider.Vector>, fetched: Option<seq<StoredChunk>>,
                           sqrt: real -> real, chat: Provider.ChatRequest -> Option<Provider.ChatResponse>)
    requires RagQuery(query, history, queryEmbedding, fetched, sqrt, chat).Success?
    ensures var r := RagQuery(query, history, queryEmbedding, fetched, sqrt, chat).value;
            (r.citations == [] && r.confidence == 0.0) || (r.citations != [] && 0.84 <= r.confidence <= 1.0)
  {
    var search := HybridSearch(queryEmbedding, fetched, TopKResults, sqrt);
    if |search.value| > 0 {
      ConfidenceBounds(search.value);
    }
  }

  // ----------------------------------------------------------- fact extraction

  /** A policy with its state's name and its chunks' contents in store order. */
  datatype PolicyRecord = PolicyRecord(id: string, stateId: string, stateName: string, chunkContents: seq<string>)

  /** The store's answer to `findUnique`. */
  datatype PolicyLookup = LookupFailed | PolicyMissing | PolicyFound(policy: PolicyRecord)

  /** A fact as the model's JSON gives it; `confidence` is `None` when it is
      absent, null or `NaN`. */
  datatype RawFact = RawFact(category: string, field: string, value: string,
                             confidence: Option<real>, page: Option<int>)

  /** What `JSON.parse` produced: `facts` is `None` unless it is an array. */
  datatype ParsedJson = ParsedJson(facts: Option<seq<RawFact>>)

  datatype PolicyFact = PolicyFact(policyId: string, stateId: string, category: string, field: string,
                                   value: string, confidence: real, pageNumber: Option<int>)

  /** The facts written, and whether the call ended with "Failed to extract
      policy facts". Writes made before a failing one stay in the store. */
  datatype FactsOutcome = FactsOutcome(stored: seq<PolicyFact>, failed: bool)

  const ExtractionLimit: nat := 12000
  const DefaultFactConfidence: real := 0.5
  const ExtractionOptions: Provider.ChatOptions := Provider.ChatOptions(Some(0.1), Some(1024))

  const ExtractionSystemPrompt: string :=
    "You are a telehealth policy extraction expert. Extract structured facts from state telehealth policy documents.\n\n"
    + "Extract the following categories:\n1. Modalities: live_video, store_and_forward, rpm, audio_only\n"
    + "2. Consent: requirements and specifics\n3. In-person requirements: initial visit rules\n"
    + "4. Provider eligibility: who can provide telehealth\n5. Site eligibility: originating/distant site rules\n"
    + "6. Billing: facility fees, modifiers (GT, FQ, 95), reimbursement parity\n"
    + "7. Documentation: special requirements (e.g., BMI recording)\n8. Prescribing: controlled substances, restrictions\n\n"
    + "Return JSON format:\n{\n  \"facts\": [\n    {\n      \"category\": \"modality\",\n      \"field\": \"live_video\",\n"
    + "      \"value\": \"Allowed with no restrictions\",\n      \"confidence\": 0.95,\n      \"page\": 3\n    }\n  ]\n}"

  /** The chunks' contents joined by newlines. */
  function FullText(p: PolicyRecord): string {
    Join(p.chunkContents, "\n")
  }

  /** `text.slice(0, 12000)`. */
  function Excerpt(text: string): (r: string)
    ensures |r| == Min(ExtractionLimit, |text|)
    ensures text == r + text[|r|..]
  {
    text[..Min(ExtractionLimit, |text|)]
  }

  const ExtractionRequestStart: string := "Extract facts from this "
  const ExtractionRequestEnd: string := " policy:\n\n"

  function ExtractionMessages(p: PolicyRecord): seq<Provider.ChatMessage> {
    [ Provider.ChatMessage(Provider.SystemRole, ExtractionSystemPrompt),
      Provider.ChatMessage(Provider.UserRole,
        ExtractionRequestStart + p.stateName + ExtractionRequestEnd + Excerpt(FullText(p))) ]
  }

  /** `raw.match(/\{[\s\S]*\}/)`: from the first `{` to the last `}` after it. */
  function JsonSpan(raw: string): (r: Option<string>) {
    var open := IndexOf(raw, '{', 0);
    var close := LastIndexOf(raw, '}', |raw|);
    if open < close then Some(raw[open..close + 1]) else None
  }

  /** The span exists exactly when some `{` precedes some `}`; it is then the
      longest match at the leftmost `{`: it starts at the first `{` and ends
      at the last `}`. */
  lemma JsonSpanIsGreedyMatch(raw: string)
    ensures JsonSpan(raw).Some? <==> exists a, b :: 0 <= a < b < |raw| && raw[a] == '{' && raw[b] == '}'
    ensures JsonSpan(raw).Some? ==>
              var span := JsonSpan(raw).value;
              exists a :: && OccursAt(raw, span, a) && |span| >= 2
                          && span[0] == '{' && span[|span| - 1] == '}'
                          && (forall i :: 0 <= i < a ==> raw[i] != '{')
                          && (forall i :: a + |span| <= i < |raw| ==> raw[i] != '}')
  {
    var open := IndexOf(raw, '{', 0);
    var close := LastIndexOf(raw, '}', |raw|);
    if open < close {
      var span := raw[open..close + 1];
      assert span[0] == raw[open] && span[|span| - 1] == raw[close];
      assert OccursAt(raw, span, open);
    }
  }

  /** `fact.confidence || 0.5`: an absent or zero confidence becomes 0.5. */
  function FactConfidence(c: Option<real>): (r: real)
    ensures r != 0.0
    ensures c.Some? && c.value != 0.0 ==> r == c.value
    ensures c.None? || c.value == 0.0 ==> r == DefaultFactConfidence
  {
    match c
    case Some(v) => if v != 0.0 then v else DefaultFactConfidence
    case None => DefaultFactConfidence
  }

  function ToPolicyFact(p: PolicyRecord, f: RawFact): PolicyFact {
    PolicyFact(p.id, p.stateId, f.category, f.field, f.value, FactConfidence(f.confidence), f.page)
  }

  /** The write loop from fact `i` on; `store(i, fact)` is `false` when write
      number `i` throws, which ends the loop. */
  function StoreFrom(facts: seq<PolicyFact>, store: (nat, PolicyFact) -> bool, i: nat): (r: FactsOutcome)
    requires i <= |facts|
    ensures !r.failed <==> forall j :: i <= j < |facts| ==> store(j, facts[j])
    ensures i + |r.stored| <= |facts| && r.stored == facts[i..i + |r.stored|]
    ensures r.failed ==> i + |r.stored| < |facts| && !store(i + |r.stored|, facts[i + |r.stored|])
    ensures !r.failed ==> i + |r.stored| == |facts|
    decreases |facts| - i
  {
    if i == |facts| then FactsOutcome([], false)
    else if !store(i, facts[i]) then FactsOutcome([], true)
    else
      var rest := StoreFrom(facts, store, i + 1);
      FactsOutcome([facts[i]] + rest.stored, rest.failed)
  }

  /** `extractPolicyFacts`. The facts the reply holds are written one by one;
      a reply with no `{...}` span, unparsable JSON or no `facts` array stores
      nothing and is not an error. */
  function ExtractPolicyFacts(lookup: PolicyLookup,
                              chat: Provider.ChatRequest -> Option<Provider.ChatResponse>,
                              parse: string -> Option<ParsedJson>,
                              store: (nat, PolicyFact) -> bool)
    : (r: FactsOutcome)
    ensures !lookup.PolicyFound? ==> r == FactsOutcome([], true)
    ensures lookup.PolicyFound? ==>
              var reply := Provider.GenerateChatCompletion(ExtractionMessages(lookup.policy), ExtractionOptions, chat);
              && (reply.Failure? ==> r == FactsOutcome([], true))
              && (reply.Success? && (JsonSpan(reply.value).None? || parse(JsonSpan(reply.value).value).None?
                                     || parse(JsonSpan(reply.value).value).value.facts.None?)
                  ==> r == FactsOutcome([], false))
  {
    match lookup
    case LookupFailed => FactsOutcome([], true)
    case PolicyMissing => FactsOutcome([], true)
    case PolicyFound(p) =>
      match Provider.GenerateChatCompletion(ExtractionMessages(p), ExtractionOptions, chat)
      case Failure(_) => FactsOutcome([], true)
      case Success(reply) =>
        var parsed: Option<ParsedJson> := match JsonSpan(reply)
                      case None => None
                      case Some(span) => parse(span);
        match parsed
        case Some(ParsedJson(Some(raws))) =>
          StoreFrom(seq(|raws|, i requires 0 <= i < |raws| => ToPolicyFact(p, raws[i])), store, 0)
        case _ => FactsOutcome([], false)
  }

  /** With a `facts` array, the stored facts are the array's facts in order,
      each with the policy's ids and a non-zero confidence, up to the first
      failing write, which fails the call. */
  lemma ExtractedFactsAreStoredInOrder(p: PolicyRecord,
                                       chat: Provider.ChatRequest -> Option<Provider.ChatResponse>,
                                       parse: string -> Option<ParsedJson>,
                                       store: (nat, PolicyFact) -> bool, raws: seq<RawFact>)
    requires var reply := Provider.GenerateChatCompletion(ExtractionMessages(p), ExtractionOptions, chat);
             && reply.Success? && JsonSpan(reply.value).Some?
             && parse(JsonSpan(reply.value).value) == Some(ParsedJson(Some(raws)))
    ensures var r := ExtractPolicyFacts(PolicyFound(p), chat, parse, store);
            && |r.stored| <= |raws|
            && (forall i :: 0 <= i < |r.stored| ==>
                  && r.stored[i] == ToPolicyFact(p, raws[i])
                  && r.stored[i].policyId == p.id && r.stored[i].stateId == p.stateId
                  && r.stored[i].confidence != 0.0)
            && (!r.failed <==> |r.stored| == |raws| && forall j :: 0 <= j < |raws| ==> store(j, ToPolicyFact(p, raws[j])))
  {
    var facts := seq(|raws|, i requires 0 <= i < |raws| => ToPolicyFact(p, raws[i]));
    var r := StoreFrom(facts, store, 0);
    assert forall i :: 0 <= i < |r.stored| ==> r.stored[i] == facts[i];
  }

  /** The prompt carries the first 12000 characters of the policy text, and
      every chunk shorter than the whole lies within the full text. */
  lemma ExtractionPromptExcerpt(p: PolicyRecord, k: nat)
    requires k < |p.chunkContents|
    ensures Contains(FullText(p), p.chunkContents[k])
    ensures |Excerpt(FullText(p))| <= ExtractionLimit
    ensures |FullText(p)| <= ExtractionLimit ==> Excerpt(FullText(p)) == FullText(p)
  {
    JoinContainsParts(p.chunkContents, "\n", k);
  }
}

=== FILE: sequences.dfy ===
/** The array operations the routes and the client helpers rely on (`slice`,
    `filter`, a `Set` read back in insertion order, `flatMap`), and the
    order-preservation notion that relates them. */
module Sequences {

  /** `s.slice(0, k)`. */
  function Take<T>(s: seq<T>, k: nat): (r: seq<T>)
    ensures |r| == if k < |s| then k else |s|
    ensures r == s[..|r|]
    ensures multiset(r) <= multiset(s)
  {
    if k < |s| then
      assert s == s[..k] + s[k..];
      s[..k]
    else s
  }

  /** Where `slice(0, end)` stops on a sequence of length `len`, for an
      integer `end`: a negative end counts back from the length, and the
      result is clamped to `0 .. len`. */
  function SliceEnd(len: nat, end: int): (r: nat)
    ensures r <= len
    ensures 0 <= end ==> r == if end < len then end else len
    ensures end < 0 ==> r == if len + end > 0 then len + end else 0
  {
    if end >= 0 then (if end < len then end else len)
    else if len + end > 0 then len + end
    else 0
  }

  /** An element kept fewer times by `slice(0, k)` than the whole holds
      sits past the cut, so the cut fell inside the sequence. */
  lemma TakeMissesOnlyTail<T>(s: seq<T>, k: nat, c: T)
    requires multiset(Take(s, k))[c] < multiset(s)[c]
    ensures k < |s| && exists j :: k <= j < |s| && s[j] == c
  {
    var r := Take(s, k);
    assert s == r + s[|r|..];
    assert c in multiset(s[|r|..]);
    var m :| 0 <= m < |s[|r|..]| && s[|r|..][m] == c;
    assert s[|r| + m] == c;
  }

  /** `s.filter(p)`: the elements satisfying `p`, in their order in `s`. */
  function Filter<T(!new)>(s: seq<T>, p: T -> bool): (r: seq<T>)
    ensures |r| <= |s|
    ensures forall x :: x in r <==> x in s && p(x)
  {
    if |s| == 0 then []
    else
      var rest := Filter(s[1..], p);
      assert forall x :: x in s <==> x == s[0] || x in s[1..];
      (if p(s[0]) then [s[0]] else []) + rest
  }

  /** `a` is `b` with some elements dropped, the others kept in order. */
  predicate IsSubsequence<T(==)>(a: seq<T>, b: seq<T>)
    decreases |b|
  {
    if |a| == 0 then true
    else if |b| == 0 then false
    else if a[0] == b[0] then IsSubsequence(a[1..], b[1..])
    else IsSubsequence(a, b[1..])
  }

  /** Filtering keeps the order of what it keeps. */
  lemma {:induction false} FilterIsSubsequence<T(!new)>(s: seq<T>, p: T -> bool)
    ensures IsSubsequence(Filter(s, p), s)
  {
    if |s| > 0 {
      var rest := Filter(s[1..], p);
      FilterIsSubsequence(s[1..], p);
      if p(s[0]) {
        assert ([s[0]] + rest)[1..] == rest;
      } else {
        assert Filter(s, p) == rest;
        SubsequenceSkip(rest, s);
      }
    }
  }

  /** A subsequence of a tail is a subsequence of the whole. */
  lemma {:induction false} SubsequenceSkip<T>(a: seq<T>, b: seq<T>)
    requires |b| > 0 && IsSubsequence(a, b[1..])
    ensures IsSubsequence(a, b)
    decreases |a| + |b|
  {
    if |a| > 0 && a[0] == b[0] {
      SubsequenceTail(a, b[1..]);
    }
  }

  /** Dropping the head of a subsequence leaves a subsequence. */
  lemma {:induction false} SubsequenceTail<T>(a: seq<T>, b: seq<T>)
    requires |a| > 0 && IsSubsequence(a, b)
    ensures IsSubsequence(a[1..], b)
    decreases |a| + |b|
  {
    if a[0] == b[0] {
      if |a| > 1 {
        SubsequenceSkip(a[1..], b);
      }
    } else {
      SubsequenceTail(a, b[1..]);
      if |a| > 1 {
        SubsequenceSkip(a[1..], b);
      }
    }
  }

  /** Two complementary filters split a sequence: together they hold every
      element exactly as often as the sequence does. */
  lemma {:induction false} FilterPartition<T(!new)>(s: seq<T>, p: T -> bool, q: T -> bool)
    requires forall x :: q(x) == !p(x)
    ensures |Filter(s, p)| + |Filter(s, q)| == |s|
    ensures multiset(Filter(s, p)) + multiset(Filter(s, q)) == multiset(s)
  {
    if |s| > 0 {
      FilterPartition(s[1..], p, q);
      assert s == [s[0]] + s[1..];
    }
  }

  predicate NoDuplicates<T(==)>(s: seq<T>) {
    forall i, j :: 0 <= i < j < |s| ==> s[i] != s[j]
  }

  /** The position of the first occurrence of `x`. */
  function IndexOfFirst<T(==)>(s: seq<T>, x: T): (r: nat)
    requires x in s
    ensures r < |s| && s[r] == x
    ensures forall k :: 0 <= k < r ==> s[k] != x
  {
    if s[0] == x then 0 else 1 + IndexOfFirst(s[1..], x)
  }

  /** An element met in a prefix is first met at the same place in the whole. */
  lemma IndexOfFirstInPrefix<T>(s: seq<T>, n: nat, x: T)
    requires n <= |s| && x in s[..n]
    ensures IndexOfFirst(s, x) == IndexOfFirst(s[..n], x)
  {
    var r := IndexOfFirst(s[..n], x);
    assert s[r] == x by {
      assert s[..n][r] == s[r];
    }
    forall k | 0 <= k < r ensures s[k] != x {
      assert s[..n][k] == s[k];
    }
  }

  /** Insertion into a JavaScript `Set`, read back with `Array.from`: every
      distinct element once, in the order it was first seen. */
  function Distinct<T(==,!new)>(s: seq<T>): (r: seq<T>)
    ensures forall x :: x in r <==> x in s
    ensures NoDuplicates(r)
  {
    if |s| == 0 then []
    else
      var d := Distinct(s[..|s| - 1]);
      var x := s[|s| - 1];
      assert s == s[..|s| - 1] + [x];
      if x in d then d else d + [x]
  }

  /** The distinct elements come in order of first occurrence. */
  lemma {:induction false} DistinctFirstSeenOrder<T(!new)>(s: seq<T>)
    ensures forall i, j :: 0 <= i < j < |Distinct(s)| ==>
              IndexOfFirst(s, Distinct(s)[i]) < IndexOfFirst(s, Distinct(s)[j])
  {
    if |s| > 0 {
      var n := |s| - 1;
      var p := s[..n];
      var d := Distinct(p);
      var r := Distinct(s);
      assert r == if s[n] in d then d else d + [s[n]];
      DistinctFirstSeenOrder(p);
      forall i, j | 0 <= i < j < |r| ensures IndexOfFirst(s, r[i]) < IndexOfFirst(s, r[j]) {
        assert r[i] == d[i];
        IndexOfFirstInPrefix(s, n, d[i]);
        if j < |d| {
          assert r[j] == d[j];
          IndexOfFirstInPrefix(s, n, d[j]);
        } else {
          assert r[j] == s[n] && s[n] !in p;
          IndexOfFirstNew(s);
        }
      }
    }
  }

  /** A last element not met before is first met at the end. */
  lemma IndexOfFirstNew<T>(s: seq<T>)
    requires |s| > 0 && s[|s| - 1] !in s[..|s| - 1]
    ensures IndexOfFirst(s, s[|s| - 1]) == |s| - 1
  {
    forall k | 0 <= k < |s| - 1 ensures s[k] != s[|s| - 1] {
      assert s[..|s| - 1][k] == s[k];
    }
  }

  /** The position of the last element satisfying `p`, or -1. */
  function LastIndex<T>(s: seq<T>, p: T -> bool): (r: int)
    ensures -1 <= r < |s|
    ensures r >= 0 ==> p(s[r])
    ensures forall j :: r < j < |s| ==> !p(s[j])
  {
    if |s| == 0 then -1
    else if p(s[|s| - 1]) then |s| - 1
    else LastIndex(s[..|s| - 1], p)
  }

  /** A filter that every element passes keeps the sequence. */
  lemma {:induction false} FilterKeepsAll<T(!new)>(s: seq<T>, p: T -> bool)
    requires forall i :: 0 <= i < |s| ==> p(s[i])
    ensures Filter(s, p) == s
  {
    if |s| > 0 {
      FilterKeepsAll(s[1..], p);
    }
  }

  /** Filtering an extended sequence filters the extension on its own. */
  lemma {:induction false} FilterAppend<T(!new)>(s: seq<T>, x: T, p: T -> bool)
    ensures Filter(s + [x], p) == Filter(s, p) + (if p(x) then [x] else [])
  {
    if |s| > 0 {
      var head := if p(s[0]) then [s[0]] else [];
      assert (s + [x])[1..] == s[1..] + [x];
      assert Filter(s + [x], p) == head + Filter(s[1..] + [x], p);
      FilterAppend(s[1..], x, p);
      assert Filter(s, p) == head + Filter(s[1..], p);
    } else {
      assert (s + [x])[1..] == [];
    }
  }

  /** Filtering keeps a sequence free of duplicates. */
  lemma {:induction false} FilterNoDuplicates<T(!new)>(s: seq<T>, p: T -> bool)
    requires NoDuplicates(s)
    ensures NoDuplicates(Filter(s, p))
  {
    if |s| > 0 {
      assert NoDuplicates(s[1..]) by {
        forall i, j | 0 <= i < j < |s[1..]| ensures s[1..][i] != s[1..][j] {
          assert s[1..][i] == s[i + 1] && s[1..][j] == s[j + 1];
        }
      }
      FilterNoDuplicates(s[1..], p);
      assert s[0] !in s[1..] by {
        forall i | 0 <= i < |s[1..]| ensures s[1..][i] != s[0] {
          assert s[1..][i] == s[i + 1];
        }
      }
    }
  }

  /** `flatMap`'s flattening step: the blocks one after another. */
  function Flatten<T>(blocks: seq<seq<T>>): seq<T> {
    if |blocks| == 0 then [] else blocks[0] + Flatten(blocks[1..])
  }

  function TotalLength<T>(blocks: seq<seq<T>>): nat {
    if |blocks| == 0 then 0 else |blocks[0]| + TotalLength(blocks[1..])
  }

  /** Element `x` of block `k` sits in the flattened sequence after all the
      elements of the blocks before it. */
  lemma {:induction false} FlattenAt<T>(blocks: seq<seq<T>>, k: nat, x: nat)
    requires k < |blocks| && x < |blocks[k]|
    ensures |Flatten(blocks)| == TotalLength(blocks)
    ensures TotalLength(blocks[..k]) + x < |Flatten(blocks)|
    ensures Flatten(blocks)[TotalLength(blocks[..k]) + x] == blocks[k][x]
  {
    FlattenLength(blocks);
    if k > 0 {
      FlattenAt(blocks[1..], k - 1, x);
      assert blocks[..k][1..] == blocks[1..][..k - 1];
    }
  }

  lemma {:induction false} FlattenLength<T>(blocks: seq<seq<T>>)
    ensures |Flatten(blocks)| == TotalLength(blocks)
  {
    if |blocks| > 0 {
      FlattenLength(blocks[1..]);
    }
  }

  /** Blocks of one width `w`: element `x` of block `k` is at `k * w + x`. */
  lemma {:induction false} FlattenUniform<T>(blocks: seq<seq<T>>, w: nat, k: nat, x: nat)
    requires forall m :: 0 <= m < |blocks| ==> |blocks[m]| == w
    requires k < |blocks| && x < w
    ensures |Flatten(blocks)| == |blocks| * w
    ensures k * w + x < |Flatten(blocks)| && Flatten(blocks)[k * w + x] == blocks[k][x]
  {
    UniformLength(blocks, w);
    UniformLength(blocks[..k], w);
    FlattenAt(blocks, k, x);
  }

  lemma {:induction false} UniformLength<T>(blocks: seq<seq<T>>, w: nat)
    requires forall m :: 0 <= m < |blocks| ==> |blocks[m]| == w
    ensures TotalLength(blocks) == |blocks| * w
    ensures |Flatten(blocks)| == |blocks| * w
  {
    FlattenLength(blocks);
    if |blocks| > 0 {
      UniformLength(blocks[1..], w);
      assert |blocks| * w == w + (|blocks| - 1) * w;
    }
  }
}

=== FILE: sorting.dfy ===
/** Stable sorting by a comparator, as `Array.prototype.sort` does (stable since
    ECMAScript 2019). `geq(x, y)` means "x may come before y"; a comparator
    `(a, b) => key(b) - key(a)` corresponds to `geq(x, y) == key(x) >= key(y)`.

    The sort is defined by insertion; `StableSortUnique` shows that any sorted,
    order-of-equals-preserving arrangement equals it, so the choice of algorithm
    does not matter. */
module Sorting {

  ghost predicate TotalPreorder<T(!new)>(geq: (T, T) -> bool) {
    && (forall x, y :: geq(x, y) || geq(y, x))
    && (forall x, y, z :: geq(x, y) && geq(y, z) ==> geq(x, z))
  }

  predicate Sorted<T>(s: seq<T>, geq: (T, T) -> bool) {
    forall i, j :: 0 <= i < j < |s| ==> geq(s[i], s[j])
  }

  /** Neither element must precede the other: a tie. */
  predicate Tied<T>(x: T, y: T, geq: (T, T) -> bool) {
    geq(x, y) && geq(y, x)
  }

  /** The elements of `s` tied with `x`, in their order in `s`. A sort is stable
      exactly when it keeps every such subsequence unchanged. */
  function TiedWith<T>(s: seq<T>, x: T, geq: (T, T) -> bool): seq<T> {
    if |s| == 0 then []
    else (if Tied(s[0], x, geq) then [s[0]] else []) + TiedWith(s[1..], x, geq)
  }

  /** Places `x` in front of the first element it may precede. */
  function Insert<T>(x: T, s: seq<T>, geq: (T, T) -> bool): seq<T> {
    if |s| == 0 then [x]
    else if geq(x, s[0]) then [x] + s
    else [s[0]] + Insert(x, s[1..], geq)
  }

  function Sort<T>(s: seq<T>, geq: (T, T) -> bool): seq<T> {
    if |s| == 0 then [] else Insert(s[0], Sort(s[1..], geq), geq)
  }

  lemma {:induction false} InsertMultiset<T>(x: T, s: seq<T>, geq: (T, T) -> bool)
    ensures multiset(Insert(x, s, geq)) == multiset(s) + multiset{x}
  {
    if |s| > 0 && !geq(x, s[0]) {
      InsertMultiset(x, s[1..], geq);
      assert s == [s[0]] + s[1..];
      assert multiset(s) == multiset{s[0]} + multiset(s[1..]);
      assert multiset(Insert(x, s, geq)) == multiset{s[0]} + multiset(Insert(x, s[1..], geq));
    }
  }

  lemma {:induction false} InsertMembers<T>(x: T, s: seq<T>, geq: (T, T) -> bool)
    ensures forall e :: e in Insert(x, s, geq) <==> e == x || e in s
  {
    if |s| > 0 && !geq(x, s[0]) {
      InsertMembers(x, s[1..], geq);
      assert s == [s[0]] + s[1..];
    }
  }

  lemma {:induction false} InsertSorted<T(!new)>(x: T, s: seq<T>, geq: (T, T) -> bool)
    requires TotalPreorder(geq) && Sorted(s, geq)
    ensures Sorted(Insert(x, s, geq), geq)
  {
    if |s| == 0 {
    } else if geq(x, s[0]) {
      var r := [x] + s;
      forall i, j | 0 <= i < j < |r| ensures geq(r[i], r[j]) {
        if i > 0 {
          assert r[i] == s[i - 1] && r[j] == s[j - 1];
        } else if j > 1 {
          assert geq(s[0], s[j - 1]);
        }
      }
    } else {
      var rest := Insert(x, s[1..], geq);
      var r := [s[0]] + rest;
      InsertSorted(x, s[1..], geq);
      InsertMembers(x, s[1..], geq);
      assert geq(s[0], x);
      forall i, j | 0 <= i < j < |r| ensures geq(r[i], r[j]) {
        if i > 0 {
          assert r[i] == rest[i - 1] && r[j] == rest[j - 1];
        } else {
          var e := rest[j - 1];
          assert e in rest;
          if e != x {
            var k :| 0 <= k < |s[1..]| && s[1..][k] == e;
            assert geq(s[0], s[k + 1]);
          }
        }
      }
    }
  }

  lemma {:induction false} InsertTies<T(!new)>(x: T, s: seq<T>, geq: (T, T) -> bool, y: T)
    requires TotalPreorder(geq) && Sorted(s, geq)
    ensures TiedWith(Insert(x, s, geq), y, geq)
            == (if Tied(x, y, geq) then [x] else []) + TiedWith(s, y, geq)
  {
    if |s| == 0 {
    } else if geq(x, s[0]) {
      assert ([x] + s)[1..] == s;
    } else {
      var rest := Insert(x, s[1..], geq);
      var r := [s[0]] + rest;
      InsertTies(x, s[1..], geq, y);
      assert r[1..] == rest;
      var tail := TiedWith(s[1..], y, geq);
      assert TiedWith(r, y, geq) == (if Tied(s[0], y, geq) then [s[0]] else []) + TiedWith(rest, y, geq);
      assert TiedWith(s, y, geq) == (if Tied(s[0], y, geq) then [s[0]] else []) + tail;
      // `x` goes after `s[0]`, so the two cannot both be tied with `y`.
      var head := s[0];
      assert !(Tied(x, y, geq) && Tied(head, y, geq)) by {
        assert geq(x, y) && geq(y, head) ==> geq(x, head);
      }
      if Tied(x, y, geq) {
        assert TiedWith(r, y, geq) == [x] + tail;
      } else {
        assert TiedWith(rest, y, geq) == tail;
      }
    }
  }

  /** The sort orders its input, keeps its elements, and keeps tied elements in
      their input order. */
  lemma {:induction false} SortIsStable<T(!new)>(s: seq<T>, geq: (T, T) -> bool)
    requires TotalPreorder(geq)
    ensures Sorted(Sort(s, geq), geq)
    ensures multiset(Sort(s, geq)) == multiset(s)
    ensures forall y :: TiedWith(Sort(s, geq), y, geq) == TiedWith(s, y, geq)
  {
    if |s| > 0 {
      SortIsStable(s[1..], geq);
      InsertSorted(s[0], Sort(s[1..], geq), geq);
      InsertMultiset(s[0], Sort(s[1..], geq), geq);
      assert s == [s[0]] + s[1..];
      forall y ensures TiedWith(Sort(s, geq), y, geq) == TiedWith(s, y, geq) {
        InsertTies(s[0], Sort(s[1..], geq), geq, y);
        assert TiedWith(s, y, geq) == (if Tied(s[0], y, geq) then [s[0]] else []) + TiedWith(s[1..], y, geq);
      }
    }
  }

  lemma {:induction false} TiedWithMembers<T(!new)>(s: seq<T>, x: T, y: T, geq: (T, T) -> bool)
    ensures y in TiedWith(s, x, geq) <==> y in s && Tied(y, x, geq)
  {
    if |s| > 0 {
      TiedWithMembers(s[1..], x, y, geq);
      assert s == [s[0]] + s[1..];
    }
  }

  /** Any two sorted sequences that agree on the order of every tie class are
      equal: a stable sort has exactly one possible result. */
  lemma {:induction false} StableSortUnique<T(!new)>(a: seq<T>, b: seq<T>, geq: (T, T) -> bool)
    requires TotalPreorder(geq) && Sorted(a, geq) && Sorted(b, geq)
    requires forall y :: TiedWith(a, y, geq) == TiedWith(b, y, geq)
    ensures a == b
  {
    if |a| == 0 || |b| == 0 {
      if |a| > 0 {
        TiedWithMembers(a, a[0], a[0], geq);
        TiedWithMembers(b, a[0], a[0], geq);
      } else if |b| > 0 {
        TiedWithMembers(a, b[0], b[0], geq);
        TiedWithMembers(b, b[0], b[0], geq);
      }
    } else {
      var x, y := a[0], b[0];
      TiedWithMembers(b, y, y, geq);
      TiedWithMembers(a, y, y, geq);
      var k :| 0 <= k < |a| && a[k] == y;
      if k > 0 { assert geq(a[0], a[k]); }
      TiedWithMembers(a, x, x, geq);
      TiedWithMembers(b, x, x, geq);
      var m :| 0 <= m < |b| && b[m] == x;
      if m > 0 { assert geq(b[0], b[m]); }
      assert Tied(x, y, geq);
      assert TiedWith(a, x, geq)[0] == x;
      assert TiedWith(b, x, geq)[0] == y;
      assert x == y;
      forall z ensures TiedWith(a[1..], z, geq) == TiedWith(b[1..], z, geq) {
        assert TiedWith(a, z, geq) == TiedWith(b, z, geq);
        assert TiedWith(a, z, geq) == (if Tied(x, z, geq) then [x] else []) + TiedWith(a[1..], z, geq);
        assert TiedWith(b, z, geq) == (if Tied(y, z, geq) then [y] else []) + TiedWith(b[1..], z, geq);
        if Tied(x, z, geq) {
          assert TiedWith(a[1..], z, geq) == TiedWith(a, z, geq)[1..];
          assert TiedWith(b[1..], z, geq) == TiedWith(b, z, geq)[1..];
        } else {
          assert TiedWith(a[1..], z, geq) == TiedWith(a, z, geq);
          assert TiedWith(b[1..], z, geq) == TiedWith(b, z, geq);
        }
      }
      StableSortUnique(a[1..], b[1..], geq);
      assert a == [x] + a[1..] && b == [y] + b[1..];
    }
  }
}

=== FILE: states_route.dfy ===
/** The per-state coverage summary served by `GET /api/states`
    (app/api/states/route.ts). The store query is an oracle: the model receives
    each state's policies and facts and evaluates the query's `where` on them. */
module StatesRoute {
  import opened Wrappers
  import opened Text
  import opened Numeric
  import opened Sequences

  /** The fixed taxonomy coverage is measured against. */
  const ExpectedCategories: seq<string> :=
    ["modality", "consent", "in_person", "provider_eligibility",
     "site_eligibility", "billing", "documentation", "prescribing"]

  /** The selected columns of a stored fact; both may be null. */
  datatype FactRow = FactRow(category: Option<string>, confidence: Option<real>)

  datatype PolicySummary = PolicySummary(id: string, title: string, uploadedAt: int,
                                         processedAt: Option<int>)

  datatype StoredPolicy = StoredPolicy(summary: PolicySummary, status: string)

  /** A state row with its related policies and facts, in store order. */
  datatype StateRecord = StateRecord(id: string, name: string, abbreviation: string,
                                     policies: seq<StoredPolicy>, facts: seq<FactRow>)

  /** The four levels; `Absent` is the one the API names "None". */
  datatype CoverageLevel = High | Medium | Low | Absent

  /** The name the response carries for a level. */
  function LevelName(level: CoverageLevel): (r: string)
    ensures r in ["High", "Medium", "Low", "None"]
    ensures level == Absent <==> r == "None"
  {
    match level
    case High => "High"
    case Medium => "Medium"
    case Low => "Low"
    case Absent => "None"
  }

  /** Distinct levels carry distinct names, so a client can read the level
      back from its name. */
  lemma LevelNameInjective(a: CoverageLevel, b: CoverageLevel)
    ensures LevelName(a) == LevelName(b) <==> a == b
  {
  }

  datatype StateSummary = StateSummary(
    id: string, name: string, abbreviation: string,
    policiesCount: nat, factsCount: nat, latestPolicy: Option<PolicySummary>,
    coverageScore: int, coverageLevel: CoverageLevel, avgConfidence: real,
    categoriesCovered: seq<string>, missingCategories: seq<string>)

  datatype StatesError = FetchFailed  // 500 "Failed to fetch states"

  // ------------------------------------------------------------------ categories

  /** A fact names a category when the column holds a non-empty string. */
  predicate NamesCategory(f: FactRow) {
    f.category.Some? && f.category.value != ""
  }

  /** The lower-cased categories the facts name. */
  function SeenCategories(facts: seq<FactRow>): set<string> {
    set i | 0 <= i < |facts| && NamesCategory(facts[i]) :: ToLower(facts[i].category.value)
  }

  function Covered(facts: seq<FactRow>): seq<string> {
    var seen := SeenCategories(facts);
    Filter(ExpectedCategories, c => c in seen)
  }

  function Missing(facts: seq<FactRow>): seq<string> {
    var seen := SeenCategories(facts);
    Filter(ExpectedCategories, c => c !in seen)
  }

  /** A taxonomy category is covered exactly when some fact names it, in any
      letter case; a category outside the taxonomy never counts. */
  lemma CoveredIffNamed(facts: seq<FactRow>, c: string)
    ensures c in Covered(facts) <==>
              c in ExpectedCategories
              && exists i :: 0 <= i < |facts| && NamesCategory(facts[i])
                             && ToLower(facts[i].category.value) == c
    ensures c in Missing(facts) <==> c in ExpectedCategories && c !in Covered(facts)
  {
  }

  /** Covered and missing categories split the taxonomy: each keeps taxonomy
      order, they share nothing, and between them every category appears once. */
  lemma CoveragePartitionsTaxonomy(facts: seq<FactRow>)
    ensures IsSubsequence(Covered(facts), ExpectedCategories)
    ensures IsSubsequence(Missing(facts), ExpectedCategories)
    ensures forall c :: !(c in Covered(facts) && c in Missing(facts))
    ensures multiset(Covered(facts)) + multiset(Missing(facts)) == multiset(ExpectedCategories)
    ensures |Covered(facts)| + |Missing(facts)| == 8
  {
    var seen := SeenCategories(facts);
    FilterIsSubsequence(ExpectedCategories, c => c in seen);
    FilterIsSubsequence(ExpectedCategories, c => c !in seen);
    FilterPartition(ExpectedCategories, c => c in seen, c => c !in seen);
  }

  // ---------------------------------------------------------------------- score

  /** `Math.round(coverageRatio * 100)` for `covered` of the taxonomy's
      categories. */
  function CoverageScore(covered: nat): int {
    var ratio := if |ExpectedCategories| > 0 then (covered as real) / (|ExpectedCategories| as real) else 0.0;
    Round(ratio * 100.0)
  }

  /** The score lies in [0, 100]; it is 100 exactly when all eight categories
      are covered and 0 exactly when none is. */
  lemma CoverageScoreRange(covered: nat)
    requires covered <= 8
    ensures 0 <= CoverageScore(covered) <= 100
    ensures CoverageScore(covered) == 100 <==> covered == 8
    ensures CoverageScore(covered) == 0 <==> covered == 0
  {
  }

  /** The scores the taxonomy allows, one per covered count. */
  lemma CoverageScoreSteps()
    ensures CoverageScore(3) == 38 && CoverageScore(4) == 50
    ensures CoverageScore(5) == 63 && CoverageScore(6) == 75
  {
  }

  // ----------------------------------------------------------------- confidence

  /** The loop's `confidenceSum`: a missing confidence adds 0. */
  function ConfidenceSum(facts: seq<FactRow>): real {
    if |facts| == 0 then 0.0 else facts[0].confidence.GetOr(0.0) + ConfidenceSum(facts[1..])
  }

  /** `parseFloat(x.toFixed(2))`: the nearest hundredth, a tie rounding away
      from zero (decimal arithmetic; binary floating point is not modelled). */
  function ToFixed2(x: real): (r: real)
    ensures -0.005 <= r - x <= 0.005
  {
    if x < 0.0 then -((Round(-x * 100.0) as real) / 100.0) else (Round(x * 100.0) as real) / 100.0
  }

  /** The mean confidence to two decimals, or 0 for a state without facts. */
  function AvgConfidence(facts: seq<FactRow>): (r: real)
    ensures |facts| == 0 ==> r == 0.0
    ensures |facts| > 0 ==> -0.005 <= r - ConfidenceSum(facts) / (|facts| as real) <= 0.005
  {
    if |facts| > 0 then ToFixed2(ConfidenceSum(facts) / (|facts| as real)) else 0.0
  }

  predicate ConfidencesInUnit(facts: seq<FactRow>) {
    forall i :: 0 <= i < |facts| && facts[i].confidence.Some? ==>
                  0.0 <= facts[i].confidence.value <= 1.0
  }

  lemma {:induction false} ConfidenceSumBounds(facts: seq<FactRow>)
    requires ConfidencesInUnit(facts)
    ensures 0.0 <= ConfidenceSum(facts) <= |facts| as real
  {
    if |facts| > 0 {
      assert ConfidencesInUnit(facts[1..]) by {
        forall i | 0 <= i < |facts[1..]| && facts[1..][i].confidence.Some?
          ensures 0.0 <= facts[1..][i].confidence.value <= 1.0
        {
          assert facts[1..][i] == facts[i + 1];
        }
      }
      ConfidenceSumBounds(facts[1..]);
    }
  }

  /** Confidences in [0, 1] average, after rounding, to a value in [0, 1]. */
  lemma AvgConfidenceInUnit(facts: seq<FactRow>)
    requires ConfidencesInUnit(facts)
    ensures 0.0 <= AvgConfidence(facts) <= 1.0
  {
    if |facts| > 0 {
      var n := |facts| as real;
      ConfidenceSumBounds(facts);
      Fraction(ConfidenceSum(facts), n, n);
      var m := ConfidenceSum(facts) / n;
      assert 0.0 <= m * 100.0 <= 100.0;
      assert 0 <= Round(m * 100.0) <= 100;
    }
  }

  // ---------------------------------------------------------------------- level

  /** The coverage level, the first rule that applies winning. */
  function Level(score: int, avgConfidence: real): CoverageLevel {
    if score >= 75 && avgConfidence >= 0.7 then High
    else if score >= 40 && avgConfidence >= 0.5 then Medium
    else if score > 0 then Low
    else Absent
  }

  /** A state is at level "None" exactly when its score is 0, whatever its
      confidence. */
  lemma AbsentIffZeroScore(score: int, avgConfidence: real)
    requires score >= 0
    ensures Level(score, avgConfidence) == Absent <==> score == 0
  {
  }

  /** What each level demands of the taxonomy: High needs six covered
      categories and an average confidence of 0.7, Medium four and 0.5, Low
      one. */
  lemma LevelNeedsCategories(covered: nat, avgConfidence: real)
    requires covered <= 8
    ensures var level := Level(CoverageScore(covered), avgConfidence);
            && (level == High <==> covered >= 6 && avgConfidence >= 0.7)
            && (level == Medium <==> covered >= 4 && avgConfidence >= 0.5 && !(covered >= 6 && avgConfidence >= 0.7))
            && (level == Low <==> covered >= 1 && !(covered >= 4 && avgConfidence >= 0.5))
  {
    CoverageScoreSteps();
    if covered < 3 {
      assert CoverageScore(covered) < 40;
    } else if covered > 6 {
      assert CoverageScore(covered) > 75;
    }
  }

  // -------------------------------------------------------------------- summary

  predicate IsCompleted(p: StoredPolicy) {
    p.status == "completed"
  }

  /** One entry of the response for one state. */
  function Summarize(s: StateRecord): (r: StateSummary)
    ensures r.id == s.id && r.name == s.name && r.abbreviation == s.abbreviation
    ensures r.factsCount == |s.facts|
    ensures r.policiesCount <= |s.policies|
    ensures r.latestPolicy.None? <==> r.policiesCount == 0
    ensures r.categoriesCovered == Covered(s.facts) && r.missingCategories == Missing(s.facts)
    ensures r.coverageScore == CoverageScore(|Covered(s.facts)|)
    ensures r.avgConfidence == AvgConfidence(s.facts)
    ensures r.coverageLevel == Level(r.coverageScore, r.avgConfidence)
  {
    var completed := Filter(s.policies, IsCompleted);
    var covered := Covered(s.facts);
    var score := CoverageScore(|covered|);
    var avg := AvgConfidence(s.facts);
    StateSummary(
      s.id, s.name, s.abbreviation,
      |completed|, |s.facts|,
      if |completed| > 0 then Some(completed[0].summary) else None,
      score, Level(score, avg), avg,
      covered, Missing(s.facts))
  }

  /** Only completed policies count, and the latest policy shown is the first
      completed one in store order. */
  lemma PoliciesCountCompletedOnly(s: StateRecord)
    ensures Summarize(s).policiesCount == |Filter(s.policies, IsCompleted)|
    ensures Summarize(s).latestPolicy.Some? ==>
              exists i :: 0 <= i < |s.policies| && IsCompleted(s.policies[i])
                          && s.policies[i].summary == Summarize(s).latestPolicy.value
                          && forall j :: 0 <= j < i ==> !IsCompleted(s.policies[j])
  {
    var completed := Filter(s.policies, IsCompleted);
    if |completed| > 0 {
      FirstKept(s.policies, IsCompleted);
    }
  }

  /** The first element a filter keeps is the first element satisfying it. */
  lemma {:induction false} FirstKept<T(!new)>(s: seq<T>, p: T -> bool)
    requires |Filter(s, p)| > 0
    ensures exists i :: 0 <= i < |s| && p(s[i]) && s[i] == Filter(s, p)[0]
                        && forall j :: 0 <= j < i ==> !p(s[j])
  {
    if !p(s[0]) {
      FirstKept(s[1..], p);
      var i :| 0 <= i < |s[1..]| && p(s[1..][i]) && s[1..][i] == Filter(s[1..], p)[0]
                && forall j :: 0 <= j < i ==> !p(s[1..][j]);
      assert s[i + 1] == s[1..][i];
      assert forall j :: 1 <= j < i + 1 ==> s[j] == s[1..][j - 1];
    }
  }

  /** `GET /api/states`: one summary per state, in the store's order (by name),
      or a 500 when the query throws. */
  function GetStates(fetched: Option<seq<StateRecord>>): (r: Result<seq<StateSummary>, StatesError>)
    ensures r.Failure? <==> fetched.None?
    ensures r.Success? ==> |r.value| == |fetched.value|
    ensures r.Success? ==> forall i :: 0 <= i < |r.value| ==> r.value[i] == Summarize(fetched.value[i])
  {
    match fetched
    case None => Failure(FetchFailed)
    case Some(states) => Success(seq(|states|, i requires 0 <= i < |states| => Summarize(states[i])))
  }
}

=== FILE: text.dfy ===
/** JavaScript string primitives the model relies on. A Dafny `char` stands for
    one UTF-16 code unit of a JavaScript string; case mapping covers ASCII only. */
module Text {

  /** JavaScript white space: the WhiteSpace and LineTerminator code points.
      `String.prototype.trim` strips these, and the regular-expression class `\s`
      matches exactly these. */
  predicate IsWhitespace(c: char) {
    || c == '\t' || c == '\n' || c == '\U{000B}' || c == '\U{000C}' || c == '\r'
    || c == ' ' || c == '\U{00A0}' || c == '\U{1680}'
    || ('\U{2000}' <= c <= '\U{200A}')
    || c == '\U{2028}' || c == '\U{2029}' || c == '\U{202F}' || c == '\U{205F}'
    || c == '\U{3000}' || c == '\U{FEFF}'
  }

  /** The code points a regular-expression `.` refuses to match. */
  predicate IsLineTerminator(c: char) {
    c == '\n' || c == '\r' || c == '\U{2028}' || c == '\U{2029}'
  }

  lemma LineTerminatorIsWhitespace(c: char)
    ensures IsLineTerminator(c) ==> IsWhitespace(c)
  {
  }

  predicate IsAsciiUpper(c: char) { 'A' <= c <= 'Z' }
  predicate IsAsciiLower(c: char) { 'a' <= c <= 'z' }
  predicate IsAsciiDigit(c: char) { '0' <= c <= '9' }

  /** The regular-expression class `\w`: `[A-Za-z0-9_]`. */
  predicate IsWordChar(c: char) {
    IsAsciiUpper(c) || IsAsciiLower(c) || IsAsciiDigit(c) || c == '_'
  }

  function ToLowerChar(c: char): (r: char)
    ensures IsAsciiUpper(c) ==> IsAsciiLower(r)
    ensures !IsAsciiUpper(c) ==> r == c
  {
    if IsAsciiUpper(c) then (c as int + 32) as char else c
  }

  function ToUpperChar(c: char): (r: char)
    ensures IsAsciiLower(c) ==> IsAsciiUpper(r)
    ensures !IsAsciiLower(c) ==> r == c
  {
    if IsAsciiLower(c) then (c as int - 32) as char else c
  }

  /** `toLowerCase()`, restricted to ASCII letters. */
  function ToLower(s: string): (r: string)
    ensures |r| == |s|
    ensures forall i :: 0 <= i < |s| ==> r[i] == ToLowerChar(s[i])
  {
    seq(|s|, i requires 0 <= i < |s| => ToLowerChar(s[i]))
  }

  /** `toUpperCase()`, restricted to ASCII letters. */
  function ToUpper(s: string): (r: string)
    ensures |r| == |s|
    ensures forall i :: 0 <= i < |s| ==> r[i] == ToUpperChar(s[i])
  {
    seq(|s|, i requires 0 <= i < |s| => ToUpperChar(s[i]))
  }

  predicate AllWhitespace(s: string) {
    forall i :: 0 <= i < |s| ==> IsWhitespace(s[i])
  }

  /** Length of the white-space run starting at `q`. */
  function WsRun(s: string, q: nat): (r: nat)
    requires q <= |s|
    ensures q + r <= |s|
    ensures forall i :: q <= i < q + r ==> IsWhitespace(s[i])
    ensures q + r == |s| || !IsWhitespace(s[q + r])
    decreases |s| - q
  {
    if q < |s| && IsWhitespace(s[q]) then 1 + WsRun(s, q + 1) else 0
  }

  /** Start of the white-space run that ends at `e`. */
  function WsRunBefore(s: string, e: nat): (r: nat)
    requires e <= |s|
    ensures r <= e
    ensures forall i :: r <= i < e ==> IsWhitespace(s[i])
    ensures r == 0 || !IsWhitespace(s[r - 1])
    decreases e
  {
    if e > 0 && IsWhitespace(s[e - 1]) then WsRunBefore(s, e - 1) else e
  }

  /** `hay` holds `needle` starting at offset `i`. */
  predicate OccursAt(hay: string, needle: string, i: int) {
    0 <= i && i + |needle| <= |hay| && hay[i..i + |needle|] == needle
  }

  /** `needle` occurs in `hay` (JavaScript `hay.includes(needle)`). */
  predicate Contains(hay: string, needle: string) {
    exists i | 0 <= i <= |hay| :: OccursAt(hay, needle, i)
  }

  lemma ContainsAt(hay: string, needle: string, i: int)
    requires OccursAt(hay, needle, i)
    ensures Contains(hay, needle)
  {
  }

  /** A string contains its own ending. */
  lemma ContainsSuffix(head: string, tail: string)
    ensures Contains(head + tail, tail)
  {
    assert (head + tail)[|head|..|head| + |tail|] == tail;
    assert OccursAt(head + tail, tail, |head|);
  }

  /** `String.prototype.trim`: the text between the leading and the trailing
      white-space runs. */
  function Trim(s: string): (r: string)
    ensures |r| <= |s|
  {
    var a := WsRun(s, 0);
    var b := WsRunBefore(s, |s|);
    if a < b then s[a..b] else []
  }

  /** The trimmed string is the piece of the original after its leading white
      space, with no white space at either end; it is empty exactly for an
      all-white-space string. */
  lemma TrimIsInfix(s: string)
    ensures OccursAt(s, Trim(s), WsRun(s, 0))
    ensures Contains(s, Trim(s))
    ensures |Trim(s)| > 0 ==> !IsWhitespace(Trim(s)[0]) && !IsWhitespace(Trim(s)[|Trim(s)| - 1])
    ensures Trim(s) == [] <==> AllWhitespace(s)
  {
    var a := WsRun(s, 0);
    var b := WsRunBefore(s, |s|);
    ContainsAt(s, Trim(s), a);
    if a >= b {
      assert AllWhitespace(s) by {
        forall i | 0 <= i < |s| ensures IsWhitespace(s[i]) {
          if i >= b {
          }
        }
      }
    } else {
      assert s[a] == Trim(s)[0];
    }
  }

  /** Containment is transitive: a string holding `outer` holds every part of it. */
  lemma {:induction false} ContainsTransitive(hay: string, outer: string, inner: string)
    requires Contains(hay, outer) && Contains(outer, inner)
    ensures Contains(hay, inner)
  {
    var i :| 0 <= i <= |hay| && OccursAt(hay, outer, i);
    var j :| 0 <= j <= |outer| && OccursAt(outer, inner, j);
    assert i + |outer| <= |hay| && hay[i..i + |outer|] == outer;
    assert j + |inner| <= |outer| && outer[j..j + |inner|] == inner;
    assert hay[i + j..i + j + |inner|] == inner by {
      forall k | 0 <= k < |inner| ensures hay[i + j + k] == inner[k] {
        assert outer[j + k] == inner[k];
        assert hay[i..i + |outer|][j + k] == hay[i + j + k];
      }
    }
    ContainsAt(hay, inner, i + j);
  }

  /** `s.indexOf(c, from)`, with `|s|` for "not found". */
  function IndexOf(s: string, c: char, from: nat): (r: nat)
    requires from <= |s|
    ensures from <= r <= |s|
    ensures r < |s| ==> s[r] == c
    ensures forall i :: from <= i < r ==> s[i] != c
    decreases |s| - from
  {
    if from == |s| || s[from] == c then from else IndexOf(s, c, from + 1)
  }

  /** The last index of `c` below `end`, or -1. */
  function LastIndexOf(s: string, c: char, end: nat): (r: int)
    requires end <= |s|
    ensures -1 <= r < end
    ensures r >= 0 ==> s[r] == c
    ensures forall i :: r < i < end ==> s[i] != c
    decreases end
  {
    if end == 0 then -1 else if s[end - 1] == c then end - 1 else LastIndexOf(s, c, end - 1)
  }

  /** `Array.prototype.join`. */
  function Join(parts: seq<string>, sep: string): string {
    if |parts| == 0 then ""
    else if |parts| == 1 then parts[0]
    else parts[0] + sep + Join(parts[1..], sep)
  }

  /** Every part is a substring of the joined string. */
  lemma {:induction false} JoinContainsParts(parts: seq<string>, sep: string, i: int)
    requires 0 <= i < |parts|
    ensures Contains(Join(parts, sep), parts[i])
  {
    var j := Join(parts, sep);
    if |parts| == 1 {
      ContainsAt(j, parts[0], 0);
    } else if i == 0 {
      assert j[0..|parts[0]|] == parts[0];
      ContainsAt(j, parts[0], 0);
    } else {
      JoinContainsParts(parts[1..], sep, i - 1);
      var rest := Join(parts[1..], sep);
      var pre := parts[0] + sep;
      assert j == pre + rest;
      assert Contains(j, rest) by {
        assert j[|pre|..|pre| + |rest|] == rest;
        ContainsAt(j, rest, |pre|);
      }
      ContainsTransitive(j, rest, parts[i]);
    }
  }

  /** Length of a join: the parts plus one separator between each neighbour. */
  lemma {:induction false} JoinLength(parts: seq<string>, sep: string)
    requires |parts| > 0
    ensures |Join(parts, sep)| == SumLengths(parts) + (|parts| - 1) * |sep|
  {
    if |parts| > 1 {
      JoinLength(parts[1..], sep);
    }
  }

  function SumLengths(parts: seq<string>): nat {
    if |parts| == 0 then 0 else |parts[0]| + SumLengths(parts[1..])
  }

  function DigitChar(d: int): char
    requires 0 <= d < 10
  {
    ['0', '1', '2', '3', '4', '5', '6', '7', '8', '9'][d]
  }

  /** Decimal rendering of a natural number, as JavaScript prints an integer. */
  function NatToString(n: nat): (r: string)
    ensures |r| > 0
    ensures forall i :: 0 <= i < |r| ==> IsAsciiDigit(r[i])
    decreases n
  {
    if n < 10 then [DigitChar(n)] else NatToString(n / 10) + [DigitChar(n % 10)]
  }

  /** Decimal rendering of an integer, with a leading `-` when negative. */
  function IntToString(n: int): (r: string)
    ensures |r| > 0
  {
    if n < 0 then "-" + NatToString(-n) else NatToString(n)
  }
}

=== FILE: uploads_route.dfy ===
/** The manual upload handler `POST /api/uploads` (app/api/uploads/route.ts):
    the two feature gates, the PDF check, the stored file name, the state the
    policy is filed under, and the job handed to the ingestion queue. Process
    environment, file system, UUID generator and store are oracle inputs. */
module UploadsRoute {
  import opened Wrappers
  import opened Text
  import PdfProcessor
  import IngestRunner

  /** The uploaded form field. */
  datatype UploadFile = UploadFile(name: string, mimeType: Option<string>, size: nat,
                                   bytes: PdfProcessor.Bytes)

  datatype StateRow = StateRow(id: string, name: string)

  /** The environment of one request. `form` is `None` when reading the form
      throws and `Some(None)` when it has no file; `states` is `None` when the
      state lookup throws; a creation that throws has no id. */
  datatype UploadEnv = UploadEnv(
    allowUpload: Option<string>, allowIngest: Option<string>,
    form: Option<Option<UploadFile>>,
    uploadsDir: string, mkdirOk: bool, uuid: string, writeOk: bool,
    states: Option<seq<StateRow>>, newStateId: Option<string>, newPolicyId: Option<string>)

  datatype NewState = NewState(name: string, abbreviation: PdfProcessor.Abbreviation)

  datatype NewPolicy = NewPolicy(stateId: string, title: string, fileName: string, fileSize: nat,
                                 status: IngestRunner.PolicyStatus)

  datatype Uploaded = Uploaded(fileName: string, policyId: string, stateName: string)

  datatype UploadError =
    | UploadsDisabled  // 403 "Uploads are disabled"
    | IngestDisabled   // 403 "Ingestion is disabled"
    | NoFile           // 400 "No file provided"
    | NotPdf           // 400 "Only PDF uploads are supported"
    | UploadFailed     // 500 "Failed to upload file"

  /** The response together with every effect the handler had. */
  datatype UploadResult = UploadResult(
    response: Result<Uploaded, UploadError>,
    storedFile: Option<(string, PdfProcessor.Bytes)>,
    createdState: Option<NewState>,
    createdPolicy: Option<NewPolicy>,
    enqueued: Option<IngestRunner.Job>)

  const UnknownState := "Unknown"

  // ------------------------------------------------------------------ file name

  /** The characters the sanitiser keeps: `\w`, `.`, space and `-`. */
  predicate SafeChar(c: char) {
    IsWordChar(c) || c == '.' || c == ' ' || c == '-'
  }

  /** `name.replace(/[^\w. -]/g, "_")`, one UTF-16 code unit at a time. */
  function Sanitize(name: string): (r: string)
    ensures |r| == |name|
    ensures forall i :: 0 <= i < |r| ==> r[i] == if SafeChar(name[i]) then name[i] else '_'
  {
    seq(|name|, i requires 0 <= i < |name| => if SafeChar(name[i]) then name[i] else '_')
  }

  /** Every character of a sanitised name is safe, and sanitising keeps a name
      exactly when it is already safe; so sanitising twice changes nothing. */
  lemma SanitizeIsSafeAndIdempotent(name: string)
    ensures forall i :: 0 <= i < |Sanitize(name)| ==> SafeChar(Sanitize(name)[i])
    ensures Sanitize(name) == name <==> forall i :: 0 <= i < |name| ==> SafeChar(name[i])
    ensures Sanitize(Sanitize(name)) == Sanitize(name)
  {
    if Sanitize(name) == name {
      forall i | 0 <= i < |name| ensures SafeChar(name[i]) {
        assert Sanitize(name)[i] == name[i];
      }
    }
  }

  /** `<uuid>-<safeName>`. */
  function StoredFileName(uuid: string, originalName: string): (r: string)
    ensures |r| == |uuid| + 1 + |originalName|
    ensures r[..|uuid|] == uuid && r[|uuid|] == '-'
    ensures r[|uuid| + 1..] == Sanitize(originalName)
  {
    uuid + "-" + Sanitize(originalName)
  }

  /** Whatever the client names the file, the stored name cannot leave the
      uploads directory: it holds no path separator and is neither `.` nor
      `..`. */
  lemma StoredNameStaysInDirectory(uuid: string, originalName: string)
    requires forall i :: 0 <= i < |uuid| ==> uuid[i] != '/' && uuid[i] != '\\'
    ensures var f := StoredFileName(uuid, originalName);
            && (forall i :: 0 <= i < |f| ==> f[i] != '/' && f[i] != '\\')
            && f != "." && f != ".."
  {
    var f := StoredFileName(uuid, originalName);
    forall i | 0 <= i < |f| ensures f[i] != '/' && f[i] != '\\' {
      if i > |uuid| {
        assert f[i] == Sanitize(originalName)[i - |uuid| - 1];
      }
    }
    assert f[|uuid|] == '-';
  }

  // ----------------------------------------------------------------- state name

  /** The state a file is filed under: the name's `CCHP … Telehealth` capture,
      trimmed, or `"Unknown"` when that leaves nothing. */
  function StateNameFor(fileName: string): (r: string)
    ensures |r| > 0
  {
    var raw := Trim(PdfProcessor.ExtractStateName(fileName));
    if raw != "" then raw else UnknownState
  }

  /** The state name is the trimmed capture when that is not blank, and
      `"Unknown"` otherwise (including file names without a match); it never
      has white space at either end. */
  lemma StateNameFallback(fileName: string)
    ensures var raw := PdfProcessor.ExtractStateName(fileName);
            && (AllWhitespace(raw) ==> StateNameFor(fileName) == UnknownState)
            && (!AllWhitespace(raw) ==> StateNameFor(fileName) == Trim(raw))
    ensures PdfProcessor.NoMatchFrom(fileName, 0) ==> StateNameFor(fileName) == UnknownState
    ensures !IsWhitespace(StateNameFor(fileName)[0])
    ensures !IsWhitespace(StateNameFor(fileName)[|StateNameFor(fileName)| - 1])
  {
    var raw := PdfProcessor.ExtractStateName(fileName);
    TrimIsInfix(raw);
    if PdfProcessor.NoMatchFrom(fileName, 0) {
      assert raw == "Unknown";
      assert !IsWhitespace(raw[0]);
    }
  }

  /** The store's case-insensitive `findFirst`: the first state whose name
      equals `name` up to letter case. */
  function FindState(states: seq<StateRow>, name: string): (r: Option<StateRow>)
    ensures r.None? <==> forall i :: 0 <= i < |states| ==> ToLower(states[i].name) != ToLower(name)
    ensures r.Some? ==> exists i :: 0 <= i < |states| && states[i] == r.value
                                    && ToLower(states[i].name) == ToLower(name)
                                    && forall j :: 0 <= j < i ==> ToLower(states[j].name) != ToLower(name)
  {
    if |states| == 0 then None
    else if ToLower(states[0].name) == ToLower(name) then Some(states[0])
    else
      var r := FindState(states[1..], name);
      assert forall i :: 1 <= i < |states| ==> states[i] == states[1..][i - 1];
      r
  }

  /** Find the state case-insensitively, or create it with the abbreviation
      of its name. The second component is the creation attempted; the state
      is `None` when creation throws, which it does when `newStateId` says so
      and whenever the abbreviation is an inherited member rather than the
      string the `abbreviation` column requires. */
  function ResolveState(states: seq<StateRow>, name: string, newStateId: Option<string>)
    : (Option<StateRow>, Option<NewState>)
  {
    match FindState(states, name)
    case Some(st) => (Some(st), None)
    case None =>
      var abbreviation := PdfProcessor.GetStateAbbreviation(name);
      var created := Some(NewState(name, abbreviation));
      if abbreviation.InheritedMember? then (None, created)
      else match newStateId
        case Some(id) => (Some(StateRow(id, name)), created)
        case None => (None, created)
  }

  // -------------------------------------------------------------------- handler

  predicate IsPdfType(mimeType: Option<string>) {
    mimeType.Some? && Contains(ToLower(mimeType.value), "pdf")
  }

  function Rejected(e: UploadError): UploadResult {
    UploadResult(Failure(e), None, None, None, None)
  }

  /** Both feature gates are open. */
  predicate Gated(env: UploadEnv) {
    env.allowUpload == Some("true") && env.allowIngest == Some("true")
  }

  /** The request gets as far as writing the file: the gates are open, the
      form has a PDF file, and the directory and the file are written. */
  predicate Stores(env: UploadEnv) {
    && Gated(env) && env.form.Some? && env.form.value.Some?
    && IsPdfType(env.form.value.value.mimeType) && env.mkdirOk && env.writeOk
  }

  /** `POST /api/uploads`. */
  function Upload(env: UploadEnv): (r: UploadResult)
    ensures env.allowUpload != Some("true") <==> r == Rejected(UploadsDisabled)
    ensures env.allowUpload == Some("true") && env.allowIngest != Some("true") <==> r == Rejected(IngestDisabled)
    ensures r == Rejected(NoFile) <==> Gated(env) && env.form == Some(None)
    ensures r == Rejected(NotPdf) <==>
              Gated(env) && env.form.Some? && env.form.value.Some? && !IsPdfType(env.form.value.value.mimeType)
    ensures r.response == Failure(NoFile) ==> r == Rejected(NoFile)
    ensures r.response == Failure(NotPdf) ==> r == Rejected(NotPdf)
    ensures Gated(env) && env.form.None? ==> r == Rejected(UploadFailed)
    ensures r.storedFile.Some? <==> Stores(env)
    ensures r.storedFile.Some? ==>
              r.storedFile.value.0 == env.uploadsDir + "/" + StoredFileName(env.uuid, env.form.value.value.name)
              && r.storedFile.value.1 == env.form.value.value.bytes
    ensures r.response.Success? <==> r.enqueued.Some?
    ensures r.response.Success? <==>
              && Stores(env) && env.states.Some?
              && ResolveState(env.states.value, StateNameFor(env.form.value.value.name), env.newStateId).0.Some?
              && env.newPolicyId.Some?
    ensures r.response.Failure? ==> r.response.error in {UploadsDisabled, IngestDisabled, NoFile, NotPdf, UploadFailed}
    ensures Stores(env) && env.states.Some?
            && ResolveState(env.states.value, StateNameFor(env.form.value.value.name), env.newStateId).0.Some?
            ==> r.createdState == ResolveState(env.states.value, StateNameFor(env.form.value.value.name), env.newStateId).1
    ensures !(Stores(env) && env.states.Some?
              && ResolveState(env.states.value, StateNameFor(env.form.value.value.name), env.newStateId).0.Some?)
            ==> r.createdState.None?
    ensures r.createdPolicy.Some? <==> r.response.Success?
  {
    if env.allowUpload != Some("true") then Rejected(UploadsDisabled)
    else if env.allowIngest != Some("true") then Rejected(IngestDisabled)
    else match env.form
      case None => Rejected(UploadFailed)
      case Some(None) => Rejected(NoFile)
      case Some(Some(file)) =>
        if !IsPdfType(file.mimeType) then Rejected(NotPdf)
        else if !env.mkdirOk then Rejected(UploadFailed)
        else
          var fileName := StoredFileName(env.uuid, file.name);
          var filePath := env.uploadsDir + "/" + fileName;
          if !env.writeOk then Rejected(UploadFailed)
          else
            var stored := Some((filePath, file.bytes));
            var stateName := StateNameFor(file.name);
            match env.states
            case None => UploadResult(Failure(UploadFailed), stored, None, None, None)
            case Some(states) =>
              var (state, created) := ResolveState(states, stateName, env.newStateId);
              match state
              case None => UploadResult(Failure(UploadFailed), stored, None, None, None)
              case Some(st) =>
                var policy := NewPolicy(st.id, file.name, file.name, file.size, IngestRunner.Processing);
                match env.newPolicyId
                case None => UploadResult(Failure(UploadFailed), stored, created, None, None)
                case Some(policyId) =>
                  UploadResult(Success(Uploaded(fileName, policyId, st.name)), stored, created,
                               Some(policy),
                               Some(IngestRunner.Job(policyId, Some(file.bytes), Some(filePath), false)))
  }

  /** A successful upload stored the file under its sanitised, prefixed name,
      created the policy as `processing`, and queued exactly that policy with
      the in-memory bytes, the stored path and no deletion afterwards. */
  lemma AcceptedUploadIsQueued(env: UploadEnv)
    requires Upload(env).response.Success?
    ensures env.allowUpload == Some("true") && env.allowIngest == Some("true")
    ensures env.form.Some? && env.form.value.Some? && IsPdfType(env.form.value.value.mimeType)
    ensures var file := env.form.value.value;
            var r := Upload(env);
            var path := env.uploadsDir + "/" + StoredFileName(env.uuid, file.name);
            && r.response.value.fileName == StoredFileName(env.uuid, file.name)
            && r.storedFile == Some((path, file.bytes))
            && r.createdPolicy.Some? && r.createdPolicy.value.status == IngestRunner.Processing
            && r.createdPolicy.value.title == file.name && r.createdPolicy.value.fileSize == file.size
            && r.enqueued == Some(IngestRunner.Job(r.response.value.policyId, Some(file.bytes), Some(path), false))
    ensures var file := env.form.value.value;
            var r := Upload(env);
            var st := ResolveState(env.states.value, StateNameFor(file.name), env.newStateId).0;
            && st.Some?
            && r.createdPolicy.value.stateId == st.value.id
            && r.response.value.stateName == st.value.name
  {
    assert env.allowUpload == Some("true") && env.allowIngest == Some("true");
    assert env.form.Some? && env.form.value.Some?;
    var file := env.form.value.value;
    assert IsPdfType(file.mimeType) && env.mkdirOk && env.writeOk && env.states.Some?;
    var (state, created) := ResolveState(env.states.value, StateNameFor(file.name), env.newStateId);
    assert state.Some? && env.newPolicyId.Some?;
  }

  /** A new state is created, with its abbreviation, exactly when no stored
      state matches the name up to letter case; otherwise the upload is filed
      under the stored state, in its own spelling. */
  lemma StateCreatedOnlyWhenMissing(states: seq<StateRow>, name: string, newStateId: Option<string>)
    ensures var (state, created) := ResolveState(states, name, newStateId);
            && (created.Some? <==> forall i :: 0 <= i < |states| ==> ToLower(states[i].name) != ToLower(name))
            && (created.Some? ==> created.value == NewState(name, PdfProcessor.GetStateAbbreviation(name))
                                  && (state.Some? <==> created.value.abbreviation.Code? && newStateId.Some?)
                                  && (state.Some? ==> state.value == StateRow(newStateId.value, name)))
            && (created.None? ==> state.Some? && state.value in states
                                  && ToLower(state.value.name) == ToLower(name))
  {
    var found := FindState(states, name);
    if found.Some? {
      var i :| 0 <= i < |states| && states[i] == found.value && ToLower(states[i].name) == ToLower(name);
    }
  }
}

=== FILE: wrappers.dfy ===
/** Failure-carrying values shared by every module of the model. A JavaScript
    `null`/`undefined` becomes `None`; a thrown `Error` becomes `Failure`. */
module Wrappers {

  datatype Option<+T> = None | Some(value: T) {
    /** The value, or `default` when absent (JavaScript's `??`). */
    function GetOr(default: T): T {
      match this
      case Some(v) => v
      case None => default
    }
  }

  datatype Result<+R, +E> = Success(value: R) | Failure(error: E) {
    predicate IsFailure() {
      Failure?
    }

    function PropagateFailure<U>(): Result<U, E>
      requires Failure?
    {
      Failure(error)
    }

    function Extract(): R
      requires Success?
    {
      value
    }
  }
}
